=== FILE: README.md ===
# juntae-school access and content core, in Dafny

juntae-school is a React front end for an online school. It has lectures for two
kinds of course ("membership" and "master"), a blog of posts, reviews with likes,
and a user table (`usersext`) that holds each user's role, admin flag and cohort
numbers. This project models the part of it that decides who may see and change
what, and the logic that turns form input into backend records:

- **Entitlement.** The project models the three `hasAccess` implementations:
  - the role-aware one in `useUserRole`;
  - the strict one in the auth context of `useAuth.js`;
  - the permissive one in `useAuth.jsx`.

  They are compared with each other and with a reference rule (`Access`). The model
  also covers the upgrade banner's gate (`Banner`), the post editor check
  (`PostDetail`), and the profile `useUserRole` derives from a stored row
  (`UserRole`).
- **Sign-in.** The mock users that `login` and `signup` build (`Auth`). The sign-in
  dialog's validation, edits, mode switch and submit (`AuthModal`).
- **The `usersext` service** (`UsersExt`):
  - the admin guard on every write;
  - the records `create` and `update` send;
  - the lookup by auth id;
  - `ensureUserRecord`.
- **The lecture, post and review services** (`LectureService`, `PostService`,
  `Reviews`), over an abstract backend table (`Service`):
  - the records each write sends;
  - what each list query selects and in which order;
  - the comma-separated likes list with its parse, toggle and membership test.
- **Pages and forms:**
  - the lecture management page's search, type filter and stable sort
    (`LecturesPage`), with the cards it renders (`LectureCard`, `LectureList`);
  - the user administration page's gate and one-column edits (`AdminUsers`);
  - the lecture and post forms' prefill, validation, submit and text splicing
    (`LectureForm`, `PostForm`, with `Url` and `FormErrors`).

JavaScript values are modelled explicitly where the code depends on them (`Js`):
- `undefined`, `null`, booleans, integers, `NaN` and strings;
- truthiness and `||`;
- strict equality, under which `NaN` equals nothing;
- `parseInt`, as a concrete decimal parser with a round-trip lemma.

Backend calls are pure functions of a `Store` (the table's rows and whether requests
to it succeed) and of a `Response` (the per-record write results).

Supporting modules:
- `Text`: ECMAScript white space and `trim`, ASCII lowercasing, `includes`,
  `substring`, `split` and `join`.
- `Ordering`: a stable insertion sort, proved to permute, to sort and to be stable.
- `Seqs`: filtering.
- `Options`.

`Access.Evaluate`, the reference rule, lets everyone reach a resource that has no
requirement. Every `hasAccess` refuses a signed-out caller before it looks at the
requirement, and so does the model of each (`Access.PublicRefusedWhenSignedOut`).

## Model

| member | source | states |
|---|---|---|
| Access.SelectedCohort | src/hooks/useUserRole.js:102-106 | a cohort requirement of `membership` reads the membership cohort, any other value the master cohort |
| Access.RoleAwareHasAccess | src/hooks/useUserRole.js:95-110 | signed-out callers are refused and admins admitted; otherwise a role requirement needs that role or `both`, and a cohort requirement a positive cohort |
| Access.StrictHasAccess | src/hooks/useAuth.js:103-118 | no user is refused and admins admitted; otherwise a role requirement needs exactly that role, and a cohort requirement a positive cohort |
| Access.PermissiveHasAccess | src/hooks/useAuth.jsx:116-122 | access is granted exactly when a user is signed in, whatever is required |
| Access.AuthHasAccess | src/hooks/useAuth.jsx:116-122 | the auth context's check is the strict one in one build and the permissive one in the other |
| Access.RoleAwareRoleCheck | src/hooks/useUserRole.js:100 | for a signed-in non-admin, a role requirement fails when the role is neither it nor `both`, and is otherwise transparent |
| Access.RoleAwareCohortCheck | src/hooks/useUserRole.js:102-109 | for a signed-in non-admin, a cohort requirement holds iff the selected cohort is positive, and no requirement always holds |
| Access.StrictRoleCheck | src/hooks/useAuth.js:108 | in the strict check any role other than the required one, `both` included, fails, and a match is transparent |
| Access.StrictCohortCheck | src/hooks/useAuth.js:110-117 | in the strict check a cohort requirement holds iff the selected cohort is positive |
| Access.StrictImpliesRoleAware | src/hooks/useAuth.js:103-118 | whoever the strict check admits, the role-aware check admits too |
| Access.StrictAndRoleAwareDisagreement | src/hooks/useAuth.js:108 | the strict and role-aware checks differ exactly for a non-admin `both` user facing a role other than `both` whose cohort requirement, if any, passes |
| Access.BothAgainstMember | src/hooks/useUserRole.js:100 | a `both` user facing `member` is admitted by the role-aware and permissive checks and refused by the strict one |
| Access.PermissiveDominates | src/hooks/useAuth.jsx:116-122 | the permissive check admits everyone the other two admit, and admits a `free` user to an `admin` requirement that both others refuse |
| Access.AllAgreeOnAnonymousAndAdmins | src/hooks/useAuth.js:104-106 | all checks refuse the signed-out and admit admins |
| Access.Evaluate | src/hooks/useUserRole.js:95-110 | the reference rule: public resources are open; others refuse the anonymous, admit admins, and need the role (or `both`) or a positive cohort |
| Access.RoleAwareMatchesRule | src/hooks/useUserRole.js:95-110 | the role-aware check equals the reference rule for every signed-in profile and every non-public requirement |
| Access.PublicRefusedWhenSignedOut | src/hooks/useUserRole.js:96 | a public resource is refused to a signed-out caller, unlike the reference rule |
| Access.StrictMatchesRuleExceptBoth | src/hooks/useAuth.js:103-118 | the strict check equals the reference rule except for `both` users facing a role requirement other than `both` |
| UserRole.NormaliseRecord | src/hooks/useUserRole.js:37-42 | each field of a stored row falls back to its default: a missing or empty role is `free`, the admin flag is its truthiness, a missing cohort is 0; no row gives the default profile |
| UserRole.EmptyRowIsDefault | src/hooks/useUserRole.js:34-51 | a row with every field empty reads as the default profile |
| UserRole.FetchUserRole | src/hooks/useUserRole.js:17-68 | without authentication or an id the default profile, with no lookup; otherwise the found row normalised; an unreachable table gives the default |
| UserRole.RefreshUserRole | src/hooks/useUserRole.js:71-92 | a refresh replaces the profile only when a row is found, and keeps the previous profile otherwise |
| UserRole.MissingRowOnlyPassesOpenChecks | src/hooks/useUserRole.js:52-63 | a signed-in user without a row fails every cohort requirement and every role requirement other than `free` or `both` |
| Auth.MockUser | src/hooks/useAuth.js:36-45 | the mock user has id `user_<stamp>`, the given email and name, role `free`, no admin flag and no cohort |
| Auth.Login | src/hooks/useAuth.js:28-59 | login signs in a default-profile user and closes the dialog; the name is the email up to its first `@`, the whole email when it has none |
| Auth.LoginName | src/hooks/useAuth.js:39 | signing in as `local@domain` gives the name `local` |
| Auth.Signup | src/hooks/useAuth.js:61-92 | signup signs in a default-profile user with the given email and name and closes the dialog |
| Auth.Logout | src/hooks/useAuth.js:94-98 | after logout nobody is signed in |
| Auth.LogoutRefusesAll | src/hooks/useAuth.js:104 | after logout the strict and permissive checks refuse everything |
| Auth.FreshUserCohortChecks | src/hooks/useAuth.jsx:116-122 | a freshly signed-in mock user passes a cohort check only under the permissive build |
| Banner.ProtectedRoute | src/components/organisms/UpgradeBanner.jsx:11-21 | exactly four paths are guarded, `/profile` with the sign-in caption `프로필` |
| Banner.ShouldShow | src/components/organisms/UpgradeBanner.jsx:24-30 | (a definition) the banner condition: nobody signed in, a membership route with membership cohort exactly 0, a master route with master cohort exactly 0, or the premium route for a `free` role; `Banner.Banner` and `Banner.SignedInBannerPerRoute` state its consequences |
| Banner.BannerContent | src/components/organisms/UpgradeBanner.jsx:34-74 | the sign-in message (which opens the dialog) exactly when nobody is signed in; a signed-in user gets the title and action of the route type: membership upgrade, master enrolment, premium upgrade, or the generic message on any other route |
| Banner.Banner | src/components/organisms/UpgradeBanner.jsx:24-32 | no banner off the table; on it a banner iff nobody is signed in or the route's cohort is 0 or the premium route meets a `free` role; the content is the route's |
| Banner.AnonymousAlwaysSignIn | src/components/organisms/UpgradeBanner.jsx:25-26 | the signed-out see the sign-in banner on every guarded route |
| Banner.SignedInBannerPerRoute | src/components/organisms/UpgradeBanner.jsx:27-31 | a signed-in user sees the banner on each route exactly under its own condition, and never on `/profile` |
| Banner.GenericMessageUnreachable | src/components/organisms/UpgradeBanner.jsx:66-73 | the generic upgrade message is never shown |
| Banner.BannerDisagreesWithAccess | src/components/organisms/UpgradeBanner.jsx:27-28 | an admin with cohort 0 gets the banner yet passes `hasAccess`; a negative cohort gets no banner yet fails it |
| PostDetail.CanEdit | src/components/pages/PostDetailPage.jsx:44-47 | nobody without a user and a post; admins always; others iff their id strictly equals the post's author id |
| PostDetail.NaNAuthorOnlyAdmins | src/components/pages/PostDetailPage.jsx:46 | a post whose author id is `NaN` is editable by admins only |
| PostDetail.MockAuthorCannotEditOwnPost | src/services/postService.js:96 | a mock user's own post, stored with `parseInt("user_…")`, is not editable by them |
| UsersExt.GetAll | src/services/usersExtService.js:37-75 | every row, newest first, or `[]` when the fetch fails |
| UsersExt.FirstWithAuthId | src/services/usersExtService.js:134 | the first index holding that auth id, or none when no row holds it |
| UsersExt.FindByAuthId | src/services/usersExtService.js:107-139 | the first row whose `id` is the auth id, or `null` when none is or the fetch fails |
| UsersExt.CurrentUser | src/services/usersExtService.js:17-30 | the signed-in user's row, looked up by their truthy `userId`, else `null` |
| UsersExt.NoAdminWithoutRows | src/services/usersExtService.js:32-35 | nobody has admin permission on an empty or unreachable table |
| UsersExt.StrictAdminFlag | src/services/usersExtService.js:34 | an `is_admin` of `1` is truthy yet gives no write permission |
| UsersExt.CreateRecord | src/services/usersExtService.js:153-162 | `Name` is the email or `User`; a truthy role, admin flag or cohort is sent unchanged, a falsy one becomes `free`, `false` or 0 |
| UsersExt.Create | src/services/usersExtService.js:142-201 | a record is sent iff the caller is an admin; a refused call returns `null`; otherwise the first successful result |
| UsersExt.UpdateRecord | src/services/usersExtService.js:215-227 | the patch carries the parsed id, `Name` and `email` together when the email is truthy, and each other column whenever it is defined |
| UsersExt.UpdateOfOneColumn | src/services/usersExtService.js:221-225 | an edit of one column sends that column only |
| UsersExt.Update | src/services/usersExtService.js:204-266 | a patch is sent iff the caller is an admin; a refused call returns `null` |
| UsersExt.Delete | src/services/usersExtService.js:269-317 | a delete is sent iff the caller is an admin; the result is true iff some deletion succeeded |
| UsersExt.NewUserData | src/services/usersExtService.js:345-352 | a new user is free, in no cohort, and admin exactly when the table looked empty |
| UsersExt.CheckAdminPermission | src/services/usersExtService.js:32-35 | (a definition) admin permission is the signed-in user's own row having `is_admin` exactly `true`; `NoAdminWithoutRows` states its consequence |
| UsersExt.EnsureUserRecord | src/services/usersExtService.js:320-370 | a missing id or email does nothing; otherwise the user is looked up and an existing row is returned; with no row, a create for a free user in no cohort (admin iff `getAll` came back empty) is sent exactly when the admin guard passes, and its outcome is returned |
| UsersExt.EnsureNeverCreatesAdmin | src/services/usersExtService.js:345-358 | as written, no record with `is_admin: true` is ever sent, and nothing is created in an empty table |
| UsersExt.EnsureNeverCreatesSelf | src/services/usersExtService.js:338-358 | as written, a user who is the SDK's signed-in user and has no row never gets one |
| UsersExt.EnsureUserRecordBootstrap | src/services/usersExtService.js:320-370 | the corrected version: a missing id or email does nothing; an existing row is returned; with no row, the create for a free user in no cohort (admin iff `getAll` came back empty) is always sent and its outcome returned |
| UsersExt.BootstrapCreatesFirstAdmin | src/services/usersExtService.js:342-352 | corrected, a valid user without a row gets a free record in no cohort, and it is admin iff the table is empty |
| Reviews.ParseLikes | src/services/reviewService.js:246 | the likes are the non-blank, comma-free pieces of the split, in order, and every non-blank piece is kept as often as it occurs; `null` and `""` give none |
| Reviews.ToggleLikes | src/services/reviewService.js:249-256 | a present user is removed, every other entry keeping its count and order; an absent user is appended |
| Reviews.ToggledLikes | src/services/reviewService.js:249-262 | for a non-blank, comma-free user id, the likes string sent parses back to exactly the toggled list |
| Reviews.ParseJoin | src/services/reviewService.js:246-260 | parsing the join of non-blank, comma-free entries gives them back |
| Reviews.HasUserLiked | src/services/reviewService.js:272-276 | false without a review, likes or user id; otherwise membership in the parsed list |
| Reviews.ToggleFlipsLiked | src/services/reviewService.js:236-270 | a toggle flips `hasUserLiked` for that user and leaves every other user's answer unchanged |
| Reviews.CanUserDelete | src/services/reviewService.js:278-281 | a review and a truthy user id, strictly equal to the review's author id |
| Reviews.CreatorAloneCanDelete | src/services/reviewService.js:278-281 | a review stored from a create with a truthy `author_id` can be deleted by that id and by no other truthy id |
| Reviews.Excerpt | src/services/reviewService.js:90 | `text?.substring(0, 50)`: `undefined` for nullish, the first 50 characters of a string, a thrown error otherwise |
| Reviews.CreateRecord | src/services/reviewService.js:85-136 | `Name` is a non-empty prefix of at most 50 characters of the text, or `리뷰`; likes default to `""`; a non-string text sends nothing |
| Reviews.UpdateRecord | src/services/reviewService.js:139-190 | `Name` is the text excerpt or the given `Name`; text, author id and author name are sent with their given values when truthy, likes whenever defined |
| Reviews.CreateAndUpdateAgreeOnName | src/services/reviewService.js:90-145 | for a non-empty text, `create` and `update` send the same `Name`, the text's first 50 characters |
| Reviews.ToggleLike | src/services/reviewService.js:236-270 | nothing for a missing review; otherwise an update of the record `parseInt(id)` that carries only the toggled likes |
| LectureService.CreateRecord | src/services/lectureService.js:90-100 | `Name` is the title or `강의 제목`, never empty; each number column is `parseInt(value) \|\| 0`: a number passes through, a string is parsed and 0 when it does not parse, anything else becomes 0; the other columns are copied |
| LectureService.IfDefinedParsed | src/services/lectureService.js:149-153 | a numeric column is sent whenever defined, as `parseInt` of its value: a number passes through, a string is parsed, and whatever does not parse is `NaN` |
| LectureService.UpdateRecord | src/services/lectureService.js:145-155 | the patch carries the parsed id, `Name` and `title` together when truthy, the numbers when defined, and the text columns when truthy |
| LectureService.LectureObject | src/services/lectureService.js:90-100 | the object has exactly the six columns `create` and `update` read, each holding its field |
| LectureService.CreateOfLectureData | src/services/lectureService.js:90-100 | creating from a lecture's own data stores exactly its columns |
| LectureService.UpdateOfLectureData | src/services/lectureService.js:145-155 | saving an unchanged lecture sends its id and numbers, and exactly its non-empty text columns |
| LectureService.GetAll | src/services/lectureService.js:14-52 | every lecture, ascending by `sort_order`, or `[]` when the fetch fails |
| LectureService.GetLecture | src/services/lectureService.js:55-84 | a lecture whose `Id` is `parseInt(id)`, found whenever the table holds one; `null` otherwise or when the fetch fails |
| LectureService.IsMasterLecture | src/services/lectureService.js:285-332 | (a definition) the shared course is the `master_common` lectures; any other is the `master` lectures whose cohort equals `parseInt(cohort) \|\| 0`; `GetMasterLectures` states its consequence |
| LectureService.GetMasterLectures | src/services/lectureService.js:281-354 | the shared course is every `master_common` lecture; any other course is the `master` lectures of exactly the user's cohort; each matching row exactly as often as the table holds it, sorted |
| LectureService.GetByMembershipCohort | src/services/lectureService.js:398-441 | the membership lectures of every cohort up to the bound, each matching row exactly as often as the table holds it, sorted; a `NaN` bound gives none |
| LectureService.IsMembershipLectureUpTo | src/services/lectureService.js:410-421 | (a definition) a `membership` lecture whose cohort is at most `parseInt(n)`, nothing for a `NaN` bound; `GetByMembershipCohort` and `MembershipCohortMonotone` state its consequences |
| LectureService.MembershipCohortMonotone | src/services/lectureService.js:410-427 | a later cohort sees every lecture an earlier one sees |
| LectureService.GetByType | src/services/lectureService.js:240-278 | exactly the lectures of that type, each as often as the table holds it, sorted |
| LectureService.GetByCohort | src/services/lectureService.js:357-395 | exactly the lectures whose cohort equals `parseInt(n)`, each as often as the table holds it, sorted |
| PostService.CreateRecord | src/services/postService.js:90-99 | `Name` is the title or `제목 없음`; the author id is `parseInt` of the given one, a number or `NaN`; `created_at` is the part of the timestamp before `T` |
| PostService.CreatedAtIsDate | src/services/postService.js:98 | a post created at `date` + `T` + time is stamped `date` |
| PostService.UpdateRecord | src/services/postService.js:145-155 | every column, the parsed author id included, is sent only when truthy, and `Name` travels with `title` |
| PostService.UpdateDropsZeroAuthor | src/services/postService.js:151 | an author id of `0` is not sent |
| PostService.GetAll | src/services/postService.js:14-52 | every post, newest first, or `[]` when the fetch fails |
| PostService.GetPost | src/services/postService.js:55-84 | a post whose `Id` is `parseInt(id)`, found whenever the table holds one; `null` otherwise or when the fetch fails |
| PostService.GetByAuthor | src/services/postService.js:240-278 | exactly the posts whose author id is `parseInt` of the given id, each as often as the table holds it, newest first |
| PostService.GetByAuthorOfUnparsable | src/services/postService.js:252-264 | an author id that does not parse selects nothing |
| PostService.Matches | src/services/postService.js:293-328 | (a definition) the title, the content or the author name contains the query; `Search` states its consequence |
| PostService.Search | src/services/postService.js:281-349 | exactly the posts whose title, content or author name contains the query, each as often as the table holds it, newest first |
| PostService.SearchEmpty | src/services/postService.js:293-335 | an empty query finds every post |
| Service.FirstSuccess | src/services/lectureService.js:111-128 | the data of the first successful per-record result, or none when none succeeded |
| Service.WriteResult | src/services/lectureService.js:102-139 | a write returns the first successful record, and `null` when the call failed or nothing succeeded |
| Service.DeleteResult | src/services/lectureService.js:210-237 | a delete is true iff some deletion succeeded |
| Service.Query | src/services/lectureService.js:14-52 | a list query returns exactly the matching rows, each as often as the table holds it, sorted by its key, or `[]` when the fetch fails |
| Service.GetById | src/services/lectureService.js:55-84 | a lookup returns a row with that id, when one exists, or `null` |
| Js.ParseInt | src/services/lectureService.js:94 | (a definition) `parseInt` of a string: leading white space skipped, one sign, a `0x` prefix for base 16, the longest digit run, no digits giving `NaN`; `ParseIntRoundTrip` and `ParseIntOfWord` state its consequences |
| Js.ParseIntValue | src/services/lectureService.js:145 | `parseInt` of a value is a number or `NaN`: a number is its own result, a string is parsed, anything else is `NaN` |
| Js.ParseIntOrZero | src/services/lectureService.js:93 | the parsed integer, with `NaN` replaced by 0 |
| Js.ParseIntRoundTrip | src/components/pages/AdminUsersPage.jsx:85-88 | `parseInt` of a number's decimal form is that number |
| Js.ParseIntOfWord | src/services/postService.js:96 | `parseInt` of a string that starts with a letter is `NaN` |
| Js.ParseIntValueIsJsParseInt | src/components/organisms/LectureForm.jsx:71-85 | parsing a value equals JavaScript's `parseInt` of its string form, and the zero default equals that result or 0 |
| Text.TrimEmptyIffBlank | src/components/organisms/LectureForm.jsx:33-60 | `trim()` is empty exactly when the string is all white space |
| Text.Lower | src/components/pages/LecturesPage.jsx:89-90 | lowercasing keeps the length and lowers each character in place |
| Text.Substring | src/components/organisms/PostForm.jsx:120-157 | `substring` clamps each bound into the string (a negative start is 0, an end past the string is its length) and swaps them when reversed |
| Text.From | src/components/organisms/PostForm.jsx:108 | `substring(start)` is the suffix from the clamped start: the whole string from a start at or below 0, nothing from a start at or past the end |
| Text.SplitPiecesAvoidSeparator | src/services/reviewService.js:246 | no piece of a split contains the separator |
| Text.JoinSplit | src/services/reviewService.js:246-262 | joining the split gives the string back |
| Text.SplitJoin | src/services/reviewService.js:246-262 | splitting the join of separator-free pieces gives them back |
| Text.BeforeFirst | src/services/postService.js:98 | the part before the first separator: all of a separator-free string, or a proper prefix followed by the separator |
| Text.BeforeFirstOfHead | src/services/postService.js:98 | the part of `head` + sep + `tail` before the first separator is `head` |
| Ordering.SortBy | src/components/pages/LecturesPage.jsx:93-104 | (a definition) an insertion sort by a key; `SortByPermutes`, `SortBySorted` and `SortByStable` state that it is a stable sort |
| Ordering.SortByPermutes | src/components/pages/LecturesPage.jsx:93-104 | the sort is a permutation |
| Ordering.SortBySorted | src/components/pages/LecturesPage.jsx:93-104 | the sort's result is ordered by its key |
| Ordering.SortByStable | src/components/pages/LecturesPage.jsx:93-104 | elements with equal keys keep their order |
| Ordering.SortBySortedIsIdentity | src/components/pages/LecturesPage.jsx:93-104 | sorting an ordered list changes nothing |
| Ordering.SortByIdempotent | src/components/pages/LecturesPage.jsx:93-104 | sorting twice is sorting once |
| Seqs.Filter | src/components/pages/LecturesPage.jsx:88-93 | the filter keeps exactly the passing elements, in order |
| Seqs.FilterCount | src/services/reviewService.js:251 | filtering keeps each passing value's count |
| Seqs.FilterCounts | src/services/reviewService.js:251 | filtering keeps the count of every passing value and drops every failing one |
| Seqs.FilterAllPass | src/components/pages/LecturesPage.jsx:88-93 | filtering by a predicate every element passes changes nothing |
| Seqs.FilterIdempotent | src/components/pages/LecturesPage.jsx:88-93 | filtering twice is filtering once |
| LecturesPage.MatchesSearch | src/components/pages/LecturesPage.jsx:89-90 | (a definition) the lowercased term occurs in the lowercased title or category; `VisibleIff` states its consequence |
| LecturesPage.MatchesType | src/components/pages/LecturesPage.jsx:91 | (a definition) the filter is `all` or the lecture's type; `VisibleIff` states its consequence |
| LecturesPage.VisibleLectures | src/components/pages/LecturesPage.jsx:88-104 | the visible list is a permutation of the lectures passing search and type filter, sorted by the chosen key |
| LecturesPage.VisibleIff | src/components/pages/LecturesPage.jsx:88-93 | a lecture is shown iff it is listed, its lowercased title or category contains the lowercased term, and the filter is `all` or its type |
| LecturesPage.VisibleOrder | src/components/pages/LecturesPage.jsx:93-104 | the order is by title or type as text, by cohort, or by `sort_order` |
| LecturesPage.VisibleStable | src/components/pages/LecturesPage.jsx:93-104 | lectures with equal keys keep their listed order |
| LecturesPage.VisibleIdempotent | src/components/pages/LecturesPage.jsx:88-104 | applying the same search, filter and sort again changes nothing |
| LecturesPage.NoFilterShowsAll | src/components/pages/LecturesPage.jsx:88-93 | an empty search with `all` shows every lecture |
| LecturesPage.SearchIgnoresCase | src/components/pages/LecturesPage.jsx:89 | `ALPHA` finds a lecture titled `alpha` |
| LecturesPage.SortOrderScenario | src/components/pages/LecturesPage.jsx:101-102 | lectures with `sort_order` 2 and 1 are shown as 1, 2 |
| LecturesPage.ShownPairSwapped | src/components/pages/LecturesPage.jsx:88-104 | two shown lectures whose keys are out of order come out swapped |
| LecturesPage.EmptyMessage | src/components/pages/LecturesPage.jsx:195-200 | a message iff nothing is visible: the criteria message when a search or filter is in force, else the empty-catalogue one |
| LecturesPage.EmptyCatalogueMessage | src/components/pages/LecturesPage.jsx:195-200 | with no search or filter, the empty state appears only for an empty catalogue |
| LecturesPage.CanManage | src/components/pages/LecturesPage.jsx:128 | management is refused to the signed-out; under the strict build it needs the admin flag or role, under the permissive build any user |
| LecturesPage.Page | src/components/pages/LecturesPage.jsx:106-207 | a sign-in notice iff nobody is signed in; otherwise the loading view while loading, then the error, then the empty message iff the visible list is empty and the grid of its cards iff not, with the create button for managers |
| LecturesPage.CardButtonsFollowAccess | src/components/pages/LecturesPage.jsx:206 | under the strict build only admins get edit buttons; under the permissive build every signed-in user gets edit and delete |
| LectureCard.TypeLabel | src/components/molecules/LectureCard.jsx:7-18 | the three known types get their Korean names; any other type shows as it is |
| LectureCard.TypeLabelDistinguishesKnownTypes | src/components/molecules/LectureCard.jsx:7-18 | a known type's label is shared only by that type or by a raw type spelled as the label |
| LectureCard.TypeColor | src/components/molecules/LectureCard.jsx:20-31 | one of four colours, slate exactly for an unknown type |
| LectureCard.ColorMatchesLabel | src/components/molecules/LectureCard.jsx:7-31 | a badge is slate exactly when it shows the raw type |
| LectureCard.Card | src/components/molecules/LectureCard.jsx:33-110 | a cohort badge iff the cohort is positive, a watch link iff there is a link, and the buttons as given |
| LectureList.Cards | src/components/organisms/LectureList.jsx:4-17 | one card per lecture in order, with edit and delete buttons, bound to that lecture, iff editing is allowed |
| AdminUsers.AdminGate | src/components/pages/AdminUsersPage.jsx:26-36 | the users load iff the role has loaded and the caller is an admin; a non-admin gets the admin-required message |
| AdminUsers.View | src/components/pages/AdminUsersPage.jsx:90-133 | loading while either load runs; then the error screen with its message; then the no-access notice for a non-admin; then, for an admin, the empty state with no users and the table of exactly the users otherwise |
| AdminUsers.DeniedShowsError | src/components/pages/AdminUsersPage.jsx:90-108 | a refused non-admin sees the error screen, not the no-access notice |
| AdminUsers.AdminSeesEveryRow | src/components/pages/AdminUsersPage.jsx:123-133 | an admin sees every row, and the table iff the table has rows |
| AdminUsers.Field | src/components/pages/AdminUsersPage.jsx:77-88 | an edit writes one of the four editable columns |
| AdminUsers.Value | src/components/pages/AdminUsersPage.jsx:77-88 | an edit never writes `undefined` |
| AdminUsers.Apply | src/components/pages/AdminUsersPage.jsx:63-67 | the local edit keeps a row's id, auth id, email and creation time |
| AdminUsers.ApplyChangesOneColumn | src/components/pages/AdminUsersPage.jsx:63-67 | an edit changes exactly its own column of the profile read from the row |
| AdminUsers.HandleSave | src/components/pages/AdminUsersPage.jsx:56-75 | the save sends the service's one-column update; the list keeps its length; when a record comes back every row with that id becomes `{ ...user, [field]: value }` and every other row is unchanged, otherwise the list is unchanged |
| AdminUsers.SaveSendsOneColumn | src/components/pages/AdminUsersPage.jsx:56-75 | a save sends the row id and the edited column only, and only for an admin; the list changes only when the backend accepts |
| AdminUsers.SavedRowReadsAsEdited | src/components/pages/AdminUsersPage.jsx:63-67 | after an accepted save the row reads as the edit says |
| AdminUsers.SaveIdempotent | src/components/pages/AdminUsersPage.jsx:56-75 | saving the same edit twice leaves the list as saving it once |
| AdminUsers.ToggleAdmin | src/components/pages/AdminUsersPage.jsx:77-79 | the toggle sets the negation of the row's current flag |
| AdminUsers.ToggleTwice | src/components/pages/AdminUsersPage.jsx:77-79 | two toggles restore the profile, with the flag now a strict boolean |
| AdminUsers.CohortChange | src/components/pages/AdminUsersPage.jsx:85-88 | a cohort edit stores the parsed input, or 0 when it does not parse |
| AdminUsers.CohortInput | src/components/pages/AdminUsersPage.jsx:85-88 | typing a number's decimal form stores it; typing a word stores 0 |
| AdminUsers.ShownAgreesWithHook | src/components/pages/AdminUsersPage.jsx:167-213 | the table shows each row as the role hook reads it |
| FormErrors.ClearError | src/components/organisms/PostForm.jsx:76-82 | an edit blanks that field's non-empty message and keeps every field key |
| FormErrors.Displayed | src/components/organisms/PostForm.jsx:76-82 | the displayed messages are exactly the non-empty ones |
| FormErrors.ClearErrorHidesOnlyThatField | src/components/organisms/PostForm.jsx:76-82 | after an edit the edited field shows no message and every other message stays |
| Url.SchemeEnd | src/components/organisms/LectureForm.jsx:62-69 | the scan stops at the first character after the run of scheme characters |
| Url.UrlExamples | src/components/organisms/LectureForm.jsx:62-69 | `https://example.com` is accepted and `example.com` refused |
| Url.IsValidUrlIffScheme | src/components/organisms/LectureForm.jsx:62-69 | the scan accepts exactly the strings that start with a scheme followed by a colon |
| LectureForm.Prefill | src/components/organisms/LectureForm.jsx:20-31 | a new form starts empty with type `membership`; an edit form takes the lecture's columns, with an empty type read as `membership` |
| LectureForm.FormObject | src/components/organisms/LectureForm.jsx:87-102 | the submitted object carries each field under its column name |
| LectureForm.PrefillRoundTrip | src/components/organisms/LectureForm.jsx:20-31 | submitting a prefilled form unchanged submits the lecture's own data |
| LectureForm.Edit | src/components/organisms/LectureForm.jsx:71-85 | an edit sets the field; a number field takes the parsed input or 0 |
| LectureForm.EditForm | src/components/organisms/LectureForm.jsx:71-85 | an edit sets the field as `Edit` says and blanks that field's message, every other message staying as it was |
| LectureForm.EditNumberRoundTrip | src/components/organisms/LectureForm.jsx:71-85 | typing a number's decimal form into a number field stores that number |
| LectureForm.FieldError | src/components/organisms/LectureForm.jsx:33-60 | a blank title or category, a missing or malformed link, or a negative number gets its message |
| LectureForm.Validate | src/components/organisms/LectureForm.jsx:33-60 | the errors are exactly the fields with a message, each with it |
| LectureForm.ValidateEmptyIffValid | src/components/organisms/LectureForm.jsx:33-60 | validation passes iff title and category are not blank, the link is a URL and no number is negative |
| LectureForm.InitialFormRefused | src/components/organisms/LectureForm.jsx:8-15 | the initial form is refused with the three required-field messages |
| LectureForm.InitialFormErrorFields | src/components/organisms/LectureForm.jsx:8-15 | the initial form has errors for title, category and link and for no other field |
| LectureForm.BlankFieldsRequired | src/components/organisms/LectureForm.jsx:36-46 | blank title, category and link give the three required-field messages and an invalid form |
| LectureForm.Submit | src/components/organisms/LectureForm.jsx:87-102 | the form is submitted iff it is valid |
| LectureForm.SubmitCreates | src/services/lectureService.js:90-100 | a submitted form creates a lecture with exactly its columns, its title as `Name`, and no negative number |
| AuthModal.EmailLike | src/components/organisms/AuthModal.jsx:38 | (a definition) the unanchored pattern `\S+@\S+\.\S+`: somewhere a non-space, `@`, a run of non-spaces, `.`, a non-space; `EmailLikeHasAt` and `EmailExamples` state its consequences |
| AuthModal.EmailLikeHasAt | src/components/organisms/AuthModal.jsx:38-40 | an address the pattern accepts contains `@` |
| AuthModal.EmailExamples | src/components/organisms/AuthModal.jsx:38-40 | the pattern is unanchored but refuses a space before `@` and a missing dot |
| AuthModal.FieldError | src/components/organisms/AuthModal.jsx:33-61 | each field's message; name and confirmation are checked only when signing up |
| AuthModal.Validate | src/components/organisms/AuthModal.jsx:33-61 | the errors are exactly the fields with a message, each with it |
| AuthModal.ValidateEmptyIffValid | src/components/organisms/AuthModal.jsx:33-61 | validation passes iff the email matches, the password has six characters, and for signup the name is given and the confirmation matches |
| AuthModal.SignupStricter | src/components/organisms/AuthModal.jsx:46-58 | signup refuses everything login refuses |
| AuthModal.Edit | src/components/organisms/AuthModal.jsx:18-31 | an edit sets the field and blanks its message |
| AuthModal.ToggleMode | src/components/organisms/AuthModal.jsx:200 | the switch changes the mode and keeps fields and messages |
| AuthModal.ToggleModeTwice | src/components/organisms/AuthModal.jsx:200 | switching twice restores the dialog |
| AuthModal.Reset | src/components/organisms/AuthModal.jsx:84-93 | a reset gives empty fields, no messages and login mode |
| AuthModal.Submit | src/components/organisms/AuthModal.jsx:63-82 | a request is sent iff the form is valid, matching the mode; an invalid form shows its messages; a success resets the dialog |
| AuthModal.LoginNameFromValidEmail | src/hooks/useAuth.js:39 | a login the dialog lets through names the user by a strict prefix of the email ending before an `@` |
| PostForm.Prefill | src/components/organisms/PostForm.jsx:23-39 | an edit form takes the post's fields; a falsy author id falls back to the user's id and then `''`, an empty author name to the user's name and then `''`; a new form carries the user's id and name |
| PostForm.PrefillReplacesNaNAuthor | src/components/organisms/PostForm.jsx:28 | editing a post whose author id is `NaN` puts the editor's id in its place |
| PostForm.FormObject | src/components/organisms/PostForm.jsx:159-174 | the submitted object carries each field under its column name |
| PostForm.FieldError | src/components/organisms/PostForm.jsx:41-58 | a blank title or content, or a thumbnail that is given but not a URL, gets its message |
| PostForm.Validate | src/components/organisms/PostForm.jsx:41-58 | the errors are exactly the fields with a message, each with it |
| PostForm.ValidateEmptyIffValid | src/components/organisms/PostForm.jsx:41-58 | validation passes iff title and content are not blank and any thumbnail is a URL |
| PostForm.Submit | src/components/organisms/PostForm.jsx:159-174 | the form is submitted iff it is valid |
| PostForm.NewPostAuthor | src/components/organisms/PostForm.jsx:32-37 | a new post by a signed-in user with a non-blank title and content is submitted under the user's id, which `create` stores through `parseInt`, with the title as `Name` |
| PostForm.Edit | src/components/organisms/PostForm.jsx:69-97 | an edit sets the field and blanks its message; nothing else in the editor changes |
| PostForm.InsertImage | src/components/organisms/PostForm.jsx:99-118 | a missing or malformed URL changes nothing; otherwise only the content changes and the box is cleared and hidden |
| PostForm.InsertImageSplices | src/components/organisms/PostForm.jsx:104-112 | the image markup is spliced in at the cursor, the text around it kept |
| PostForm.MarkupFor | src/components/organisms/PostForm.jsx:126-148 | exactly six tags have markup, each with a non-empty placeholder |
| PostForm.InsertFormatting | src/components/organisms/PostForm.jsx:120-157 | an unknown tag changes nothing; every other part of the editor than the content stays as it was |
| PostForm.InsertFormattingWraps | src/components/organisms/PostForm.jsx:120-157 | the selection is wrapped in the tag's markup, or the placeholder when empty, and the text around it kept |
| PostForm.InsertFormattingUnwraps | src/components/organisms/PostForm.jsx:150-156 | for a non-empty selection the result is the tag markup added and nothing else: removing the two tags gives the content back |
| PostForm.FormattingExample | src/components/organisms/PostForm.jsx:124-130 | `h2` on the selected `b` in `abc` gives `a<h2>b</h2>c` |
| PostForm.PlaceholderExample | src/components/organisms/PostForm.jsx:128-130 | an empty selection at the end of `abc` gets the `h2` placeholder heading appended |
| PostForm.UnknownTagExample | src/components/organisms/PostForm.jsx:147-148 | a tag without markup (`h4`) leaves the editor unchanged |

## Left out

- Asynchrony is not modelled. Each page action is one step from a state to a state. Requests in flight, their interleaving and stale state are out of scope. This includes the missing `await`s in `src/components/pages/LecturesPage.jsx:35` and `src/components/pages/PostDetailPage.jsx:29`.
- Notifications (`toast`), console logging, `window.confirm`, `alert` and `window.open` are not modelled. A confirmation's answer is not a parameter. The model takes the confirmed path.
- The clock is a parameter:
  - the `Date.now()` stamp of a mock user's id;
  - the ISO timestamp `create` uses for `created_at`.
- `localStorage` persistence and the Redux store sync of the auth context are not modelled.
- The hosting SDK is abstract:
  - A table is its rows plus one flag for whether requests succeed. That flag covers `success: false` and a thrown call alike, and one flag serves a whole operation.
  - The backend's order among rows with equal sort keys is not documented. It is taken to be table order.
  - The backend's `Contains` operator is taken to be case-sensitive.
  - Fields the backend drops are not modelled (JSON omits `undefined` values).
- Text is sequences of characters:
  - `toLowerCase` lowers ASCII letters only.
  - `localeCompare` is code-unit order.
  - Lengths count characters, not UTF-16 units. This affects the six-character password and the 50-character review excerpt.
- Url.IsValidUrl: `new URL` is modelled as a scheme check (a letter, then letters, digits, `+`, `-` or `.`, then `:`). Whitespace stripping and per-scheme host rules are not modelled.
- Number values are integers. A fractional, infinite or out-of-range number is not modelled. `parseInt` on strings follows the language (white space, sign, `0x` prefix, longest digit run).
- The textarea cursor and selection are parameters of the image and formatting inserts.
- The `success` flag of `login` and `signup` is a parameter of `AuthModal.Submit`. Both builds return success unless something throws.
- AdminUsers.View: the page's list-fetch error path (the catch in `loadUsers`) is represented only by the `error` parameter.
- PostService.GetByAuthor: a `NaN` filter value is taken to match nothing. On the wire it is sent as `null` (JSON has no `NaN`), and what the backend does with a `null` value is not modelled.
- PostService.GetByAuthorOfUnparsable: rests on the same reading of a `NaN` filter value as `GetByAuthor`; with a backend that matches `null` against empty author ids, the result would differ.
- PostService.ByAuthor: the `NaN` reading above is built into this `where` clause through strict equality.
- LectureService.GetByMembershipCohort: a `NaN` bound is taken to match nothing. On the wire it is `null`, and the backend's `LessThanOrEqualTo` against `null` is not modelled.
- LectureService.IsMembershipLectureUpTo: the `NaN` reading above is built into this `where` clause.
- LectureService.IfDefinedParsed: a column that does not parse is recorded as `NaN`; the backend receives `null` for it, and what it stores is not modelled. The same holds for the author id of `PostService.CreateRecord` and `PostService.UpdateRecord`.
- LectureService.Lecture: `title` and `category` are non-null strings. In the source, `LecturesPage` lowercases them without a guard, so a `null` there throws; that failure is not modelled. The edit form's `|| ''` defaults (`src/components/organisms/LectureForm.jsx:23-26`) are.
- Reviews.HasUserLiked: the user id is a string. In the source a numeric id never equals a parsed entry under `includes`, so it always reads as not liked; that case is not modelled, and `ToggleLikes` and `ToggledLikes` have the same restriction.
- The pages that only display data are not modelled: home, profile, membership, master, money insight, reviews listing and navigation.
- The markup and styling of every component are not modelled. Only the data each one shows is.

## Findings

| source | as written | input that shows it | evidently intended | confidence | as-written member | corrected member |
|---|---|---|---|---|---|---|
| src/services/usersExtService.js:345-358 | `ensureUserRecord` creates the missing record through `create`. `create` first requires the SDK's signed-in user to already have an admin row (lines 146-151). | An empty table and a first sign-in with a valid id and email. The guard finds no row, refuses, and returns `null`. So the first user never becomes admin. Any later newcomer who is the signed-in user never gets a record either. | A user without a record gets a free record in no cohort. The first user in an empty table gets `is_admin: true`. | not executed | UsersExt.EnsureUserRecord | UsersExt.EnsureUserRecordBootstrap |

=== FILE: access.dfy ===
/**
 * The three `hasAccess` implementations the application carries, each as its own predicate,
 * and the entitlement rule they approximate, with lemmas that say exactly where they agree
 * and where they part.
 *
 * `hasAccess(requiredRole = null, requiredCohort = null)`: both arguments are strings or
 * `null`, and each goes through a truthiness test, so `""` counts as no requirement.
 */
module Access {
  import opened Options
  import opened Js

  /** The role/cohort view of a user that `useUserRole` keeps. */
  datatype Profile = Profile(role: string, isAdmin: bool, membershipCohort: int, masterCohort: int)

  /** What every lookup falls back to: a free, non-admin user in no cohort. */
  const DEFAULT_PROFILE: Profile := Profile("free", false, 0, 0)

  /** The session user the auth context keeps (the mock user built at login or signup, or the
      user the session store hands over). */
  datatype User = User(id: JsValue, email: string, name: string, role: string, isAdmin: bool,
                       membershipCohort: int, masterCohort: int)

  function ProfileOf(u: User): (p: Profile)
    ensures p.role == u.role && p.isAdmin == u.isAdmin
    ensures p.membershipCohort == u.membershipCohort && p.masterCohort == u.masterCohort
  {
    Profile(u.role, u.isAdmin, u.membershipCohort, u.masterCohort)
  }

  /** A requirement argument is in force when it is a non-empty string. */
  predicate Present(arg: Option<string>) {
    arg.Some? && arg.value != ""
  }

  /** The cohort a cohort requirement looks at: the membership cohort for `"membership"`,
      the master cohort for any other value. */
  function SelectedCohort(p: Profile, requiredCohort: string): (n: int)
    ensures requiredCohort == "membership" ==> n == p.membershipCohort
    ensures requiredCohort != "membership" ==> n == p.masterCohort
  {
    if requiredCohort == "membership" then p.membershipCohort else p.masterCohort
  }

  /** `useUserRole().hasAccess`: deny the unauthenticated, admit admins, then a role
      requirement is met by that role or by `both`, and a cohort requirement by a positive
      cohort. */
  function RoleAwareHasAccess(isAuthenticated: bool, p: Profile, requiredRole: Option<string>,
                              requiredCohort: Option<string>): (r: bool)
    ensures !isAuthenticated ==> !r
    ensures isAuthenticated && p.isAdmin ==> r
    ensures r && !p.isAdmin && Present(requiredRole) ==> p.role in {requiredRole.value, "both"}
    ensures r && !p.isAdmin && Present(requiredCohort) ==> SelectedCohort(p, requiredCohort.value) > 0
  {
    if !isAuthenticated then false
    else if p.isAdmin then true
    else if Present(requiredRole) && p.role != requiredRole.value && p.role != "both" then false
    else if Present(requiredCohort) then SelectedCohort(p, requiredCohort.value) > 0
    else true
  }

  /** `hasAccess` of the auth context in `useAuth.js`: as above, but a role requirement needs
      the very role. */
  function StrictHasAccess(user: Option<User>, requiredRole: Option<string>,
                           requiredCohort: Option<string>): (r: bool)
    ensures user.None? ==> !r
    ensures user.Some? && user.value.isAdmin ==> r
    ensures r && !user.value.isAdmin && Present(requiredRole) ==> user.value.role == requiredRole.value
    ensures r && !user.value.isAdmin && Present(requiredCohort)
            ==> SelectedCohort(ProfileOf(user.value), requiredCohort.value) > 0
  {
    if user.None? then false
    else
      var u := user.value;
      if u.isAdmin then true
      else if Present(requiredRole) && u.role != requiredRole.value then false
      else if Present(requiredCohort) then SelectedCohort(ProfileOf(u), requiredCohort.value) > 0
      else true
  }

  /** `hasAccess` of the auth context in `useAuth.jsx`: any signed-in user, whatever is
      required. */
  function PermissiveHasAccess(user: Option<User>, requiredRole: Option<string>,
                               requiredCohort: Option<string>): (r: bool)
    ensures r <==> user.Some?
  {
    user.Some?
  }

  /** The two auth contexts are both imported as `@/hooks/useAuth`; which one a page gets
      depends on the build. */
  datatype AuthBuild = StrictBuild | PermissiveBuild

  /** The `hasAccess` a page calls through the auth context, under each build. */
  function AuthHasAccess(build: AuthBuild, user: Option<User>, requiredRole: Option<string>,
                         requiredCohort: Option<string>): (r: bool)
    ensures build == StrictBuild ==> r == StrictHasAccess(user, requiredRole, requiredCohort)
    ensures build == PermissiveBuild ==> r == PermissiveHasAccess(user, requiredRole, requiredCohort)
  {
    match build
    case StrictBuild => StrictHasAccess(user, requiredRole, requiredCohort)
    case PermissiveBuild => PermissiveHasAccess(user, requiredRole, requiredCohort)
  }

  /** Role-aware: for a signed-in non-admin, a role requirement fails exactly when the role is
      neither the required one nor `both`. */
  lemma RoleAwareRoleCheck(p: Profile, requiredRole: string, requiredCohort: Option<string>)
    requires !p.isAdmin && requiredRole != ""
    ensures p.role != requiredRole && p.role != "both" ==> !RoleAwareHasAccess(true, p, Some(requiredRole), requiredCohort)
    ensures (p.role == requiredRole || p.role == "both") ==>
              RoleAwareHasAccess(true, p, Some(requiredRole), requiredCohort)
              == RoleAwareHasAccess(true, p, None, requiredCohort)
  {
  }

  /** Role-aware: for a signed-in non-admin with no role requirement, a `"membership"` cohort
      requirement holds iff the membership cohort is positive, any other iff the master cohort
      is; with no requirement at all, access is granted. */
  lemma RoleAwareCohortCheck(p: Profile, requiredCohort: string)
    requires !p.isAdmin
    ensures requiredCohort == "membership" ==>
              (RoleAwareHasAccess(true, p, None, Some(requiredCohort)) <==> p.membershipCohort > 0)
    ensures requiredCohort != "membership" && requiredCohort != "" ==>
              (RoleAwareHasAccess(true, p, None, Some(requiredCohort)) <==> p.masterCohort > 0)
    ensures RoleAwareHasAccess(true, p, None, None)
  {
  }

  /** Strict: with an exact role match the requirement is passed over; with any other role,
      `both` included, it fails. */
  lemma StrictRoleCheck(u: User, requiredRole: string, requiredCohort: Option<string>)
    requires !u.isAdmin && requiredRole != ""
    ensures u.role != requiredRole ==> !StrictHasAccess(Some(u), Some(requiredRole), requiredCohort)
    ensures u.role == requiredRole ==>
              StrictHasAccess(Some(u), Some(requiredRole), requiredCohort)
              == StrictHasAccess(Some(u), None, requiredCohort)
  {
  }

  /** Strict: a cohort requirement holds iff the selected cohort is positive, and a signed-in
      non-admin with no requirement is admitted. */
  lemma StrictCohortCheck(u: User, requiredCohort: string)
    requires !u.isAdmin
    ensures requiredCohort == "membership" ==>
              (StrictHasAccess(Some(u), None, Some(requiredCohort)) <==> u.membershipCohort > 0)
    ensures requiredCohort != "membership" && requiredCohort != "" ==>
              (StrictHasAccess(Some(u), None, Some(requiredCohort)) <==> u.masterCohort > 0)
    ensures StrictHasAccess(Some(u), None, None)
  {
  }

  /** The strict check never admits someone the role-aware check refuses. */
  lemma StrictImpliesRoleAware(user: Option<User>, requiredRole: Option<string>, requiredCohort: Option<string>)
    requires StrictHasAccess(user, requiredRole, requiredCohort)
    ensures user.Some? && RoleAwareHasAccess(true, ProfileOf(user.value), requiredRole, requiredCohort)
  {
  }

  /** The two role checks disagree exactly for a non-admin whose role is `both`, facing a role
      requirement other than `both` and a cohort requirement (if any) that their cohort
      passes: then the role-aware check admits and the strict one refuses. */
  lemma StrictAndRoleAwareDisagreement(u: User, requiredRole: Option<string>, requiredCohort: Option<string>)
    ensures StrictHasAccess(Some(u), requiredRole, requiredCohort)
            != RoleAwareHasAccess(true, ProfileOf(u), requiredRole, requiredCohort)
            <==> !u.isAdmin && u.role == "both" && Present(requiredRole) && requiredRole.value != "both"
                 && (Present(requiredCohort) ==> SelectedCohort(ProfileOf(u), requiredCohort.value) > 0)
  {
  }

  /** A `both` user facing a `member` requirement: admitted by the role-aware check, refused by
      the strict one, admitted by the permissive one. */
  lemma BothAgainstMember(u: User)
    requires u.role == "both" && !u.isAdmin
    ensures RoleAwareHasAccess(true, ProfileOf(u), Some("member"), None)
    ensures !StrictHasAccess(Some(u), Some("member"), None)
    ensures PermissiveHasAccess(Some(u), Some("member"), None)
  {
  }

  /** The permissive check admits whoever either other check admits, and for signed-in users
      it admits everything: a non-admin `free` user passes even an `admin` requirement. */
  lemma PermissiveDominates(user: Option<User>, requiredRole: Option<string>, requiredCohort: Option<string>)
    ensures StrictHasAccess(user, requiredRole, requiredCohort) ==> PermissiveHasAccess(user, requiredRole, requiredCohort)
    ensures user.Some? && RoleAwareHasAccess(true, ProfileOf(user.value), requiredRole, requiredCohort)
            ==> PermissiveHasAccess(user, requiredRole, requiredCohort)
    ensures user.Some? && !user.value.isAdmin && user.value.role == "free"
            ==> PermissiveHasAccess(user, Some("admin"), None) && !StrictHasAccess(user, Some("admin"), None)
                && !RoleAwareHasAccess(true, ProfileOf(user.value), Some("admin"), None)
  {
  }

  /** The three checks agree on the signed-out (everything refused) and on admins
      (everything admitted). */
  lemma AllAgreeOnAnonymousAndAdmins(user: Option<User>, requiredRole: Option<string>, requiredCohort: Option<string>)
    ensures user.None? ==>
              !StrictHasAccess(user, requiredRole, requiredCohort) && !PermissiveHasAccess(user, requiredRole, requiredCohort)
    ensures user.Some? && user.value.isAdmin ==>
              StrictHasAccess(user, requiredRole, requiredCohort) && PermissiveHasAccess(user, requiredRole, requiredCohort)
              && RoleAwareHasAccess(true, ProfileOf(user.value), requiredRole, requiredCohort)
  {
  }

  /* ---------- The entitlement rule, as a reference ---------- */

  datatype CohortDomain = Membership | Master

  /** What a protected resource requires. */
  datatype Requirement = Public | NeedsRole(role: string) | NeedsCohort(domain: CohortDomain)

  /** The rule the checks approximate: public resources admit everyone; others refuse the
      anonymous, admit admins, and otherwise need the role (or `both`) or a positive cohort
      of the domain. */
  function Evaluate(profile: Option<Profile>, req: Requirement): (r: bool)
    ensures req.Public? ==> r
    ensures !req.Public? && profile.None? ==> !r
    ensures profile.Some? && profile.value.isAdmin ==> r
  {
    match req
    case Public => true
    case _ =>
      if profile.None? then false
      else
        var p := profile.value;
        if p.isAdmin then true
        else match req
          case NeedsRole(role) => p.role == role || p.role == "both"
          case NeedsCohort(Membership) => p.membershipCohort > 0
          case NeedsCohort(Master) => p.masterCohort > 0
  }

  /** How a page passes a requirement to `hasAccess`: a role as the first argument, a cohort
      domain as the second. */
  function RoleArg(req: Requirement): Option<string> {
    if req.NeedsRole? then Some(req.role) else None
  }

  function CohortArg(req: Requirement): Option<string> {
    match req
    case NeedsCohort(Membership) => Some("membership")
    case NeedsCohort(Master) => Some("master")
    case _ => None
  }

  /** The role-aware check is the rule for every signed-in profile, and for the signed-out on
      every resource that is not public. */
  lemma RoleAwareMatchesRule(isAuthenticated: bool, p: Profile, req: Requirement)
    requires req.NeedsRole? ==> req.role != ""
    requires !isAuthenticated ==> !req.Public?
    ensures RoleAwareHasAccess(isAuthenticated, p, RoleArg(req), CohortArg(req))
            == Evaluate(if isAuthenticated then Some(p) else None, req)
  {
  }

  /** Where the code departs from the rule: a public resource is refused to the signed-out. */
  lemma PublicRefusedWhenSignedOut(p: Profile)
    ensures Evaluate(None, Public)
    ensures !RoleAwareHasAccess(false, p, RoleArg(Public), CohortArg(Public))
  {
  }

  /** The strict check is the rule except for `both` users facing a role requirement. */
  lemma StrictMatchesRuleExceptBoth(u: User, req: Requirement)
    requires req.NeedsRole? ==> req.role != ""
    ensures StrictHasAccess(Some(u), RoleArg(req), CohortArg(req)) != Evaluate(Some(ProfileOf(u)), req)
            <==> !u.isAdmin && u.role == "both" && req.NeedsRole? && req.role != "both"
  {
  }
}

=== FILE: admin_users.dfy ===
/**
 * The user administration page: the admin gate, the one-column edits an admin makes to a row
 * (role, admin flag, cohorts), the request each edit sends, and how the local list follows a
 * successful save.
 */
module AdminUsers {
  import opened Options
  import opened Js
  import opened Service
  import opened Access
  import opened UsersExt
  import opened UserRole

  /** The roles the role selector offers, in order, with their labels. */
  const ROLE_OPTIONS: seq<(string, string)> :=
    [("free", "무료"), ("member", "멤버"), ("master", "마스터"), ("both", "멤버+마스터")]

  const ADMIN_REQUIRED: string := "관리자 권한이 필요합니다."

  /** What the page's effect does once the role hook reports. */
  datatype Gate = Wait | Deny(message: string) | LoadUsers

  /** The effect: nothing while the role is loading; a non-admin gets the error message and
      the users are never loaded; an admin loads them. */
  function AdminGate(roleLoading: bool, isAdmin: bool): (g: Gate)
    ensures g.LoadUsers? <==> !roleLoading && isAdmin
    ensures g.Deny? <==> !roleLoading && !isAdmin
    ensures g.Deny? ==> g.message == ADMIN_REQUIRED
  {
    if roleLoading then Wait
    else if !isAdmin then Deny(ADMIN_REQUIRED)
    else LoadUsers
  }

  /** The screen the page renders. */
  datatype Screen = LoadingScreen | ErrorScreen(message: string) | NoAccessScreen | EmptyScreen | Table(users: seq<UserRow>)

  /** The render: loading first, then an error, then the non-admin notice, then the table
      (or the empty state). */
  function View(roleLoading: bool, loading: bool, error: Option<string>, isAdmin: bool,
                users: seq<UserRow>): (s: Screen)
    ensures roleLoading || loading ==> s == LoadingScreen
    ensures s.Table? ==> isAdmin && error.None? && s.users == users && users != []
    ensures s == NoAccessScreen ==> !isAdmin && error.None?
    ensures !roleLoading && !loading && error.Some? ==> s == ErrorScreen(error.value)
    ensures !roleLoading && !loading && error.None? && !isAdmin ==> s == NoAccessScreen
    ensures !roleLoading && !loading && error.None? && isAdmin && users == [] ==> s == EmptyScreen
    ensures !roleLoading && !loading && error.None? && isAdmin && users != [] ==> s == Table(users)
  {
    if roleLoading || loading then LoadingScreen
    else if error.Some? then ErrorScreen(error.value)
    else if !isAdmin then NoAccessScreen
    else if |users| == 0 then EmptyScreen
    else Table(users)
  }

  /** Once the gate has refused a non-admin (error set, loading cleared), the page shows the
      error message, not its own no-access notice. */
  lemma DeniedShowsError(users: seq<UserRow>)
    ensures var g := AdminGate(false, false);
            g.Deny? && View(false, false, Some(g.message), false, users) == ErrorScreen(ADMIN_REQUIRED)
  {
  }

  /** The list an admin sees is the table in creation order, newest first, and the page shows
      the table exactly when that list is not empty. */
  lemma AdminSeesEveryRow(store: Store<UserRow>)
    requires store.up
    ensures var users := GetAll(store);
            (View(false, false, None, true, users).Table? <==> store.rows != [])
            && multiset(users) == multiset(store.rows)
  {
    var users := GetAll(store);
    assert |users| == |multiset(users)| == |multiset(store.rows)| == |store.rows|;
  }

  /** One column edit, as the page's three handlers make them. */
  datatype Edit = SetRole(role: string) | SetAdmin(flag: bool) | SetCohort(domain: CohortDomain, n: int)

  /** The column an edit writes. */
  function Field(e: Edit): (k: string)
    ensures k in {"role", "is_admin", "membership_cohort", "master_cohort"}
  {
    match e
    case SetRole(_) => "role"
    case SetAdmin(_) => "is_admin"
    case SetCohort(Membership, _) => "membership_cohort"
    case SetCohort(Master, _) => "master_cohort"
  }

  /** The value it writes. */
  function Value(e: Edit): (v: JsValue)
    ensures v != Undefined
  {
    match e
    case SetRole(role) => Str(role)
    case SetAdmin(flag) => Bool(flag)
    case SetCohort(_, n) => Num(n)
  }

  /** `{ ...user, [field]: value }` on a row. */
  function Apply(u: UserRow, e: Edit): (r: UserRow)
    ensures r.Id == u.Id && r.authId == u.authId && r.email == u.email && r.createdOn == u.createdOn
  {
    match e
    case SetRole(role) => u.(role := Some(role))
    case SetAdmin(flag) => u.(isAdmin := Bool(flag))
    case SetCohort(Membership, n) => u.(membershipCohort := Some(n))
    case SetCohort(Master, n) => u.(masterCohort := Some(n))
  }

  /** An edit changes exactly its own column of the profile the role hook reads from the row;
      a role edit to `""` reads as `free`. */
  lemma ApplyChangesOneColumn(u: UserRow, e: Edit)
    ensures var before := NormaliseRecord(Some(u));
            var after := NormaliseRecord(Some(Apply(u, e)));
            match e
            case SetRole(role) => after == before.(role := if role == "" then "free" else role)
            case SetAdmin(flag) => after == before.(isAdmin := flag)
            case SetCohort(Membership, n) => after == before.(membershipCohort := n)
            case SetCohort(Master, n) => after == before.(masterCohort := n)
  {
  }

  /** What a save did: the update request it sent (none when the caller is not an admin) and
      the local list afterwards. */
  datatype Saved = Saved(request: Option<UserPatch>, users: seq<UserRow>)

  /** `handleSave`: send `{ [field]: value }` for the row's id; when the service returns a
      record, replace the column in every listed row with that id; otherwise keep the list. */
  function HandleSave(store: Store<UserRow>, session: Option<JsObject>, users: seq<UserRow>, userId: int,
                      e: Edit, resp: Response<UserRow>): (r: Saved)
    ensures r.request == Update(store, session, Num(userId), map[Field(e) := Value(e)], resp).request
    ensures |r.users| == |users|
    ensures Update(store, session, Num(userId), map[Field(e) := Value(e)], resp).result.None? ==> r.users == users
    ensures forall i :: 0 <= i < |users| && users[i].Id != userId ==> r.users[i] == users[i]
    ensures Update(store, session, Num(userId), map[Field(e) := Value(e)], resp).result.Some?
            ==> forall i :: 0 <= i < |users| && users[i].Id == userId ==> r.users[i] == Apply(users[i], e)
  {
    var call := Update(store, session, Num(userId), map[Field(e) := Value(e)], resp);
    if call.result.None? then Saved(call.request, users)
    else Saved(call.request, seq(|users|, i requires 0 <= i < |users| =>
                                   if users[i].Id == userId then Apply(users[i], e) else users[i]))
  }

  /** A save sends the row id and the edited column only, and the list keeps the edit only
      when the caller is an admin and the backend accepted it. */
  lemma SaveSendsOneColumn(store: Store<UserRow>, session: Option<JsObject>, users: seq<UserRow>, userId: int,
                           e: Edit, resp: Response<UserRow>)
    ensures var r := HandleSave(store, session, users, userId, e, resp);
            (r.request.Some? <==> CheckAdminPermission(store, session))
            && (r.request.Some? ==>
                  r.request.value.Id == Num(userId) && r.request.value.email.None?
                  && (r.request.value.role.Some? <==> e.SetRole?)
                  && (r.request.value.isAdmin.Some? <==> e.SetAdmin?)
                  && (r.request.value.membershipCohort.Some? <==> e.SetCohort? && e.domain == Membership)
                  && (r.request.value.masterCohort.Some? <==> e.SetCohort? && e.domain == Master))
            && (!CheckAdminPermission(store, session) || WriteResult(resp).None? ==> r.users == users)
  {
    UpdateOfOneColumn(Num(userId), Field(e), Value(e));
  }

  /** After an accepted save, the edited row reads, through the role hook, exactly as the edit
      says; every other row is untouched. */
  lemma SavedRowReadsAsEdited(store: Store<UserRow>, session: Option<JsObject>, users: seq<UserRow>, userId: int,
                              e: Edit, resp: Response<UserRow>, i: int)
    requires CheckAdminPermission(store, session) && WriteResult(resp).Some?
    requires 0 <= i < |users| && users[i].Id == userId
    ensures var r := HandleSave(store, session, users, userId, e, resp);
            NormaliseRecord(Some(r.users[i])) == NormaliseRecord(Some(Apply(users[i], e)))
            && r.users[i].Id == users[i].Id && r.users[i].authId == users[i].authId
  {
  }

  /** Saving the same edit twice leaves the list as saving it once. */
  lemma SaveIdempotent(store: Store<UserRow>, session: Option<JsObject>, users: seq<UserRow>, userId: int,
                       e: Edit, resp: Response<UserRow>)
    ensures var once := HandleSave(store, session, users, userId, e, resp).users;
            HandleSave(store, session, once, userId, e, resp).users == once
  {
  }

  /** `handleToggleAdmin`: the admin flag set to the negation of the row's current flag. */
  function ToggleAdmin(u: UserRow): (e: Edit)
    ensures e.SetAdmin? && e.flag == !Truthy(u.isAdmin)
  {
    SetAdmin(!Truthy(u.isAdmin))
  }

  /** Two toggles give back the flag the hook read before, now stored as a strict boolean,
      so the service's `=== true` check agrees with it. */
  lemma ToggleTwice(u: UserRow)
    ensures var once := Apply(u, ToggleAdmin(u));
            var twice := Apply(once, ToggleAdmin(once));
            twice.isAdmin == Bool(Truthy(u.isAdmin))
            && NormaliseRecord(Some(twice)) == NormaliseRecord(Some(u))
  {
  }

  /** `handleCohortChange`: the input parsed with `parseInt`, and 0 for anything that does not
      parse. */
  function CohortChange(domain: CohortDomain, input: string): (e: Edit)
    ensures e.SetCohort? && e.domain == domain
    ensures ParseInt(input).Some? ==> e.n == ParseInt(input).value
    ensures ParseInt(input).None? ==> e.n == 0
  {
    SetCohort(domain, ParseIntOrZero(Str(input)))
  }

  /** Typing the decimal form of a number stores that number; typing a word stores 0. */
  lemma CohortInput(domain: CohortDomain, n: int, word: string)
    requires |word| > 0 && ('a' <= word[0] <= 'z' || 'A' <= word[0] <= 'Z')
    ensures CohortChange(domain, IntToDecimal(n)).n == n
    ensures CohortChange(domain, word).n == 0
  {
    ParseIntRoundTrip(n);
    ParseIntOfWord(word);
  }

  /** The table's display of a row: role `|| 'free'`, the admin switch by truthiness, each
      cohort `|| 0`. */
  datatype Display = Display(role: string, isAdmin: bool, membershipCohort: int, masterCohort: int)

  function Shown(u: UserRow): Display {
    Display(Or(if u.role.Some? then Str(u.role.value) else Undefined, Str("free")).s,
            Truthy(u.isAdmin),
            Or(if u.membershipCohort.Some? then Num(u.membershipCohort.value) else Undefined, Num(0)).n,
            Or(if u.masterCohort.Some? then Num(u.masterCohort.value) else Undefined, Num(0)).n)
  }

  /** The table shows every row as the role hook reads it. */
  lemma ShownAgreesWithHook(u: UserRow)
    ensures var p := NormaliseRecord(Some(u));
            Shown(u) == Display(p.role, p.isAdmin, p.membershipCohort, p.masterCohort)
  {
  }
}

=== FILE: auth.dfy ===
/**
 * The auth context's session (both of its builds share this part): the mock user that
 * `login` and `signup` build, and `logout`. Waiting, persistence and notifications are not
 * modelled; the clock reading that makes the id is a parameter.
 */
module Auth {
  import opened Options
  import opened Js
  import opened Text
  import opened Access

  /** The context state: the signed-in user, and whether the sign-in dialog is open. */
  datatype Session = Session(user: Option<User>, modalOpen: bool)

  /** The mock user built from an email and a display name at clock reading `stamp`. */
  function MockUser(email: string, name: string, stamp: string): (u: User)
    ensures u.id == Str("user_" + stamp) && u.email == email && u.name == name
    ensures u.role == "free" && !u.isAdmin && u.membershipCohort == 0 && u.masterCohort == 0
  {
    User(Str("user_" + stamp), email, name, "free", false, 0, 0)
  }

  /** `login`: signs in a free, non-admin user in no cohort, named after the part of the email
      before its first `@`, and closes the dialog. */
  function Login(s: Session, email: string, stamp: string): (r: Session)
    ensures r.user.Some? && !r.modalOpen
    ensures r.user.value.email == email && '@' !in r.user.value.name && r.user.value.name <= email
    ensures |r.user.value.name| < |email| ==> email[|r.user.value.name|] == '@'
    ensures '@' !in email ==> r.user.value.name == email
    ensures ProfileOf(r.user.value) == DEFAULT_PROFILE
  {
    Session(Some(MockUser(email, BeforeFirst(email, '@'), stamp)), false)
  }

  /** The name of a user signing in as `local@domain` is `local`. */
  lemma LoginName(s: Session, local: string, domain: string, stamp: string)
    requires '@' !in local
    ensures Login(s, local + "@" + domain, stamp).user.value.name == local
  {
    BeforeFirstOfHead(local, domain, '@');
  }

  /** `signup`: like `login`, but the user keeps the name given. */
  function Signup(s: Session, email: string, name: string, stamp: string): (r: Session)
    ensures r.user.Some? && !r.modalOpen
    ensures r.user.value.email == email && r.user.value.name == name
    ensures ProfileOf(r.user.value) == DEFAULT_PROFILE
  {
    Session(Some(MockUser(email, name, stamp)), false)
  }

  /** `logout`: nobody is signed in; the dialog stays as it was. */
  function Logout(s: Session): (r: Session)
    ensures r.user.None? && r.modalOpen == s.modalOpen
  {
    Session(None, s.modalOpen)
  }

  /** After logout every `hasAccess` refuses everything. */
  lemma LogoutRefusesAll(s: Session, role: Option<string>, cohort: Option<string>)
    ensures !StrictHasAccess(Logout(s).user, role, cohort)
    ensures !PermissiveHasAccess(Logout(s).user, role, cohort)
  {
  }

  /** A freshly signed-in mock user passes a cohort check only under the permissive build. */
  lemma FreshUserCohortChecks(s: Session, email: string, stamp: string, cohort: string)
    requires cohort != ""
    ensures !StrictHasAccess(Login(s, email, stamp).user, None, Some(cohort))
    ensures PermissiveHasAccess(Login(s, email, stamp).user, None, Some(cohort))
  {
  }
}

=== FILE: auth_modal.dfy ===
/**
 * The sign-in dialog: its two modes, field edits, validation, and what a submit sends and
 * leaves behind.
 */
module AuthModal {
  import opened Options
  import opened Text
  import opened FormErrors
  import opened Auth

  datatype Mode = LoginMode | SignupMode

  datatype AuthForm = AuthForm(email: string, password: string, name: string, confirmPassword: string)

  datatype AuthField = Email | Password | Name | ConfirmPassword

  /** The dialog's state: mode, field values and error messages. */
  datatype Dialog = Dialog(mode: Mode, form: AuthForm, errors: map<AuthField, string>)

  const EMPTY_FORM: AuthForm := AuthForm("", "", "", "")
  const INITIAL: Dialog := Dialog(LoginMode, EMPTY_FORM, map[])

  const EMAIL_REQUIRED: string := "이메일을 입력해주세요."
  const EMAIL_INVALID: string := "올바른 이메일 형식을 입력해주세요."
  const PASSWORD_REQUIRED: string := "비밀번호를 입력해주세요."
  const PASSWORD_SHORT: string := "비밀번호는 최소 6자 이상이어야 합니다."
  const NAME_REQUIRED: string := "이름을 입력해주세요."
  const CONFIRM_REQUIRED: string := "비밀번호를 다시 입력해주세요."
  const CONFIRM_MISMATCH: string := "비밀번호가 일치하지 않습니다."

  /** The characters in `s[a..b]` are all non-white-space (`\S`). */
  predicate NonSpaceRun(s: string, a: int, b: int)
    requires 0 <= a <= b <= |s|
  {
    forall k :: a <= k < b ==> !IsSpace(s[k])
  }

  /** The pattern matched with its `@` at `i` and its `.` at `j`. */
  predicate EmailAt(s: string, i: int, j: int) {
    0 < i && i + 1 < j && j + 1 < |s| && s[i] == '@' && s[j] == '.'
    && !IsSpace(s[i - 1]) && NonSpaceRun(s, i + 1, j) && !IsSpace(s[j + 1])
  }

  /** `/\S+@\S+\.\S+/.test(s)`, unanchored: somewhere in `s` a non-space character, `@`, one
      or more non-space characters, `.`, and a non-space character. */
  predicate EmailLike(s: string) {
    exists i, j | 0 <= i < |s| && 0 <= j < |s| :: EmailAt(s, i, j)
  }

  /** An address the pattern accepts has an `@`. */
  lemma EmailLikeHasAt(s: string)
    requires EmailLike(s)
    ensures '@' in s
  {
    var i, j :| 0 <= i < |s| && 0 <= j < |s| && EmailAt(s, i, j);
  }

  /** The pattern is not anchored: surrounding text does not matter, but a space next to the
      `@` does. */
  lemma EmailExamples()
    ensures EmailLike("a@b.c")
    ensures EmailLike("x y@b.c ")
    ensures !EmailLike("a@b")
    ensures !EmailLike("a @b.c")
  {
    assert EmailAt("a@b.c", 1, 3);
    assert EmailAt("x y@b.c ", 3, 5);
  }

  /** The message `validateForm` records for one field, if any. Name and confirmation are
      checked only when signing up. */
  function FieldError(mode: Mode, f: AuthForm, field: AuthField): (r: Option<string>)
    ensures field == Email ==> r == if f.email == "" then Some(EMAIL_REQUIRED)
                                    else if !EmailLike(f.email) then Some(EMAIL_INVALID) else None
    ensures field == Password ==> r == if f.password == "" then Some(PASSWORD_REQUIRED)
                                       else if |f.password| < 6 then Some(PASSWORD_SHORT) else None
    ensures field == Name ==> r == if mode == SignupMode && f.name == "" then Some(NAME_REQUIRED) else None
    ensures field == ConfirmPassword ==>
              r == if mode == LoginMode then None
                   else if f.confirmPassword == "" then Some(CONFIRM_REQUIRED)
                   else if f.password != f.confirmPassword then Some(CONFIRM_MISMATCH) else None
  {
    match field
    case Email => if f.email == "" then Some(EMAIL_REQUIRED) else if !EmailLike(f.email) then Some(EMAIL_INVALID) else None
    case Password =>
      if f.password == "" then Some(PASSWORD_REQUIRED) else if |f.password| < 6 then Some(PASSWORD_SHORT) else None
    case Name => if mode == SignupMode && f.name == "" then Some(NAME_REQUIRED) else None
    case ConfirmPassword =>
      if mode == LoginMode then None
      else if f.confirmPassword == "" then Some(CONFIRM_REQUIRED)
      else if f.password != f.confirmPassword then Some(CONFIRM_MISMATCH) else None
  }

  /** `validateForm`'s error object: exactly the fields with a message, each with it. */
  function Validate(mode: Mode, f: AuthForm): (errors: map<AuthField, string>)
    ensures forall k :: k in errors <==> FieldError(mode, f, k).Some?
    ensures forall k :: k in errors ==> errors[k] == FieldError(mode, f, k).value
  {
    map k: AuthField | k in {Email, Password, Name, ConfirmPassword} && FieldError(mode, f, k).Some?
                      :: FieldError(mode, f, k).value
  }

  /** What validation accepts: an email matching the pattern and a password of at least six
      characters; for signing up also a name and a matching confirmation. */
  predicate Valid(mode: Mode, f: AuthForm) {
    EmailLike(f.email) && |f.password| >= 6
    && (mode == SignupMode ==> f.name != "" && f.confirmPassword == f.password)
  }

  lemma ValidateEmptyIffValid(mode: Mode, f: AuthForm)
    ensures |Validate(mode, f)| == 0 <==> Valid(mode, f)
  {
    var errors := Validate(mode, f);
    if |errors| == 0 {
      assert Email !in errors && Password !in errors && Name !in errors && ConfirmPassword !in errors;
      assert f.email != "";
    } else {
      var k :| k in errors;
    }
  }

  /** Signing up asks strictly more than logging in. */
  lemma SignupStricter(f: AuthForm)
    ensures Valid(SignupMode, f) ==> Valid(LoginMode, f)
    ensures Validate(LoginMode, f).Keys <= Validate(SignupMode, f).Keys
  {
  }

  /** `handleInputChange`: the field takes the value and its message is blanked. */
  function Edit(d: Dialog, field: AuthField, value: string): (r: Dialog)
    ensures r.mode == d.mode && r.errors == ClearError(d.errors, field)
    ensures field == Email ==> r.form == d.form.(email := value)
    ensures field == Password ==> r.form == d.form.(password := value)
    ensures field == Name ==> r.form == d.form.(name := value)
    ensures field == ConfirmPassword ==> r.form == d.form.(confirmPassword := value)
  {
    var form := match field
      case Email => d.form.(email := value)
      case Password => d.form.(password := value)
      case Name => d.form.(name := value)
      case ConfirmPassword => d.form.(confirmPassword := value);
    Dialog(d.mode, form, ClearError(d.errors, field))
  }

  /** The mode switch under the form: the other mode, with fields and messages kept. */
  function ToggleMode(d: Dialog): (r: Dialog)
    ensures r.mode != d.mode && r.form == d.form && r.errors == d.errors
  {
    d.(mode := if d.mode == LoginMode then SignupMode else LoginMode)
  }

  lemma ToggleModeTwice(d: Dialog)
    ensures ToggleMode(ToggleMode(d)) == d
  {
  }

  /** `resetForm` (also run on close): empty fields, no messages, login mode. */
  function Reset(d: Dialog): (r: Dialog)
    ensures r == INITIAL
    ensures r.mode == LoginMode && |r.errors| == 0 && r.form.email == "" && r.form.password == ""
  {
    Dialog(LoginMode, EMPTY_FORM, map[])
  }

  /** The call a submit makes. */
  datatype Request = LoginRequest(email: string, password: string) | SignupRequest(email: string, password: string, name: string)

  datatype Submitted = Submitted(dialog: Dialog, request: Option<Request>)

  /** `handleSubmit`: an invalid form keeps its fields and shows the messages, and nothing is
      sent; a valid one sends `login` or `signup` for the mode, and a call that reports
      success resets the dialog. */
  function Submit(d: Dialog, success: bool): (r: Submitted)
    ensures r.request.Some? <==> Valid(d.mode, d.form)
    ensures r.request.None? ==> r.dialog == d.(errors := Validate(d.mode, d.form))
    ensures r.request.Some? && d.mode == LoginMode ==> r.request.value == LoginRequest(d.form.email, d.form.password)
    ensures r.request.Some? && d.mode == SignupMode
            ==> r.request.value == SignupRequest(d.form.email, d.form.password, d.form.name)
    ensures r.request.Some? ==> (r.dialog == if success then INITIAL else d.(errors := map[]))
  {
    ValidateEmptyIffValid(d.mode, d.form);
    var errors := Validate(d.mode, d.form);
    if |errors| != 0 then Submitted(d.(errors := errors), None)
    else
      var request := if d.mode == LoginMode then LoginRequest(d.form.email, d.form.password)
                     else SignupRequest(d.form.email, d.form.password, d.form.name);
      Submitted(if success then Reset(d) else d.(errors := errors), Some(request))
  }

  /** A login the dialog lets through signs in a user whose name is the part of the email
      before its first `@`, a strict prefix of the email. */
  lemma LoginNameFromValidEmail(d: Dialog, s: Session, stamp: string)
    requires d.mode == LoginMode && Submit(d, true).request.Some?
    ensures var u := Login(s, Submit(d, true).request.value.email, stamp).user.value;
            u.email == d.form.email && |u.name| < |d.form.email| && d.form.email[|u.name|] == '@'
  {
    EmailLikeHasAt(d.form.email);
  }
}

=== FILE: banner.dfy ===
/**
 * The upgrade banner: which routes it guards, when it shows, and which message it picks.
 */
module Banner {
  import opened Options
  import opened Access

  datatype RouteType = MembershipRoute | MasterRoute | PremiumRoute | AuthRoute

  /** A guarded route: its type and the caption the sign-in message names. */
  datatype Route = Route(routeType: RouteType, caption: string)

  /** The table of guarded routes. */
  function ProtectedRoute(path: string): (r: Option<Route>)
    ensures r.Some? <==> path in {"/membership", "/master", "/money-insight", "/profile"}
    ensures path == "/profile" ==> r == Some(Route(AuthRoute, "프로필"))
  {
    if path == "/membership" then Some(Route(MembershipRoute, "멤버십 영상실"))
    else if path == "/master" then Some(Route(MasterRoute, "마스터 과정"))
    else if path == "/money-insight" then Some(Route(PremiumRoute, "머니 인사이트"))
    else if path == "/profile" then Some(Route(AuthRoute, "프로필"))
    else None
  }

  /** The banner condition on a guarded route: nobody signed in, or a membership route with
      membership cohort exactly 0, a master route with master cohort exactly 0, or the premium
      route for a `free` user. */
  predicate ShouldShow(route: Route, user: Option<User>) {
    user.None?
    || (route.routeType == MembershipRoute && user.value.membershipCohort == 0)
    || (route.routeType == MasterRoute && user.value.masterCohort == 0)
    || (route.routeType == PremiumRoute && user.value.role == "free")
  }

  /** What the banner's button does. */
  datatype Action = OpenAuthModal | LogOnly(message: string)

  datatype Content = Content(title: string, description: string, buttonText: string, action: Action)

  const LOGIN_TITLE: string := "로그인이 필요합니다"
  const GENERIC_TITLE: string := "업그레이드가 필요합니다"

  /** `getBannerContent`: the sign-in message whenever nobody is signed in, before anything
      that depends on the route type. */
  function BannerContent(route: Route, user: Option<User>): (c: Content)
    ensures user.None? <==> c.action == OpenAuthModal
    ensures user.None? ==> c.title == LOGIN_TITLE && c.description == route.caption + "에 접근하려면 로그인해 주세요."
    ensures user.Some? && route.routeType != AuthRoute ==> c.title != GENERIC_TITLE && c.title != LOGIN_TITLE
    ensures user.Some? && route.routeType == MembershipRoute
            ==> c.title == "멤버십 업그레이드 필요" && c.action == LogOnly("Upgrade to membership")
    ensures user.Some? && route.routeType == MasterRoute
            ==> c.title == "마스터 과정 등록 필요" && c.action == LogOnly("Enroll in master course")
    ensures user.Some? && route.routeType == PremiumRoute
            ==> c.title == "프리미엄 업그레이드 필요" && c.action == LogOnly("Upgrade to premium")
    ensures user.Some? && route.routeType == AuthRoute ==> c.title == GENERIC_TITLE && c.action == LogOnly("Generic upgrade")
  {
    if user.None? then
      Content(LOGIN_TITLE, route.caption + "에 접근하려면 로그인해 주세요.", "로그인하기", OpenAuthModal)
    else
      match route.routeType
      case MembershipRoute =>
        Content("멤버십 업그레이드 필요", "멤버십 영상실에 접근하려면 멤버십 업그레이드가 필요합니다.",
                "멤버십 업그레이드", LogOnly("Upgrade to membership"))
      case MasterRoute =>
        Content("마스터 과정 등록 필요", "마스터 과정에 접근하려면 과정 등록이 필요합니다.",
                "마스터 과정 등록", LogOnly("Enroll in master course"))
      case PremiumRoute =>
        Content("프리미엄 업그레이드 필요", "머니 인사이트에 접근하려면 프리미엄 업그레이드가 필요합니다.",
                "프리미엄 업그레이드", LogOnly("Upgrade to premium"))
      case AuthRoute =>
        Content(GENERIC_TITLE, "이 콘텐츠에 접근하려면 업그레이드가 필요합니다.",
                "업그레이드하기", LogOnly("Generic upgrade"))
  }

  /** The banner on a path: nothing off the table or when the condition fails, else its
      content. */
  function Banner(path: string, user: Option<User>): (r: Option<Content>)
    ensures ProtectedRoute(path).None? ==> r.None?
    ensures r.Some? <==> ProtectedRoute(path).Some? && ShouldShow(ProtectedRoute(path).value, user)
    ensures r.Some? ==> r.value == BannerContent(ProtectedRoute(path).value, user)
  {
    match ProtectedRoute(path)
    case None => None
    case Some(route) => if ShouldShow(route, user) then Some(BannerContent(route, user)) else None
  }

  /** The signed-out see the sign-in banner on every guarded route. */
  lemma AnonymousAlwaysSignIn(path: string)
    requires ProtectedRoute(path).Some?
    ensures Banner(path, None).Some? && Banner(path, None).value.title == LOGIN_TITLE
    ensures Banner(path, None).value.action == OpenAuthModal
  {
  }

  /** For a signed-in user the banner shows on `/membership` iff the membership cohort is 0,
      on `/master` iff the master cohort is 0, on `/money-insight` iff the role is `free`,
      and never on `/profile`. */
  lemma SignedInBannerPerRoute(u: User)
    ensures Banner("/membership", Some(u)).Some? <==> u.membershipCohort == 0
    ensures Banner("/master", Some(u)).Some? <==> u.masterCohort == 0
    ensures Banner("/money-insight", Some(u)).Some? <==> u.role == "free"
    ensures Banner("/profile", Some(u)).None?
  {
  }

  /** The generic upgrade message is never shown: the only route type it serves is the
      profile route, where no signed-in user sees a banner. */
  lemma GenericMessageUnreachable(path: string, user: Option<User>)
    ensures Banner(path, user).Some? ==> Banner(path, user).value.title != GENERIC_TITLE
  {
  }

  /** The banner and the cohort check can disagree: an admin with membership cohort 0 is
      admitted by every `hasAccess` but still shown the membership banner, and a user whose
      membership cohort is negative is refused by the strict check yet shown no banner. */
  lemma BannerDisagreesWithAccess(u: User)
    ensures u.isAdmin && u.membershipCohort == 0 ==>
              Banner("/membership", Some(u)).Some? && StrictHasAccess(Some(u), None, Some("membership"))
    ensures !u.isAdmin && u.membershipCohort < 0 ==>
              Banner("/membership", Some(u)).None? && !StrictHasAccess(Some(u), None, Some("membership"))
  {
  }
}

=== FILE: form_errors.dfy ===
/**
 * The error objects the application's forms keep: one message per field, shown when it is
 * not empty, and blanked when the user edits that field.
 */
module FormErrors {

  /** Editing a field blanks that field's message if it has a non-empty one; nothing else
      changes, and no key is added or removed. */
  function ClearError<K>(errors: map<K, string>, field: K): (r: map<K, string>)
    ensures field in errors && errors[field] != "" ==> r == errors[field := ""]
    ensures !(field in errors && errors[field] != "") ==> r == errors
    ensures r.Keys == errors.Keys
  {
    if field in errors && errors[field] != "" then errors[field := ""] else errors
  }

  /** The fields whose message is displayed: those with a non-empty one. */
  function Displayed<K(!new)>(errors: map<K, string>): (r: set<K>)
    ensures forall k :: k in r <==> k in errors && errors[k] != ""
  {
    set k | k in errors && errors[k] != ""
  }

  /** After an edit, the edited field shows no message and every other message stays. */
  lemma ClearErrorHidesOnlyThatField<K(!new)>(errors: map<K, string>, field: K)
    ensures Displayed(ClearError(errors, field)) == Displayed(errors) - {field}
  {
  }
}

=== FILE: js.dfy ===
/**
 * The slice of JavaScript's value semantics the application leans on: truthiness and `||`
 * defaults, strict equality, property lookup on plain objects, and `parseInt`.
 * Numbers are integers here; fractional numbers and `-0` are not represented.
 */
module Js {
  import opened Options
  import opened Text

  datatype JsValue = Undefined | Null | Bool(b: bool) | Num(n: int) | NaN | Str(s: string)

  /** JavaScript's ToBoolean. */
  predicate Truthy(v: JsValue) {
    match v
    case Undefined => false
    case Null => false
    case Bool(b) => b
    case Num(n) => n != 0
    case NaN => false
    case Str(s) => s != ""
  }

  /** `a || b`: the first operand when it is truthy, the second otherwise. */
  function Or(a: JsValue, b: JsValue): JsValue {
    if Truthy(a) then a else b
  }

  /** `a === b`: equal values of the same type, except that `NaN` equals nothing. */
  predicate StrictEq(a: JsValue, b: JsValue) {
    a != NaN && a == b
  }

  /** A plain object: its own enumerable properties. A missing key reads as `undefined`. */
  type JsObject = map<string, JsValue>

  /** `o.k` */
  function Get(o: JsObject, k: string): JsValue {
    if k in o then o[k] else Undefined
  }

  /** `o.k !== undefined` */
  predicate Defined(o: JsObject, k: string) {
    Get(o, k) != Undefined
  }

  /** `o?.k` on an object that may be null. */
  function GetIn(o: Option<JsObject>, k: string): JsValue {
    match o
    case None => Undefined
    case Some(obj) => Get(obj, k)
  }

  // ---------------------------------------------------------------- parseInt

  /** `v ? v : undefined` as an optional column: kept only when truthy. */
  function IfTruthy(v: JsValue): (r: Option<JsValue>)
    ensures r.Some? <==> Truthy(v)
    ensures r.Some? ==> r.value == v
  {
    if Truthy(v) then Some(v) else None
  }

  /** The value of an alphanumeric digit (`0`-`9`, then `a`/`A` = 10 … `z`/`Z` = 35);
      36 for every other character. */
  function DigitValue(c: char): nat {
    if '0' <= c <= '9' then c as int - '0' as int
    else if 'a' <= c <= 'z' then c as int - 'a' as int + 10
    else if 'A' <= c <= 'Z' then c as int - 'A' as int + 10
    else 36
  }

  predicate IsDigit(c: char, radix: nat) {
    DigitValue(c) < radix
  }

  /** Length of the longest prefix of `s` made of digits of `radix`. */
  function DigitPrefixLen(s: string, radix: nat): (r: nat)
    ensures r <= |s|
    ensures forall i :: 0 <= i < r ==> IsDigit(s[i], radix)
    ensures r < |s| ==> !IsDigit(s[r], radix)
  {
    if |s| > 0 && IsDigit(s[0], radix) then 1 + DigitPrefixLen(s[1..], radix) else 0
  }

  /** The number a string of digits denotes, most significant digit first. */
  function DigitsValue(s: string, radix: nat): nat {
    if |s| == 0 then 0
    else DigitsValue(s[..|s| - 1], radix) * radix + DigitValue(s[|s| - 1])
  }

  /** `parseInt(s)` with no radix: leading white space is skipped, one sign is read, and
      the rest is read by `ParseUnsigned`. No digits at all gives `NaN`, modelled as `None`. */
  function ParseInt(s: string): Option<int> {
    var t := TrimStart(s);
    var negative := |t| > 0 && t[0] == '-';
    var u := if |t| > 0 && (t[0] == '-' || t[0] == '+') then t[1..] else t;
    match ParseUnsigned(u)
    case None => None
    case Some(m) => Some(if negative then -(m as int) else m as int)
  }

  /** The unsigned part of `parseInt`: a `0x`/`0X` prefix selects base 16, otherwise base 10,
      and the longest run of digits that follows is the value. */
  function ParseUnsigned(u: string): Option<nat> {
    var hex := |u| >= 2 && u[0] == '0' && (u[1] == 'x' || u[1] == 'X');
    var radix := if hex then 16 else 10;
    var body := if hex then u[2..] else u;
    var len := DigitPrefixLen(body, radix);
    if len == 0 then None else Some(DigitsValue(body[..len], radix))
  }

  /** Decimal digits of a natural number, as `Number.prototype.toString` writes them. */
  function NatToDecimal(n: nat): (r: string)
    ensures |r| >= 1
  {
    if n < 10 then ['0' + n as char] else NatToDecimal(n / 10) + ['0' + (n % 10) as char]
  }

  /** `String(n)` for an integer. */
  function IntToDecimal(n: int): string {
    if n < 0 then "-" + NatToDecimal(-n) else NatToDecimal(n)
  }

  /** JavaScript's ToString, as `parseInt` applies it to its argument. */
  function ToJsString(v: JsValue): string {
    match v
    case Undefined => "undefined"
    case Null => "null"
    case Bool(b) => if b then "true" else "false"
    case Num(n) => IntToDecimal(n)
    case NaN => "NaN"
    case Str(s) => s
  }

  /** `parseInt(v)` as a JavaScript value: a number, or `NaN`. A number is its own result and
      a string is parsed; `ParseIntValueIsJsParseInt` shows this is `parseInt` of `String(v)`. */
  function ParseIntValue(v: JsValue): (r: JsValue)
    ensures r.Num? || r == NaN
    ensures v.Num? ==> r == v
    ensures !v.Num? && !v.Str? ==> r == NaN
  {
    match v
    case Num(_) => v
    case Str(s) => (match ParseInt(s) case None => NaN case Some(n) => Num(n))
    case _ => NaN
  }

  /** `parseInt(v) || 0`: the parsed integer, with `NaN` replaced by 0. */
  function ParseIntOrZero(v: JsValue): (r: int)
    ensures ParseIntValue(v).Num? ==> r == ParseIntValue(v).n
    ensures ParseIntValue(v) == NaN ==> r == 0
  {
    match ParseIntValue(v)
    case Num(n) => n
    case _ => 0
  }

  lemma {:induction false} NatToDecimalDigits(n: nat)
    ensures forall i :: 0 <= i < |NatToDecimal(n)| ==> IsDigit(NatToDecimal(n)[i], 10)
  {
    if n >= 10 {
      NatToDecimalDigits(n / 10);
    }
  }

  lemma {:induction false} NatToDecimalValue(n: nat)
    ensures DigitsValue(NatToDecimal(n), 10) == n
  {
    var s := NatToDecimal(n);
    if n >= 10 {
      NatToDecimalValue(n / 10);
      assert s[..|s| - 1] == NatToDecimal(n / 10);
    }
  }

  /** The unsigned reader takes back every decimal string `String(n)` writes. */
  lemma ParseUnsignedDecimal(n: nat)
    ensures ParseUnsigned(NatToDecimal(n)) == Some(n)
  {
    var s := NatToDecimal(n);
    NatToDecimalDigits(n);
    NatToDecimalValue(n);
    assert |s| >= 2 ==> s[1] != 'x' && s[1] != 'X';
    assert DigitPrefixLen(s, 10) == |s|;
    assert s[..|s|] == s;
  }

  /** A string that starts with a digit has no leading white space or sign to strip. */
  lemma TrimStartOfDigits(s: string)
    requires |s| > 0 && IsDigit(s[0], 10)
    ensures TrimStart(s) == s
    ensures s[0] != '-' && s[0] != '+'
  {
  }

  /** Round trip: `parseInt(String(n)) === n` for every integer `n`. */
  lemma ParseIntRoundTrip(n: int)
    ensures ParseInt(IntToDecimal(n)) == Some(n)
  {
    if n < 0 {
      ParseUnsignedDecimal(-n);
      ParseIntOfSign(NatToDecimal(-n), -n);
      assert IntToDecimal(n) == "-" + NatToDecimal(-n);
    } else {
      ParseUnsignedDecimal(n);
      NatToDecimalDigits(n);
      ParseIntOfDigits(NatToDecimal(n), n);
      assert IntToDecimal(n) == NatToDecimal(n);
    }
  }

  /** A string that starts with a digit reads as its unsigned value. */
  lemma ParseIntOfDigits(d: string, m: nat)
    requires |d| > 0 && IsDigit(d[0], 10) && ParseUnsigned(d) == Some(m)
    ensures ParseInt(d) == Some(m)
  {
    TrimStartOfDigits(d);
  }

  /** A minus sign followed by a string with unsigned value `m` reads as `-m`. */
  lemma ParseIntOfSign(d: string, m: nat)
    requires ParseUnsigned(d) == Some(m)
    ensures ParseInt("-" + d) == Some(-(m as int))
  {
    var s := "-" + d;
    assert LeadingSpaces(s) == 0 by { assert !IsSpace(s[0]); }
    assert TrimStart(s) == s;
    assert s[0] == '-' && s[1..] == d;
  }

  /** A string whose first character is a letter (neither white space, a sign, nor the `0`
      of a hexadecimal prefix, and not a decimal digit) parses to `NaN`. */
  lemma ParseIntOfWord(s: string)
    requires |s| > 0 && ('a' <= s[0] <= 'z' || 'A' <= s[0] <= 'Z')
    ensures ParseInt(s) == None
  {
    assert !IsSpace(s[0]);
    assert TrimStart(s) == s;
    assert DigitPrefixLen(s, 10) == 0;
  }

  /** `ParseIntValue` is JavaScript's `parseInt` applied to `String(v)`: a number prints as
      decimal digits that parse back to it, and `undefined`, `null`, `true`, `false` and
      `NaN` print as words that do not parse. */
  lemma ParseIntValueIsJsParseInt(v: JsValue)
    ensures ParseIntValue(v) == (match ParseInt(ToJsString(v)) case None => NaN case Some(n) => Num(n))
    ensures ParseIntOrZero(v) == ParseInt(ToJsString(v)).GetOr(0)
  {
    match v
    case Num(n) => ParseIntRoundTrip(n);
    case Str(_) =>
    case Bool(b) => ParseIntOfWord(ToJsString(v));
    case _ => ParseIntOfWord(ToJsString(v));
  }
}

=== FILE: lecture_card.dfy ===
/**
 * A lecture's card: the type badge's label and colour, the cohort badge, and which buttons
 * it shows.
 */
module LectureCard {
  import opened Options
  import opened LectureService

  /** `getTypeLabel`: the Korean name of the three known types; any other type as it is. */
  function TypeLabel(lectureType: string): (r: string)
    ensures lectureType == "membership" ==> r == "멤버십"
    ensures lectureType == "master" ==> r == "마스터"
    ensures lectureType == "master_common" ==> r == "마스터 공통"
    ensures lectureType !in {"membership", "master", "master_common"} ==> r == lectureType
  {
    match lectureType
    case "membership" => "멤버십"
    case "master" => "마스터"
    case "master_common" => "마스터 공통"
    case _ => lectureType
  }

  /** The three known types get three different labels, each different from every unknown
      type's label except a type literally named like it. */
  lemma TypeLabelDistinguishesKnownTypes(a: string, b: string)
    requires a in {"membership", "master", "master_common"}
    ensures TypeLabel(a) == TypeLabel(b) <==> a == b || b == TypeLabel(a)
  {
  }

  const BLUE: string := "bg-blue-500/20 text-blue-400 border-blue-500/30"
  const PURPLE: string := "bg-purple-500/20 text-purple-400 border-purple-500/30"
  const GREEN: string := "bg-green-500/20 text-green-400 border-green-500/30"
  const SLATE: string := "bg-slate-500/20 text-slate-400 border-slate-500/30"

  /** `getTypeColor`: blue, purple and green for the known types, slate for any other. */
  function TypeColor(lectureType: string): (r: string)
    ensures r in {BLUE, PURPLE, GREEN, SLATE}
    ensures r == SLATE <==> lectureType !in {"membership", "master", "master_common"}
  {
    match lectureType
    case "membership" => BLUE
    case "master" => PURPLE
    case "master_common" => GREEN
    case _ => SLATE
  }

  /** Label and colour agree: a badge is slate exactly when it shows the raw type. */
  lemma ColorMatchesLabel(lectureType: string)
    ensures TypeColor(lectureType) == SLATE <==> TypeLabel(lectureType) == lectureType
  {
  }

  /** What a card shows: the badges, whether a link exists, and the buttons; `edit` and
      `delete` hold what their handlers act on. */
  datatype CardView = CardView(title: string, category: string, typeLabel: string, typeColor: string,
                               cohortBadge: Option<int>, sortOrder: int, watch: Option<string>,
                               edit: Option<Lecture>, delete: Option<int>)

  /** The card for a lecture: a cohort badge when the cohort number is positive; the watch
      button (which opens the link) when the link is not empty; edit and delete buttons when
      their handlers are given. */
  function Card(l: Lecture, onEdit: Option<Lecture>, onDelete: Option<int>): (c: CardView)
    ensures c.title == l.title && c.category == l.category && c.sortOrder == l.sortOrder
    ensures c.typeLabel == TypeLabel(l.lectureType) && c.typeColor == TypeColor(l.lectureType)
    ensures c.cohortBadge.Some? <==> l.cohortNumber > 0
    ensures c.cohortBadge.Some? ==> c.cohortBadge.value == l.cohortNumber
    ensures c.watch.Some? <==> l.embedLink != ""
    ensures c.watch.Some? ==> c.watch.value == l.embedLink
    ensures c.edit == onEdit && c.delete == onDelete
  {
    CardView(l.title, l.category, TypeLabel(l.lectureType), TypeColor(l.lectureType),
             if l.cohortNumber > 0 then Some(l.cohortNumber) else None, l.sortOrder,
             if l.embedLink != "" then Some(l.embedLink) else None, onEdit, onDelete)
  }
}

=== FILE: lecture_form.dfy ===
/**
 * The lecture create/edit form: its initial and prefilled state, field edits, validation, and
 * what it hands to the lecture service on submit.
 */
module LectureForm {
  import opened Options
  import opened Js
  import opened Text
  import opened LectureService
  import opened Url
  import opened FormErrors

  /** The form's state. The two numbers are always numbers: the initial state and the prefill
      hold numbers, and every edit of a number field goes through `parseInt(…) || 0`. */
  datatype FormData = FormData(title: string, cohortNumber: int, category: string, embedLink: string,
                               sortOrder: int, lectureType: string)

  datatype FormField = Title | CohortNumber | Category | EmbedLink | SortOrder | LectureType

  const INITIAL: FormData := FormData("", 0, "", "", 0, "membership")

  /** The initial state, or an existing lecture's columns with `|| ''`, `|| 0` and
      `|| 'membership'` defaults. */
  function Prefill(lecture: Option<Lecture>): (f: FormData)
    ensures lecture.None? ==> f == INITIAL
    ensures lecture.Some? ==> f.title == lecture.value.title && f.category == lecture.value.category
                              && f.embedLink == lecture.value.embedLink
                              && f.cohortNumber == lecture.value.cohortNumber && f.sortOrder == lecture.value.sortOrder
    ensures lecture.Some? ==> f.lectureType == if lecture.value.lectureType == "" then "membership" else lecture.value.lectureType
  {
    match lecture
    case None => INITIAL
    case Some(l) =>
      FormData(Or(Str(l.title), Str("")).s, Or(Num(l.cohortNumber), Num(0)).n, Or(Str(l.category), Str("")).s,
               Or(Str(l.embedLink), Str("")).s, Or(Num(l.sortOrder), Num(0)).n,
               Or(Str(l.lectureType), Str("membership")).s)
  }

  /** The object the form submits, keyed by the column names the lecture service reads. */
  function FormObject(f: FormData): (o: JsObject)
    ensures Get(o, "title") == Str(f.title) && Get(o, "category") == Str(f.category)
    ensures Get(o, "embed_link") == Str(f.embedLink) && Get(o, "type") == Str(f.lectureType)
    ensures Get(o, "cohort_number") == Num(f.cohortNumber) && Get(o, "sort_order") == Num(f.sortOrder)
  {
    LectureObject(f.title, f.cohortNumber, f.category, f.embedLink, f.sortOrder, f.lectureType)
  }

  /** Opening the form on a lecture with a type and submitting it unchanged submits the
      lecture's own data. */
  lemma PrefillRoundTrip(l: Lecture)
    requires l.lectureType != ""
    ensures FormObject(Prefill(Some(l))) == LectureData(l)
  {
  }

  /** `handleInputChange`: the edited field takes the input; a number field takes
      `parseInt(input) || 0`. */
  function Edit(f: FormData, field: FormField, input: string): (r: FormData)
    ensures field == CohortNumber ==> r == f.(cohortNumber := ParseInt(input).GetOr(0))
    ensures field == SortOrder ==> r == f.(sortOrder := ParseInt(input).GetOr(0))
    ensures field == Title ==> r == f.(title := input)
    ensures field == Category ==> r == f.(category := input)
    ensures field == EmbedLink ==> r == f.(embedLink := input)
    ensures field == LectureType ==> r == f.(lectureType := input)
  {
    ParseIntValueIsJsParseInt(Str(input));
    match field
    case CohortNumber => f.(cohortNumber := ParseIntOrZero(Str(input)))
    case SortOrder => f.(sortOrder := ParseIntOrZero(Str(input)))
    case Title => f.(title := input)
    case Category => f.(category := input)
    case EmbedLink => f.(embedLink := input)
    case LectureType => f.(lectureType := input)
  }

  /** The form with its messages, as the component keeps them. */
  datatype FormState = FormState(data: FormData, errors: map<FormField, string>)

  /** `handleInputChange` on the whole state: the field is edited as `Edit` says, and that
      field's message is blanked while every other message stays shown. */
  function EditForm(s: FormState, field: FormField, input: string): (r: FormState)
    ensures r.data == Edit(s.data, field, input)
    ensures r.errors.Keys == s.errors.Keys
    ensures Displayed(r.errors) == Displayed(s.errors) - {field}
    ensures forall k :: k in s.errors && k != field ==> r.errors[k] == s.errors[k]
  {
    ClearErrorHidesOnlyThatField(s.errors, field);
    FormState(Edit(s.data, field, input), ClearError(s.errors, field))
  }

  /** Typing the decimal form of a number into a number field stores that number. */
  lemma EditNumberRoundTrip(f: FormData, n: int)
    ensures Edit(f, CohortNumber, IntToDecimal(n)).cohortNumber == n
    ensures Edit(f, SortOrder, IntToDecimal(n)).sortOrder == n
  {
    ParseIntRoundTrip(n);
  }

  const TITLE_REQUIRED: string := "강의 제목을 입력해주세요."
  const CATEGORY_REQUIRED: string := "카테고리를 입력해주세요."
  const LINK_REQUIRED: string := "임베드 링크를 입력해주세요."
  const LINK_INVALID: string := "유효한 URL을 입력해주세요."
  const COHORT_NEGATIVE: string := "코호트 번호는 0 이상이어야 합니다."
  const SORT_NEGATIVE: string := "정렬 순서는 0 이상이어야 합니다."

  /** The message `validateForm` records for one field, if any: a blank title or category,
      a missing or else malformed link, a negative number. */
  function FieldError(f: FormData, field: FormField): (r: Option<string>)
    ensures field == Title ==> r == if IsBlank(f.title) then Some(TITLE_REQUIRED) else None
    ensures field == Category ==> r == if IsBlank(f.category) then Some(CATEGORY_REQUIRED) else None
    ensures field == EmbedLink ==> r == if IsBlank(f.embedLink) then Some(LINK_REQUIRED)
                                       else if !IsValidUrl(f.embedLink) then Some(LINK_INVALID) else None
    ensures field == CohortNumber ==> r == if f.cohortNumber < 0 then Some(COHORT_NEGATIVE) else None
    ensures field == SortOrder ==> r == if f.sortOrder < 0 then Some(SORT_NEGATIVE) else None
    ensures field == LectureType ==> r.None?
  {
    match field
    case Title => TrimEmptyIffBlank(f.title); if Trim(f.title) == "" then Some(TITLE_REQUIRED) else None
    case Category => TrimEmptyIffBlank(f.category); if Trim(f.category) == "" then Some(CATEGORY_REQUIRED) else None
    case EmbedLink =>
      TrimEmptyIffBlank(f.embedLink);
      if Trim(f.embedLink) == "" then Some(LINK_REQUIRED)
      else if !IsValidUrl(f.embedLink) then Some(LINK_INVALID) else None
    case CohortNumber => if f.cohortNumber < 0 then Some(COHORT_NEGATIVE) else None
    case SortOrder => if f.sortOrder < 0 then Some(SORT_NEGATIVE) else None
    case LectureType => None
  }

  /** `validateForm`'s error object: exactly the fields with a message, each with it. */
  function Validate(f: FormData): (errors: map<FormField, string>)
    ensures forall k :: k in errors <==> FieldError(f, k).Some?
    ensures forall k :: k in errors ==> errors[k] == FieldError(f, k).value
  {
    map k: FormField | FieldError(f, k).Some? :: FieldError(f, k).value
  }

  /** The form is valid exactly when title and category are not blank, the link is a URL and
      neither number is negative. */
  predicate Valid(f: FormData) {
    !IsBlank(f.title) && !IsBlank(f.category) && !IsBlank(f.embedLink) && IsValidUrl(f.embedLink)
    && f.cohortNumber >= 0 && f.sortOrder >= 0
  }

  lemma ValidateEmptyIffValid(f: FormData)
    ensures |Validate(f)| == 0 <==> Valid(f)
  {
    var errors := Validate(f);
    if |errors| == 0 {
      assert Title !in errors && Category !in errors && EmbedLink !in errors;
      assert CohortNumber !in errors && SortOrder !in errors;
    } else {
      var k :| k in errors;
    }
  }

  /** The empty initial form is refused, with the three required-field messages. */
  lemma InitialFormRefused()
    ensures !Valid(INITIAL)
    ensures Title in Validate(INITIAL) && Validate(INITIAL)[Title] == TITLE_REQUIRED
    ensures Category in Validate(INITIAL) && Validate(INITIAL)[Category] == CATEGORY_REQUIRED
    ensures EmbedLink in Validate(INITIAL) && Validate(INITIAL)[EmbedLink] == LINK_REQUIRED
  {
    assert IsBlank(INITIAL.title);
    BlankFieldsRequired(INITIAL);
  }

  /** A form whose title, category and link are blank gets the three required-field
      messages. */
  lemma BlankFieldsRequired(f: FormData)
    requires IsBlank(f.title) && IsBlank(f.category) && IsBlank(f.embedLink)
    ensures !Valid(f)
    ensures Title in Validate(f) && Validate(f)[Title] == TITLE_REQUIRED
    ensures Category in Validate(f) && Validate(f)[Category] == CATEGORY_REQUIRED
    ensures EmbedLink in Validate(f) && Validate(f)[EmbedLink] == LINK_REQUIRED
  {
  }

  /** The initial form's errors are for those three fields and no others. */
  lemma InitialFormErrorFields(k: FormField)
    ensures k in Validate(INITIAL) <==> k == Title || k == Category || k == EmbedLink
  {
    assert IsBlank(INITIAL.title);
    match k
    case Title =>
    case Category =>
    case EmbedLink =>
    case CohortNumber =>
    case SortOrder =>
    case LectureType =>
  }

  /** `handleSubmit`: the form data goes to `onSubmit` only when validation passes. */
  function Submit(f: FormData): (r: Option<JsObject>)
    ensures r.Some? <==> Valid(f)
    ensures r.Some? ==> r.value == FormObject(f)
  {
    ValidateEmptyIffValid(f);
    if |Validate(f)| == 0 then Some(FormObject(f)) else None
  }

  /** A submitted form creates a lecture whose columns are exactly the form's, with its
      (non-blank) title as `Name` and numbers that are not negative. */
  lemma SubmitCreates(f: FormData)
    requires Submit(f).Some?
    ensures var r := CreateRecord(Submit(f).value);
            r == LectureRecord(Str(f.title), Str(f.title), f.cohortNumber, Str(f.category), Str(f.embedLink),
                               f.sortOrder, Str(f.lectureType))
            && r.cohortNumber >= 0 && r.sortOrder >= 0
  {
    assert f.title != "" by { assert !IsBlank(f.title); }
  }
}

=== FILE: lecture_list.dfy ===
/**
 * The lecture grid: one card per lecture, in order, with edit and delete wired to that
 * card's own lecture only when editing is allowed.
 */
module LectureList {
  import opened Options
  import opened LectureService
  import opened LectureCard

  function Cards(lectures: seq<Lecture>, canEdit: bool): (r: seq<CardView>)
    ensures |r| == |lectures|
    ensures forall i :: 0 <= i < |r| ==> r[i].title == lectures[i].title && r[i].sortOrder == lectures[i].sortOrder
    ensures forall i :: 0 <= i < |r| ==> (r[i].edit.Some? <==> canEdit) && (r[i].delete.Some? <==> canEdit)
    ensures canEdit ==> forall i :: 0 <= i < |r| ==> r[i].edit == Some(lectures[i]) && r[i].delete == Some(lectures[i].Id)
  {
    seq(|lectures|, i requires 0 <= i < |lectures| =>
          Card(lectures[i], if canEdit then Some(lectures[i]) else None, if canEdit then Some(lectures[i].Id) else None))
  }
}

=== FILE: lecture_service.dfy ===
/**
 * The `lecture` table service: the records it sends for create and update, and what each of
 * its list queries selects and in which order.
 */
module LectureService {
  import opened Options
  import opened Js
  import opened Seqs
  import opened Ordering
  import opened Service

  /** A row of the `lecture` table. `lectureType` (the column `type`) is `membership`, `master` or `master_common`. */
  datatype Lecture = Lecture(Id: int, title: string, cohortNumber: int, category: string,
                             embedLink: string, sortOrder: int, lectureType: string)

  /** The course type the master page passes for the shared course. */
  const COMMON_COURSE: string := "공통 과정"
  /** The record name used when a new lecture has no title. */
  const DEFAULT_NAME: string := "강의 제목"

  /** Every list query orders by `sort_order` ascending. */
  function SortOrderKey(l: Lecture): Key {
    Number(l.sortOrder)
  }

  /** The record `create` sends. Every column is present; `title` doubles as `Name`. */
  datatype LectureRecord = LectureRecord(Name: JsValue, title: JsValue, cohortNumber: int, category: JsValue,
                                         embedLink: JsValue, sortOrder: int, lectureType: JsValue)

  /** The partial record `update` sends: `Id` always, each other column only when present. */
  datatype LecturePatch = LecturePatch(Id: JsValue, Name: Option<JsValue>, title: Option<JsValue>,
                                       cohortNumber: Option<JsValue>, category: Option<JsValue>,
                                       embedLink: Option<JsValue>, sortOrder: Option<JsValue>,
                                       lectureType: Option<JsValue>)

  /** `create`: `Name` is the title or a default, so never empty; the two numbers go through
      `parseInt(…) || 0`, so a number passes through and anything else that is not a string
      becomes 0; the other columns are copied. */
  function CreateRecord(data: JsObject): (r: LectureRecord)
    ensures Truthy(r.Name)
    ensures Truthy(Get(data, "title")) ==> r.Name == Get(data, "title")
    ensures !Truthy(Get(data, "title")) ==> r.Name == Str(DEFAULT_NAME)
    ensures r.title == Get(data, "title") && r.category == Get(data, "category")
    ensures r.embedLink == Get(data, "embed_link") && r.lectureType == Get(data, "type")
    ensures Get(data, "cohort_number").Num? ==> r.cohortNumber == Get(data, "cohort_number").n
    ensures Get(data, "sort_order").Num? ==> r.sortOrder == Get(data, "sort_order").n
    ensures !Get(data, "cohort_number").Num? && !Get(data, "cohort_number").Str? ==> r.cohortNumber == 0
    ensures !Get(data, "sort_order").Num? && !Get(data, "sort_order").Str? ==> r.sortOrder == 0
    ensures Get(data, "cohort_number").Str? ==> r.cohortNumber == ParseInt(Get(data, "cohort_number").s).GetOr(0)
    ensures Get(data, "sort_order").Str? ==> r.sortOrder == ParseInt(Get(data, "sort_order").s).GetOr(0)
    ensures r.cohortNumber == ParseIntOrZero(Get(data, "cohort_number")) && r.sortOrder == ParseIntOrZero(Get(data, "sort_order"))
  {
    LectureRecord(Or(Get(data, "title"), Str(DEFAULT_NAME)), Get(data, "title"),
                  ParseIntOrZero(Get(data, "cohort_number")), Get(data, "category"),
                  Get(data, "embed_link"), ParseIntOrZero(Get(data, "sort_order")), Get(data, "type"))
  }

  /** A numeric column sent, parsed, whenever it is not `undefined`: `0` is sent, and a value
      that does not parse is sent as `NaN`. */
  function IfDefinedParsed(data: JsObject, k: string): (r: Option<JsValue>)
    ensures r.Some? <==> Defined(data, k)
    ensures r.Some? ==> r.value.Num? || r.value == NaN
    ensures r.Some? && Get(data, k).Num? ==> r.value == Get(data, k)
    ensures r.Some? && Get(data, k).Str? ==> r.value == (match ParseInt(Get(data, k).s) case Some(n) => Num(n) case None => NaN)
    ensures r.Some? ==> r.value == ParseIntValue(Get(data, k))
  {
    if Defined(data, k) then Some(ParseIntValue(Get(data, k))) else None
  }

  /** `update`: `Name` and `title` travel together when the title is truthy; the numbers
      whenever they are defined; the text columns when truthy. */
  function UpdateRecord(id: JsValue, data: JsObject): (r: LecturePatch)
    ensures r.Id == ParseIntValue(id)
    ensures r.Name == r.title && (r.title.Some? <==> Truthy(Get(data, "title")))
    ensures r.title.Some? ==> r.title.value == Get(data, "title")
    ensures r.cohortNumber == IfDefinedParsed(data, "cohort_number")
    ensures r.sortOrder == IfDefinedParsed(data, "sort_order")
    ensures r.category == IfTruthy(Get(data, "category"))
    ensures r.embedLink == IfTruthy(Get(data, "embed_link"))
    ensures r.lectureType == IfTruthy(Get(data, "type"))
  {
    var title := IfTruthy(Get(data, "title"));
    LecturePatch(ParseIntValue(id), title, title,
                 IfDefinedParsed(data, "cohort_number"), IfTruthy(Get(data, "category")),
                 IfTruthy(Get(data, "embed_link")), IfDefinedParsed(data, "sort_order"),
                 IfTruthy(Get(data, "type")))
  }

  /** The form data of an existing lecture, as the edit form holds it: its fields put into
      the one object shape `LectureObject` defines. */
  function LectureData(l: Lecture): JsObject {
    LectureObject(l.title, l.cohortNumber, l.category, l.embedLink, l.sortOrder, l.lectureType)
  }

  /** Lecture fields as the object `create` and `update` read, keyed by column name. */
  function LectureObject(title: string, cohortNumber: int, category: string, embedLink: string,
                         sortOrder: int, lectureType: string): (o: JsObject)
    ensures o.Keys == {"title", "cohort_number", "category", "embed_link", "sort_order", "type"}
    ensures Get(o, "title") == Str(title) && Get(o, "category") == Str(category)
    ensures Get(o, "embed_link") == Str(embedLink) && Get(o, "type") == Str(lectureType)
    ensures Get(o, "cohort_number") == Num(cohortNumber) && Get(o, "sort_order") == Num(sortOrder)
  {
    map["title" := Str(title), "cohort_number" := Num(cohortNumber), "category" := Str(category),
        "embed_link" := Str(embedLink), "sort_order" := Num(sortOrder), "type" := Str(lectureType)]
  }

  /** Creating from a lecture's own data stores exactly its columns, with its title as `Name`
      when it has one. */
  lemma CreateOfLectureData(l: Lecture)
    ensures CreateRecord(LectureData(l)) ==
            LectureRecord(if l.title != "" then Str(l.title) else Str(DEFAULT_NAME), Str(l.title), l.cohortNumber,
                          Str(l.category), Str(l.embedLink), l.sortOrder, Str(l.lectureType))
  {
  }

  /** Saving an unchanged lecture sends its id and both numbers as they are, and exactly its
      non-empty text columns. */
  lemma UpdateOfLectureData(l: Lecture)
    ensures UpdateRecord(Num(l.Id), LectureData(l)).Id == Num(l.Id)
    ensures UpdateRecord(Num(l.Id), LectureData(l)).cohortNumber == Some(Num(l.cohortNumber))
    ensures UpdateRecord(Num(l.Id), LectureData(l)).sortOrder == Some(Num(l.sortOrder))
    ensures UpdateRecord(Num(l.Id), LectureData(l)).title.Some? <==> l.title != ""
    ensures UpdateRecord(Num(l.Id), LectureData(l)).category.Some? <==> l.category != ""
    ensures UpdateRecord(Num(l.Id), LectureData(l)).embedLink.Some? <==> l.embedLink != ""
    ensures UpdateRecord(Num(l.Id), LectureData(l)).lectureType.Some? <==> l.lectureType != ""
  {
  }

  /** `getAll`: every lecture by `sort_order`; `[]` when the fetch fails. */
  function GetAll(store: Store<Lecture>): (r: seq<Lecture>)
    ensures !store.up ==> r == []
    ensures store.up ==> multiset(r) == multiset(store.rows)
    ensures Sorted(r, SortOrderKey, false)
  {
    FilterAllPass(store.rows, (l: Lecture) => true);
    Query(store, (l: Lecture) => true, SortOrderKey, false)
  }

  /** `getById`: the lecture with `Id == parseInt(id)`, or `null`. */
  function GetLecture(store: Store<Lecture>, id: JsValue): (r: Option<Lecture>)
    ensures !store.up ==> r.None?
    ensures r.Some? ==> r.value in store.rows && ParseIntValue(id) == Num(r.value.Id)
    ensures store.up && (exists i :: 0 <= i < |store.rows| && ParseIntValue(id) == Num(store.rows[i].Id)) ==> r.Some?
  {
    GetById(store, id, (l: Lecture) => l.Id)
  }

  /** The `where` clause of `getMasterLectures`: the shared course is every `master_common`
      lecture whatever the cohort; any other course type is the `master` lectures of exactly
      the cohort `parseInt(userCohort) || 0`. */
  predicate IsMasterLecture(courseType: string, userCohort: JsValue, l: Lecture) {
    if courseType == COMMON_COURSE then l.lectureType == "master_common"
    else l.lectureType == "master" && l.cohortNumber == ParseIntOrZero(userCohort)
  }

  function GetMasterLectures(store: Store<Lecture>, courseType: string, userCohort: JsValue): (r: seq<Lecture>)
    ensures !store.up ==> r == []
    ensures forall i :: 0 <= i < |r| ==> r[i] in store.rows
    ensures courseType == COMMON_COURSE ==> forall i :: 0 <= i < |r| ==> r[i].lectureType == "master_common"
    ensures courseType != COMMON_COURSE ==>
              forall i :: 0 <= i < |r| ==> r[i].lectureType == "master" && r[i].cohortNumber == ParseIntOrZero(userCohort)
    ensures store.up ==> forall i :: 0 <= i < |store.rows| && IsMasterLecture(courseType, userCohort, store.rows[i])
                                     ==> store.rows[i] in r
    ensures store.up ==> forall x :: multiset(r)[x] == if IsMasterLecture(courseType, userCohort, x) then multiset(store.rows)[x] else 0
    ensures Sorted(r, SortOrderKey, false)
  {
    Query(store, (l: Lecture) => IsMasterLecture(courseType, userCohort, l), SortOrderKey, false)
  }

  /** The `where` clause of `getByMembershipCohort`: membership lectures of every cohort up to
      `parseInt(n)`. A `NaN` bound, as in a JavaScript comparison, admits nothing. */
  predicate IsMembershipLectureUpTo(n: JsValue, l: Lecture) {
    l.lectureType == "membership" && ParseIntValue(n).Num? && l.cohortNumber <= ParseIntValue(n).n
  }

  function GetByMembershipCohort(store: Store<Lecture>, n: JsValue): (r: seq<Lecture>)
    ensures !store.up ==> r == []
    ensures forall i :: 0 <= i < |r| ==> r[i] in store.rows && r[i].lectureType == "membership"
    ensures forall i :: 0 <= i < |r| ==> ParseIntValue(n).Num? && r[i].cohortNumber <= ParseIntValue(n).n
    ensures store.up ==> forall i :: 0 <= i < |store.rows| && IsMembershipLectureUpTo(n, store.rows[i])
                                     ==> store.rows[i] in r
    ensures store.up ==> forall x :: multiset(r)[x] == if IsMembershipLectureUpTo(n, x) then multiset(store.rows)[x] else 0
    ensures Sorted(r, SortOrderKey, false)
  {
    Query(store, (l: Lecture) => IsMembershipLectureUpTo(n, l), SortOrderKey, false)
  }

  /** A member of a later membership cohort sees every lecture an earlier cohort sees. */
  lemma MembershipCohortMonotone(store: Store<Lecture>, a: int, b: int, l: Lecture)
    requires a <= b
    requires l in GetByMembershipCohort(store, Num(a))
    ensures l in GetByMembershipCohort(store, Num(b))
  {
    var ra := GetByMembershipCohort(store, Num(a));
    var rb := GetByMembershipCohort(store, Num(b));
    assert store.up;
    assert multiset(ra)[l] > 0;
    assert IsMembershipLectureUpTo(Num(a), l) && multiset(store.rows)[l] > 0;
    assert IsMembershipLectureUpTo(Num(b), l);
    assert multiset(rb)[l] > 0;
  }

  /** `getByType`: the lectures of exactly that type. */
  function GetByType(store: Store<Lecture>, wanted: string): (r: seq<Lecture>)
    ensures !store.up ==> r == []
    ensures forall i :: 0 <= i < |r| ==> r[i] in store.rows && r[i].lectureType == wanted
    ensures store.up ==> forall i :: 0 <= i < |store.rows| && store.rows[i].lectureType == wanted ==> store.rows[i] in r
    ensures store.up ==> forall x :: multiset(r)[x] == if x.lectureType == wanted then multiset(store.rows)[x] else 0
    ensures Sorted(r, SortOrderKey, false)
  {
    Query(store, (l: Lecture) => l.lectureType == wanted, SortOrderKey, false)
  }

  /** `getByCohort`: the lectures (of any type) whose cohort is exactly `parseInt(n)`;
      nothing when that is `NaN`. */
  function GetByCohort(store: Store<Lecture>, n: JsValue): (r: seq<Lecture>)
    ensures !store.up ==> r == []
    ensures forall i :: 0 <= i < |r| ==> r[i] in store.rows && ParseIntValue(n) == Num(r[i].cohortNumber)
    ensures store.up ==> forall i :: 0 <= i < |store.rows| && ParseIntValue(n) == Num(store.rows[i].cohortNumber)
                                     ==> store.rows[i] in r
    ensures store.up ==> forall x :: multiset(r)[x] == if ParseIntValue(n) == Num(x.cohortNumber) then multiset(store.rows)[x] else 0
    ensures Sorted(r, SortOrderKey, false)
  {
    Query(store, (l: Lecture) => ParseIntValue(n) == Num(l.cohortNumber), SortOrderKey, false)
  }
}

=== FILE: lectures_page.dfy ===
/**
 * The lecture management page: the visible list (search, type filter, sort), the empty-list
 * message, and who sees the management controls.
 */
module LecturesPage {
  import opened Options
  import opened Text
  import opened Seqs
  import opened Ordering
  import opened Access
  import opened LectureService
  import opened LectureCard
  import opened LectureList

  /** The search: the lowercased term occurs in the lowercased title or category. */
  predicate MatchesSearch(l: Lecture, searchTerm: string) {
    Contains(Lower(l.title), Lower(searchTerm)) || Contains(Lower(l.category), Lower(searchTerm))
  }

  /** The type filter: `all` passes everything, any other value only that type. */
  predicate MatchesType(l: Lecture, filterType: string) {
    filterType == "all" || l.lectureType == filterType
  }

  predicate Shown(l: Lecture, searchTerm: string, filterType: string) {
    MatchesSearch(l, searchTerm) && MatchesType(l, filterType)
  }

  /** The comparator's key: title or type as text, `cohort_number` as a number, and
      `sort_order` for that choice and every other one. */
  function SortKey(sortBy: string): Lecture -> Key {
    if sortBy == "title" then (l: Lecture) => Text(l.title)
    else if sortBy == "cohort_number" then (l: Lecture) => Number(l.cohortNumber)
    else if sortBy == "type" then (l: Lecture) => Text(l.lectureType)
    else (l: Lecture) => Number(l.sortOrder)
  }

  /** `filteredLectures`: the lectures that pass both filters, stably sorted by the key. */
  function VisibleLectures(lectures: seq<Lecture>, searchTerm: string, filterType: string,
                           sortBy: string): (r: seq<Lecture>)
    ensures multiset(r) == multiset(Filter(lectures, (l: Lecture) => Shown(l, searchTerm, filterType)))
    ensures Sorted(r, SortKey(sortBy), false)
  {
    var shown := Filter(lectures, (l: Lecture) => Shown(l, searchTerm, filterType));
    SortByPermutes(shown, SortKey(sortBy), false);
    SortBySorted(shown, SortKey(sortBy), false);
    SortBy(shown, SortKey(sortBy), false)
  }

  /** A lecture is shown iff it is in the list and passes both the search and the type
      filter. */
  lemma VisibleIff(lectures: seq<Lecture>, searchTerm: string, filterType: string, sortBy: string, l: Lecture)
    ensures l in VisibleLectures(lectures, searchTerm, filterType, sortBy)
            <==> l in lectures && MatchesSearch(l, searchTerm) && (filterType == "all" || l.lectureType == filterType)
  {
    var shown := Filter(lectures, (l: Lecture) => Shown(l, searchTerm, filterType));
    var r := VisibleLectures(lectures, searchTerm, filterType, sortBy);
    assert l in r <==> l in multiset(shown);
    if l in lectures && Shown(l, searchTerm, filterType) {
      var k :| 0 <= k < |lectures| && lectures[k] == l;
    }
  }

  /** The order is by title or type as text, by cohort number, or by `sort_order`. */
  lemma VisibleOrder(lectures: seq<Lecture>, searchTerm: string, filterType: string, sortBy: string, i: int, j: int)
    requires 0 <= i < j < |VisibleLectures(lectures, searchTerm, filterType, sortBy)|
    ensures var r := VisibleLectures(lectures, searchTerm, filterType, sortBy);
            if sortBy == "title" then TextLe(r[i].title, r[j].title)
            else if sortBy == "cohort_number" then r[i].cohortNumber <= r[j].cohortNumber
            else if sortBy == "type" then TextLe(r[i].lectureType, r[j].lectureType)
            else r[i].sortOrder <= r[j].sortOrder
  {
    var r := VisibleLectures(lectures, searchTerm, filterType, sortBy);
    assert Precedes(SortKey(sortBy)(r[i]), SortKey(sortBy)(r[j]), false);
  }

  /** Lectures with the same key keep the order they had in the list. */
  lemma VisibleStable(lectures: seq<Lecture>, searchTerm: string, filterType: string, sortBy: string, k: Key)
    ensures WithKey(VisibleLectures(lectures, searchTerm, filterType, sortBy), SortKey(sortBy), k)
            == WithKey(Filter(lectures, (l: Lecture) => Shown(l, searchTerm, filterType)), SortKey(sortBy), k)
  {
    SortByStable(Filter(lectures, (l: Lecture) => Shown(l, searchTerm, filterType)), SortKey(sortBy), false, k);
  }

  /** Applying the same search, filter and sort to the visible list changes nothing. */
  lemma VisibleIdempotent(lectures: seq<Lecture>, searchTerm: string, filterType: string, sortBy: string)
    ensures VisibleLectures(VisibleLectures(lectures, searchTerm, filterType, sortBy), searchTerm, filterType, sortBy)
            == VisibleLectures(lectures, searchTerm, filterType, sortBy)
  {
    var r := VisibleLectures(lectures, searchTerm, filterType, sortBy);
    forall i | 0 <= i < |r| ensures Shown(r[i], searchTerm, filterType) {
      VisibleIff(lectures, searchTerm, filterType, sortBy, r[i]);
    }
    FilterAllPass(r, (l: Lecture) => Shown(l, searchTerm, filterType));
    SortBySortedIsIdentity(r, SortKey(sortBy), false);
  }

  /** An empty search with type `all` shows every lecture. */
  lemma NoFilterShowsAll(lectures: seq<Lecture>, sortBy: string)
    ensures multiset(VisibleLectures(lectures, "", "all", sortBy)) == multiset(lectures)
  {
    forall l: Lecture ensures Shown(l, "", "all") {
      NoCriteriaShows(l);
    }
    FilterAllPass(lectures, (l: Lecture) => Shown(l, "", "all"));
  }

  /** An empty search term with type `all` passes any lecture. */
  lemma NoCriteriaShows(l: Lecture)
    ensures Shown(l, "", "all")
  {
    assert Lower("") == "";
    ContainsEmpty(Lower(l.title));
  }

  /** The search ignores ASCII case: `ALPHA` finds a lecture titled `alpha`. */
  lemma SearchIgnoresCase(l: Lecture)
    requires l.title == "alpha"
    ensures MatchesSearch(l, "ALPHA")
  {
    assert Lower("ALPHA") == "alpha";
    assert Lower(l.title) == "alpha";
    assert OccursAt(Lower(l.title), Lower("ALPHA"), 0);
  }

  /** Two lectures with `sort_order` 2 and 1 are shown in the order 1, 2. */
  lemma SortOrderScenario(a: Lecture, b: Lecture)
    requires a.title == "Alpha" && a.sortOrder == 2 && a.lectureType == "membership"
    requires b.title == "Beta" && b.sortOrder == 1 && b.lectureType == "membership"
    ensures VisibleLectures([a, b], "", "all", "sort_order") == [b, a]
  {
    NoCriteriaShows(a);
    NoCriteriaShows(b);
    assert SortKey("sort_order")(a) == Number(2) && SortKey("sort_order")(b) == Number(1);
    ShownPairSwapped(a, b, "", "all", "sort_order");
  }

  /** Two shown lectures, the first of which may not precede the second, are shown swapped. */
  lemma ShownPairSwapped(a: Lecture, b: Lecture, searchTerm: string, filterType: string, sortBy: string)
    requires Shown(a, searchTerm, filterType) && Shown(b, searchTerm, filterType)
    requires !Precedes(SortKey(sortBy)(a), SortKey(sortBy)(b), false)
    ensures VisibleLectures([a, b], searchTerm, filterType, sortBy) == [b, a]
  {
    FilterAllPass([a, b], (l: Lecture) => Shown(l, searchTerm, filterType));
    var key := SortKey(sortBy);
    assert SortBy([b], key, false) == [b] by {
      assert [b][1..] == [];
    }
    assert SortBy([a, b], key, false) == Insert(a, [b], key, false) by {
      assert [a, b][1..] == [b];
    }
    assert Insert(a, [b], key, false) == [b, a];
  }

  /** The message of the empty state: a search or filter in force blames the criteria,
      otherwise the catalogue is empty. Nothing when some lecture is shown. */
  function EmptyMessage(searchTerm: string, filterType: string, visible: seq<Lecture>): (r: Option<string>)
    ensures r.Some? <==> |visible| == 0
    ensures r.Some? && (searchTerm != "" || filterType != "all") ==> r.value == "검색 조건에 맞는 강의가 없습니다."
    ensures r.Some? && searchTerm == "" && filterType == "all" ==> r.value == "아직 등록된 강의가 없습니다."
  {
    if |visible| != 0 then None
    else if searchTerm != "" || filterType != "all" then Some("검색 조건에 맞는 강의가 없습니다.")
    else Some("아직 등록된 강의가 없습니다.")
  }

  /** With no search and no filter, the empty state appears only for an empty catalogue. */
  lemma EmptyCatalogueMessage(lectures: seq<Lecture>, sortBy: string)
    ensures EmptyMessage("", "all", VisibleLectures(lectures, "", "all", sortBy)).Some? <==> lectures == []
  {
    NoFilterShowsAll(lectures, sortBy);
    var r := VisibleLectures(lectures, "", "all", sortBy);
    assert |r| == |multiset(r)| == |multiset(lectures)| == |lectures|;
  }

  /** Whether the page shows the create button and lets the list edit and delete:
      `hasAccess('admin')` through the auth context. */
  function CanManage(build: AuthBuild, user: Option<User>): (r: bool)
    ensures user.None? ==> !r
    ensures build == PermissiveBuild ==> (r <==> user.Some?)
    ensures build == StrictBuild && user.Some? ==> (r <==> user.value.isAdmin || user.value.role == "admin")
  {
    AuthHasAccess(build, user, Some("admin"), None)
  }

  /** What the page renders. */
  datatype PageView = SignInNotice | LoadingView | ErrorView(message: string)
                    | EmptyView(showCreate: bool, message: string) | Grid(showCreate: bool, cards: seq<CardView>)

  /** The page: a sign-in notice with nobody signed in, then loading, then the error, then the
      empty message or the grid of the visible lectures, with the create button and the
      card buttons for those `hasAccess('admin')` admits. */
  function Page(build: AuthBuild, user: Option<User>, loading: bool, error: Option<string>, lectures: seq<Lecture>,
                searchTerm: string, filterType: string, sortBy: string): (v: PageView)
    ensures user.None? <==> v == SignInNotice
    ensures v.Grid? ==> v.cards == Cards(VisibleLectures(lectures, searchTerm, filterType, sortBy), v.showCreate)
    ensures v.Grid? || v.EmptyView? ==> v.showCreate == CanManage(build, user)
    ensures v.EmptyView? ==> Some(v.message) == EmptyMessage(searchTerm, filterType, VisibleLectures(lectures, searchTerm, filterType, sortBy))
    ensures user.Some? && loading ==> v == LoadingView
    ensures user.Some? && !loading && error.Some? ==> v == ErrorView(error.value)
    ensures user.Some? && !loading && error.None?
            ==> (v.Grid? <==> VisibleLectures(lectures, searchTerm, filterType, sortBy) != [])
                && (v.EmptyView? <==> VisibleLectures(lectures, searchTerm, filterType, sortBy) == [])
  {
    var visible := VisibleLectures(lectures, searchTerm, filterType, sortBy);
    if user.None? then SignInNotice
    else if loading then LoadingView
    else if error.Some? then ErrorView(error.value)
    else if |visible| == 0 then EmptyView(CanManage(build, user), EmptyMessage(searchTerm, filterType, visible).value)
    else Grid(CanManage(build, user), Cards(visible, CanManage(build, user)))
  }

  /** Under the strict build only admins (by flag or by role) see edit and delete buttons;
      under the permissive build every signed-in user does. */
  lemma CardButtonsFollowAccess(build: AuthBuild, u: User, lectures: seq<Lecture>, searchTerm: string,
                                filterType: string, sortBy: string, i: int)
    requires Page(build, Some(u), false, None, lectures, searchTerm, filterType, sortBy).Grid?
    requires 0 <= i < |Page(build, Some(u), false, None, lectures, searchTerm, filterType, sortBy).cards|
    ensures var c := Page(build, Some(u), false, None, lectures, searchTerm, filterType, sortBy).cards[i];
            build == StrictBuild ==> (c.edit.Some? <==> u.isAdmin || u.role == "admin")
    ensures var c := Page(build, Some(u), false, None, lectures, searchTerm, filterType, sortBy).cards[i];
            build == PermissiveBuild ==> c.edit.Some? && c.delete.Some?
  {
  }
}

=== FILE: options.dfy ===
/** A value that may be absent: JavaScript's `null` / `undefined` result of a lookup. */
module Options {

  datatype Option<+T> = None | Some(value: T) {

    /** The value, or `default` when absent (`x ?? default`). */
    function GetOr(default: T): T {
      match this
      case Some(v) => v
      case None => default
    }
  }
}

=== FILE: ordering.dfy ===
/**
 * Sorting by one key, as `Array.prototype.sort` (stable since ECMAScript 2019) does with the
 * comparators the application writes: `a.x - b.x` for numbers and `localeCompare` for text.
 */
module Ordering {

  /** A sort key: a number, or a text compared character by character. */
  datatype Key = Number(n: int) | Text(s: string)

  /** Lexicographic order on character codes; it stands in for `localeCompare`. */
  predicate TextLe(a: string, b: string)
    decreases |a|
  {
    |a| == 0 || (|b| > 0 && (a[0] < b[0] || (a[0] == b[0] && TextLe(a[1..], b[1..]))))
  }

  lemma {:induction false} TextLeTotal(a: string, b: string)
    ensures TextLe(a, b) || TextLe(b, a)
    decreases |a|
  {
    if |a| > 0 && |b| > 0 && a[0] == b[0] {
      TextLeTotal(a[1..], b[1..]);
    }
  }

  lemma {:induction false} TextLeAntisymmetric(a: string, b: string)
    requires TextLe(a, b) && TextLe(b, a)
    ensures a == b
    decreases |a|
  {
    if |a| > 0 {
      TextLeAntisymmetric(a[1..], b[1..]);
      assert a == [a[0]] + a[1..] && b == [b[0]] + b[1..];
    }
  }

  lemma {:induction false} TextLeTransitive(a: string, b: string, c: string)
    requires TextLe(a, b) && TextLe(b, c)
    ensures TextLe(a, c)
    decreases |a|
  {
    if |a| > 0 && a[0] == b[0] && b[0] == c[0] {
      TextLeTransitive(a[1..], b[1..], c[1..]);
    }
  }

  /** Numbers before texts; within a kind, the kind's own order. */
  predicate KeyLe(a: Key, b: Key) {
    match (a, b)
    case (Number(x), Number(y)) => x <= y
    case (Text(x), Text(y)) => TextLe(x, y)
    case (Number(_), Text(_)) => true
    case (Text(_), Number(_)) => false
  }

  /** `a` may be placed before `b`: ascending, or descending when `desc`. */
  predicate Precedes(a: Key, b: Key, desc: bool) {
    if desc then KeyLe(b, a) else KeyLe(a, b)
  }

  lemma PrecedesTotal(a: Key, b: Key, desc: bool)
    ensures Precedes(a, b, desc) || Precedes(b, a, desc)
  {
    if a.Text? && b.Text? {
      TextLeTotal(a.s, b.s);
    }
  }

  lemma PrecedesAntisymmetric(a: Key, b: Key, desc: bool)
    requires Precedes(a, b, desc) && Precedes(b, a, desc)
    ensures a == b
  {
    if a.Text? && b.Text? {
      TextLeAntisymmetric(a.s, b.s);
    }
  }

  lemma PrecedesTransitive(a: Key, b: Key, c: Key, desc: bool)
    requires Precedes(a, b, desc) && Precedes(b, c, desc)
    ensures Precedes(a, c, desc)
  {
    if a.Text? && b.Text? && c.Text? {
      if desc {
        TextLeTransitive(c.s, b.s, a.s);
      } else {
        TextLeTransitive(a.s, b.s, c.s);
      }
    }
  }

  lemma PrecedesReflexive(a: Key, desc: bool)
    ensures Precedes(a, a, desc)
  {
    if a.Text? {
      TextLeTotal(a.s, a.s);
    }
  }

  /** Every earlier element may precede every later one. */
  ghost predicate Sorted<T>(s: seq<T>, key: T -> Key, desc: bool) {
    forall i, j :: 0 <= i < j < |s| ==> Precedes(key(s[i]), key(s[j]), desc)
  }

  /** `x` placed before the first element it may precede; after all that must precede it. */
  function Insert<T>(x: T, s: seq<T>, key: T -> Key, desc: bool): seq<T> {
    if |s| == 0 then [x]
    else if Precedes(key(x), key(s[0]), desc) then [x] + s
    else [s[0]] + Insert(x, s[1..], key, desc)
  }

  /** Insertion sort by `key`. */
  function SortBy<T>(s: seq<T>, key: T -> Key, desc: bool): seq<T> {
    if |s| == 0 then [] else Insert(s[0], SortBy(s[1..], key, desc), key, desc)
  }

  lemma {:induction false} InsertPermutes<T>(x: T, s: seq<T>, key: T -> Key, desc: bool)
    ensures multiset(Insert(x, s, key, desc)) == multiset(s) + multiset{x}
  {
    if |s| > 0 && !Precedes(key(x), key(s[0]), desc) {
      InsertPermutes(x, s[1..], key, desc);
      assert s == [s[0]] + s[1..];
    }
  }

  lemma {:induction false} InsertSorted<T>(x: T, s: seq<T>, key: T -> Key, desc: bool)
    requires Sorted(s, key, desc)
    ensures Sorted(Insert(x, s, key, desc), key, desc)
  {
    if |s| == 0 {
    } else if Precedes(key(x), key(s[0]), desc) {
      var r := [x] + s;
      forall i, j | 0 <= i < j < |r| ensures Precedes(key(r[i]), key(r[j]), desc) {
        if i == 0 && j > 1 {
          PrecedesTransitive(key(x), key(s[0]), key(s[j - 1]), desc);
        }
      }
    } else {
      assert Sorted(s[1..], key, desc);
      InsertSorted(x, s[1..], key, desc);
      InsertPermutes(x, s[1..], key, desc);
      PrecedesTotal(key(x), key(s[0]), desc);
      var rest := Insert(x, s[1..], key, desc);
      var r := [s[0]] + rest;
      forall i, j | 0 <= i < j < |r| ensures Precedes(key(r[i]), key(r[j]), desc) {
        if i == 0 {
          var y := rest[j - 1];
          assert y in multiset(rest);
          if y != x {
            assert y in multiset(s[1..]);
            var k :| 0 <= k < |s[1..]| && s[1..][k] == y;
            assert s[k + 1] == y;
          }
        } else {
          assert r[i] == rest[i - 1] && r[j] == rest[j - 1];
        }
      }
    }
  }

  /** Sorting only reorders: the result is a permutation of the input. */
  lemma {:induction false} SortByPermutes<T>(s: seq<T>, key: T -> Key, desc: bool)
    ensures multiset(SortBy(s, key, desc)) == multiset(s)
  {
    if |s| > 0 {
      var t := SortBy(s[1..], key, desc);
      SortByPermutes(s[1..], key, desc);
      InsertPermutes(s[0], t, key, desc);
      assert SortBy(s, key, desc) == Insert(s[0], t, key, desc);
      assert multiset(s) == multiset(s[1..]) + multiset{s[0]} by {
        assert s == [s[0]] + s[1..];
      }
    }
  }

  /** The result is in order. */
  lemma {:induction false} SortBySorted<T>(s: seq<T>, key: T -> Key, desc: bool)
    ensures Sorted(SortBy(s, key, desc), key, desc)
  {
    if |s| > 0 {
      SortBySorted(s[1..], key, desc);
      InsertSorted(s[0], SortBy(s[1..], key, desc), key, desc);
    }
  }

  /** The elements whose key is `k`, in order: the ties a stable sort must not reorder. */
  function WithKey<T>(s: seq<T>, key: T -> Key, k: Key): seq<T> {
    if |s| == 0 then []
    else (if key(s[0]) == k then [s[0]] else []) + WithKey(s[1..], key, k)
  }

  lemma WithKeyCons<T>(x: T, s: seq<T>, key: T -> Key, k: Key)
    ensures WithKey([x] + s, key, k) == (if key(x) == k then [x] else []) + WithKey(s, key, k)
  {
    assert ([x] + s)[1..] == s;
  }

  lemma {:induction false} InsertWithKey<T>(x: T, s: seq<T>, key: T -> Key, desc: bool, k: Key)
    ensures WithKey(Insert(x, s, key, desc), key, k)
            == (if key(x) == k then [x] else []) + WithKey(s, key, k)
  {
    if |s| > 0 && !Precedes(key(x), key(s[0]), desc) {
      InsertWithKey(x, s[1..], key, desc, k);
      PrecedesReflexive(key(x), desc);
      assert key(s[0]) != key(x);
      var rest := Insert(x, s[1..], key, desc);
      WithKeyCons(s[0], rest, key, k);
      WithKeyCons(s[0], s[1..], key, k);
      assert [s[0]] + s[1..] == s;
    } else if |s| > 0 {
      WithKeyCons(x, s, key, k);
    }
  }

  /** Stability: elements with equal keys keep their relative input order. */
  lemma {:induction false} SortByStable<T>(s: seq<T>, key: T -> Key, desc: bool, k: Key)
    ensures WithKey(SortBy(s, key, desc), key, k) == WithKey(s, key, k)
  {
    if |s| > 0 {
      SortByStable(s[1..], key, desc, k);
      InsertWithKey(s[0], SortBy(s[1..], key, desc), key, desc, k);
    }
  }

  /** A sequence that is already in order is left as it is. */
  lemma {:induction false} SortBySortedIsIdentity<T>(s: seq<T>, key: T -> Key, desc: bool)
    requires Sorted(s, key, desc)
    ensures SortBy(s, key, desc) == s
  {
    if |s| > 0 {
      assert Sorted(s[1..], key, desc);
      SortBySortedIsIdentity(s[1..], key, desc);
      if |s| > 1 {
        assert Precedes(key(s[0]), key(s[1..][0]), desc);
      }
      assert s == [s[0]] + s[1..];
    }
  }

  /** Sorting twice is sorting once. */
  lemma SortByIdempotent<T>(s: seq<T>, key: T -> Key, desc: bool)
    ensures SortBy(SortBy(s, key, desc), key, desc) == SortBy(s, key, desc)
  {
    SortBySorted(s, key, desc);
    SortBySortedIsIdentity(SortBy(s, key, desc), key, desc);
  }
}

=== FILE: post_detail.dfy ===
/**
 * Who may edit or delete a post on its detail page.
 */
module PostDetail {
  import opened Options
  import opened Js
  import opened Access
  import opened PostService
  import opened Auth

  /** `canEdit`: nobody without both a user and a post; an admin always; anyone else only
      when their id is strictly equal to the post's `author_id`. */
  function CanEdit(user: Option<User>, post: Option<Post>): (r: bool)
    ensures user.None? || post.None? ==> !r
    ensures user.Some? && post.Some? && user.value.isAdmin ==> r
    ensures user.Some? && post.Some? && !user.value.isAdmin ==> (r <==> StrictEq(user.value.id, post.value.authorId))
  {
    if user.None? || post.None? then false
    else user.value.isAdmin || StrictEq(user.value.id, post.value.authorId)
  }

  /** A post whose author id is `NaN` (what `create` stores for an id that does not parse)
      can be edited by admins only. */
  lemma NaNAuthorOnlyAdmins(u: User, p: Post)
    requires p.authorId == NaN
    ensures CanEdit(Some(u), Some(p)) <==> u.isAdmin
  {
  }

  /** A signed-in mock user (id `"user_…"`) who creates a post under their own id cannot edit
      it: `create` stores `parseInt("user_…")`, which is `NaN`, and no id equals `NaN`. */
  lemma MockAuthorCannotEditOwnPost(s: Session, email: string, stamp: string, data: JsObject, now: string,
                                    p: Post)
    requires Get(data, "author_id") == Login(s, email, stamp).user.value.id
    requires p.authorId == CreateRecord(data, now).authorId
    ensures !CanEdit(Login(s, email, stamp).user, Some(p))
  {
    var u := Login(s, email, stamp).user.value;
    ParseIntOfWord("user_" + stamp);
    assert ParseIntValue(u.id) == NaN;
  }
}

=== FILE: post_form.dfy ===
/**
 * The post editor: its prefilled state, field edits, validation, the toolbar's HTML
 * insertions at the cursor or around the selection, and what it submits.
 */
module PostForm {
  import opened Options
  import opened Js
  import opened Text
  import opened Url
  import opened FormErrors
  import opened Access
  import opened PostService

  /** The form's fields. `authorId` keeps whatever value it was given (a post's numeric
      author id, a user's id, or `''`). */
  datatype PostFormData = PostFormData(title: string, content: string, thumbnailUrl: string, authorId: JsValue,
                                       authorName: string)

  datatype PostField = Title | Content | ThumbnailUrl

  /** The editor's state: fields, messages, and the image-URL box with its visibility. */
  datatype Editor = Editor(data: PostFormData, errors: map<PostField, string>, imageUrl: string, showImageInput: bool)

  function UserId(user: Option<User>): JsValue {
    if user.Some? then user.value.id else Undefined
  }

  /** The state once the effect has run: an existing post's fields (each `|| ''`), its author
      falling back to the signed-in user; with no post, the signed-in user as author; with
      neither, empty fields. */
  function Prefill(post: Option<Post>, user: Option<User>): (f: PostFormData)
    ensures post.Some? ==> f.title == post.value.title && f.content == post.value.content
                           && f.thumbnailUrl == post.value.thumbnailUrl
    ensures post.Some? && Truthy(post.value.authorId) ==> f.authorId == post.value.authorId
    ensures post.Some? && !Truthy(post.value.authorId) && user.Some? && Truthy(user.value.id) ==> f.authorId == user.value.id
    ensures post.Some? && !Truthy(post.value.authorId) && (user.None? || !Truthy(user.value.id)) ==> f.authorId == Str("")
    ensures post.Some? ==> f.authorName == (if post.value.authorName != "" then post.value.authorName
                                            else if user.Some? then user.value.name else "")
    ensures post.None? ==> f.title == "" && f.content == "" && f.thumbnailUrl == ""
    ensures post.None? && user.Some? ==> f.authorId == user.value.id && f.authorName == user.value.name
    ensures post.None? && user.None? ==> f.authorId == Str("") && f.authorName == ""
  {
    var userName := if user.Some? then Str(user.value.name) else Undefined;
    match post
    case Some(p) =>
      PostFormData(Or(Str(p.title), Str("")).s, Or(Str(p.content), Str("")).s, Or(Str(p.thumbnailUrl), Str("")).s,
                   Or(p.authorId, Or(UserId(user), Str(""))), Or(Str(p.authorName), Or(userName, Str(""))).s)
    case None =>
      if user.Some? then PostFormData("", "", "", user.value.id, user.value.name)
      else PostFormData("", "", "", Or(UserId(user), Str("")), Or(userName, Str("")).s)
  }

  /** Editing a post whose stored author id is `NaN` (what a mock user's post gets) puts the
      editor's own id in the form, so saving it reassigns the post. */
  lemma PrefillReplacesNaNAuthor(p: Post, u: User)
    requires p.authorId == NaN && Truthy(u.id)
    ensures Prefill(Some(p), Some(u)).authorId == u.id
  {
  }

  /** The object the form submits, keyed by the column names the post service reads. */
  function FormObject(f: PostFormData): (o: JsObject)
    ensures Get(o, "title") == Str(f.title) && Get(o, "content_richtext") == Str(f.content)
    ensures Get(o, "thumbnail_url") == Str(f.thumbnailUrl) && Get(o, "author_id") == f.authorId
    ensures Get(o, "author_name") == Str(f.authorName)
  {
    map["title" := Str(f.title), "content_richtext" := Str(f.content), "thumbnail_url" := Str(f.thumbnailUrl),
        "author_id" := f.authorId, "author_name" := Str(f.authorName)]
  }

  const TITLE_REQUIRED: string := "제목을 입력해주세요."
  const CONTENT_REQUIRED: string := "내용을 입력해주세요."
  const IMAGE_URL_INVALID: string := "유효한 이미지 URL을 입력해주세요."

  /** The message `validateForm` records for one field, if any: a blank title or content, or
      a thumbnail URL given but not a URL. */
  function FieldError(f: PostFormData, field: PostField): (r: Option<string>)
    ensures field == Title ==> r == if IsBlank(f.title) then Some(TITLE_REQUIRED) else None
    ensures field == Content ==> r == if IsBlank(f.content) then Some(CONTENT_REQUIRED) else None
    ensures field == ThumbnailUrl ==> r == if f.thumbnailUrl != "" && !IsValidUrl(f.thumbnailUrl)
                                          then Some(IMAGE_URL_INVALID) else None
  {
    match field
    case Title => TrimEmptyIffBlank(f.title); if Trim(f.title) == "" then Some(TITLE_REQUIRED) else None
    case Content => TrimEmptyIffBlank(f.content); if Trim(f.content) == "" then Some(CONTENT_REQUIRED) else None
    case ThumbnailUrl => if f.thumbnailUrl != "" && !IsValidUrl(f.thumbnailUrl) then Some(IMAGE_URL_INVALID) else None
  }

  /** `validateForm`'s error object: exactly the fields with a message, each with it. */
  function Validate(f: PostFormData): (errors: map<PostField, string>)
    ensures forall k :: k in errors <==> FieldError(f, k).Some?
    ensures forall k :: k in errors ==> errors[k] == FieldError(f, k).value
  {
    var title := FieldError(f, Title);
    var content := FieldError(f, Content);
    var thumbnail := FieldError(f, ThumbnailUrl);
    var m1: map<PostField, string> := if title.Some? then map[Title := title.value] else map[];
    var m2 := if content.Some? then m1[Content := content.value] else m1;
    if thumbnail.Some? then m2[ThumbnailUrl := thumbnail.value] else m2
  }

  /** What validation accepts: a title and content that are not blank, and no thumbnail or a
      URL. */
  predicate Valid(f: PostFormData) {
    !IsBlank(f.title) && !IsBlank(f.content) && (f.thumbnailUrl == "" || IsValidUrl(f.thumbnailUrl))
  }

  lemma ValidateEmptyIffValid(f: PostFormData)
    ensures |Validate(f)| == 0 <==> Valid(f)
  {
    var errors := Validate(f);
    if |errors| == 0 {
      assert Title !in errors && Content !in errors && ThumbnailUrl !in errors;
    } else {
      var k :| k in errors;
    }
  }

  /** `handleSubmit`: the form data goes to `onSubmit` only when validation passes. */
  function Submit(f: PostFormData): (r: Option<JsObject>)
    ensures r.Some? <==> Valid(f)
    ensures r.Some? ==> r.value == FormObject(f)
  {
    ValidateEmptyIffValid(f);
    if |Validate(f)| == 0 then Some(FormObject(f)) else None
  }

  /** A new post written by a signed-in user is submitted under that user's id, and the
      post service stores the id through `parseInt`. */
  lemma NewPostAuthor(u: User, title: string, content: string, now: string)
    requires !IsBlank(title) && !IsBlank(content)
    ensures Submit(Prefill(None, Some(u)).(title := title, content := content)).Some?
    ensures var data := Submit(Prefill(None, Some(u)).(title := title, content := content)).value;
            Get(data, "author_id") == u.id && CreateRecord(data, now).authorId == ParseIntValue(u.id)
            && CreateRecord(data, now).Name == Str(title)
  {
    assert title != "" by { assert !IsBlank(title); }
  }

  /** `handleInputChange` and `handleContentChange`: the field takes the value and its
      message is blanked. */
  function Edit(e: Editor, field: PostField, value: string): (r: Editor)
    ensures r.errors == ClearError(e.errors, field) && r.imageUrl == e.imageUrl
    ensures field == Title ==> r.data == e.data.(title := value)
    ensures field == Content ==> r.data == e.data.(content := value)
    ensures field == ThumbnailUrl ==> r.data == e.data.(thumbnailUrl := value)
    ensures r == e.(data := r.data, errors := ClearError(e.errors, field))
  {
    var data := match field
      case Title => e.data.(title := value)
      case Content => e.data.(content := value)
      case ThumbnailUrl => e.data.(thumbnailUrl := value);
    e.(data := data, errors := ClearError(e.errors, field))
  }

  /** The markup the image button inserts. */
  function ImageHtml(url: string): string {
    "<img src=\"" + url + "\" alt=\"삽입된 이미지\" style=\"max-width: 100%; height: auto; margin: 1rem 0;\" />"
  }

  /** `insertImageToContent`: with a URL in the box, the image markup goes in at the cursor,
      and the box is emptied and hidden; with no URL or an invalid one (an alert), nothing
      changes. */
  function InsertImage(e: Editor, cursor: int): (r: Editor)
    ensures e.imageUrl == "" || !IsValidUrl(e.imageUrl) ==> r == e
    ensures e.imageUrl != "" && IsValidUrl(e.imageUrl) ==> r.imageUrl == "" && !r.showImageInput
    ensures r.errors == e.errors && r.data.title == e.data.title
    ensures e.imageUrl != "" && IsValidUrl(e.imageUrl)
            ==> r == e.(data := e.data.(content := r.data.content), imageUrl := "", showImageInput := false)
  {
    if e.imageUrl == "" || !IsValidUrl(e.imageUrl) then e
    else
      var content := e.data.content;
      e.(data := e.data.(content := Substring(content, 0, cursor) + ImageHtml(e.imageUrl) + From(content, cursor)),
         imageUrl := "", showImageInput := false)
  }

  /** At a cursor inside the content the markup is spliced in there: the text before and
      after the cursor is kept, and removing the markup gives the content back. */
  lemma InsertImageSplices(e: Editor, cursor: int)
    requires e.imageUrl != "" && IsValidUrl(e.imageUrl)
    requires 0 <= cursor <= |e.data.content|
    ensures var c := InsertImage(e, cursor).data.content;
            var html := ImageHtml(e.imageUrl);
            |c| == |e.data.content| + |html| && c[..cursor] == e.data.content[..cursor]
            && c[cursor..cursor + |html|] == html && c[..cursor] + c[cursor + |html|..] == e.data.content
  {
    var content := e.data.content;
    var html := ImageHtml(e.imageUrl);
    var c := InsertImage(e, cursor).data.content;
    assert c == content[..cursor] + html + content[cursor..];
    assert c[cursor + |html|..] == content[cursor..];
    assert content[..cursor] + content[cursor..] == content;
  }

  /** The toolbar's markup for a tag: opening tag, closing tag, and the placeholder used when
      nothing is selected. Other tags have none. */
  datatype Markup = Markup(open: string, close: string, placeholder: string)

  function MarkupFor(tag: string): (r: Option<Markup>)
    ensures r.Some? <==> tag in {"h2", "h3", "p", "strong", "ul", "ol"}
    ensures r.Some? ==> r.value.placeholder != ""
  {
    if tag == "h2" then Some(Markup("<h2>", "</h2>", "제목을 입력하세요"))
    else if tag == "h3" then Some(Markup("<h3>", "</h3>", "소제목을 입력하세요"))
    else if tag == "p" then Some(Markup("<p>", "</p>", "문단을 입력하세요"))
    else if tag == "strong" then Some(Markup("<strong>", "</strong>", "굵은 텍스트"))
    else if tag == "ul" then Some(Markup("<ul><li>", "</li></ul>", "목록 항목"))
    else if tag == "ol" then Some(Markup("<ol><li>", "</li></ol>", "번호 목록 항목"))
    else None
  }

  /** `insertFormatting`: the selection `[start, end)` replaced by the tag's markup around the
      selected text, or around the placeholder when the selection is empty; an unknown tag
      changes nothing. */
  function InsertFormatting(e: Editor, start: int, end: int, tag: string): (r: Editor)
    ensures MarkupFor(tag).None? ==> r == e
    ensures r.errors == e.errors && r.imageUrl == e.imageUrl && r.data.title == e.data.title
    ensures r == e.(data := e.data.(content := r.data.content))
  {
    match MarkupFor(tag)
    case None => e
    case Some(m) => e.(data := e.data.(content := Wrap(e.data.content, start, end, m)))
  }

  /** The content with `[start, end)` replaced by the selected text, or the placeholder when
      none is selected, between the markup's tags. */
  function Wrap(content: string, start: int, end: int, m: Markup): string {
    var selected := Substring(content, start, end);
    var inner := if selected != "" then selected else m.placeholder;
    Substring(content, 0, start) + m.open + inner + m.close + From(content, end)
  }

  /** For a selection inside the content: the text outside the selection is kept and the
      selection (or the placeholder) sits between the tags. */
  lemma InsertFormattingWraps(e: Editor, start: int, end: int, tag: string)
    requires 0 <= start <= end <= |e.data.content|
    requires MarkupFor(tag).Some?
    ensures var m := MarkupFor(tag).value;
            var content := e.data.content;
            var inner := if start < end then content[start..end] else m.placeholder;
            InsertFormatting(e, start, end, tag).data.content == content[..start] + m.open + inner + m.close + content[end..]
  {
    var m := MarkupFor(tag).value;
    assert InsertFormatting(e, start, end, tag).data.content == Wrap(e.data.content, start, end, m);
    SelectionParts(e.data.content, start, end);
  }

  /** The content with the two tags around `[start, end)` of the original taken back out. */
  function RemoveTags(c: string, start: nat, end: nat, m: Markup): string
    requires start <= end && end + |m.open| + |m.close| <= |c|
  {
    c[..start] + c[start + |m.open|..end + |m.open|] + c[end + |m.open| + |m.close|..]
  }

  /** Taking the two tags out of a wrapped non-empty selection gives the content back. */
  lemma InsertFormattingUnwraps(e: Editor, start: nat, end: nat, tag: string)
    requires start < end <= |e.data.content|
    requires MarkupFor(tag).Some?
    ensures var c := InsertFormatting(e, start, end, tag).data.content;
            |c| == |e.data.content| + |MarkupFor(tag).value.open| + |MarkupFor(tag).value.close|
            && RemoveTags(c, start, end, MarkupFor(tag).value) == e.data.content
  {
    var m := MarkupFor(tag).value;
    assert InsertFormatting(e, start, end, tag).data.content == Wrap(e.data.content, start, end, m);
    WrapThenRemove(e.data.content, start, end, m);
  }

  lemma WrapThenRemove(content: string, start: nat, end: nat, m: Markup)
    requires start < end <= |content|
    ensures |Wrap(content, start, end, m)| == |content| + |m.open| + |m.close|
            && RemoveTags(Wrap(content, start, end, m), start, end, m) == content
  {
    SelectionParts(content, start, end);
    UnwrapAt(Wrap(content, start, end, m), content, start, end, m.open, m.close);
  }

  /** The three parts `insertFormatting` cuts the content into, for a selection inside it. */
  lemma SelectionParts(content: string, start: int, end: int)
    requires 0 <= start <= end <= |content|
    ensures Substring(content, start, end) == content[start..end]
    ensures Substring(content, start, end) != "" <==> start < end
    ensures Substring(content, 0, start) == content[..start]
    ensures From(content, end) == content[end..]
    ensures content[..start] + content[start..end] + content[end..] == content
  {
    assert |content[start..end]| == end - start;
  }

  /** Taking the two tags back out of `content` with `open` and `close` spliced around
      `[start, end)` leaves `content`. */
  lemma UnwrapAt(c: string, content: string, start: nat, end: nat, open: string, close: string)
    requires start <= end <= |content|
    requires c == content[..start] + open + content[start..end] + close + content[end..]
    ensures |c| == |content| + |open| + |close|
    ensures c[..start] + c[start + |open|..end + |open|] + c[end + |open| + |close|..] == content
  {
    assert c[..start] == content[..start];
    assert c[start + |open|..end + |open|] == content[start..end];
    assert c[end + |open| + |close|..] == content[end..];
    assert content[..start] + content[start..end] + content[end..] == content;
  }

  /** Clicking `h2` with the word `b` of `abc` selected gives `a<h2>b</h2>c`. */
  lemma FormattingExample(e: Editor)
    requires e.data.content == "abc"
    ensures InsertFormatting(e, 1, 2, "h2").data.content == "a<h2>b</h2>c"
  {
    assert MarkupFor("h2") == Some(Markup("<h2>", "</h2>", "제목을 입력하세요"));
    var content := e.data.content;
    assert content[..1] == "a" && content[1..2] == "b" && content[2..] == "c";
    InsertFormattingWraps(e, 1, 2, "h2");
  }

  /** With nothing selected at the end of `abc`, `h2` appends the placeholder heading. */
  lemma PlaceholderExample(e: Editor)
    requires e.data.content == "abc"
    ensures InsertFormatting(e, 3, 3, "h2").data.content == "abc<h2>제목을 입력하세요</h2>"
  {
    assert MarkupFor("h2") == Some(Markup("<h2>", "</h2>", "제목을 입력하세요"));
    var content := e.data.content;
    assert content[..3] == "abc" && content[3..] == "";
    InsertFormattingWraps(e, 3, 3, "h2");
  }

  /** A tag without markup, such as `h4`, changes nothing. */
  lemma UnknownTagExample(e: Editor)
    ensures InsertFormatting(e, 1, 2, "h4") == e
  {
    assert MarkupFor("h4").None?;
  }
}

=== FILE: post_service.dfy ===
/**
 * The `post` table service: the records it sends for create and update, and what its list,
 * author and search queries select and in which order.
 */
module PostService {
  import opened Options
  import opened Js
  import opened Text
  import opened Ordering
  import opened Service

  /** A row of the `post` table. `authorId` is the lookup column `author_id` as the backend
      returns it; `createdAt` is a `YYYY-MM-DD` date. */
  datatype Post = Post(Id: int, title: string, content: string, thumbnailUrl: string,
                       authorId: JsValue, authorName: string, createdAt: string)

  /** The record name used when a new post has no title. */
  const DEFAULT_NAME: string := "제목 없음"

  /** Every list query orders by `created_at`, newest first. */
  function CreatedAtKey(p: Post): Key {
    Text(p.createdAt)
  }

  /** The record `create` sends: every column is present. */
  datatype PostRecord = PostRecord(Name: JsValue, title: JsValue, content: JsValue, thumbnailUrl: JsValue,
                                   authorId: JsValue, authorName: JsValue, createdAt: string)

  /** The partial record `update` sends: `Id` always, each other column only when present. */
  datatype PostPatch = PostPatch(Id: JsValue, Name: Option<JsValue>, title: Option<JsValue>,
                                 content: Option<JsValue>, thumbnailUrl: Option<JsValue>,
                                 authorId: Option<JsValue>, authorName: Option<JsValue>,
                                 createdAt: Option<JsValue>)

  /** `create`, given the current time as an ISO timestamp `now`: `Name` is the title or a
      default; `author_id` is `parseInt` of the given id (a number, or `NaN`); `created_at` is
      the date part of `now`, before its first `T`. */
  function CreateRecord(data: JsObject, now: string): (r: PostRecord)
    ensures Truthy(r.Name)
    ensures Truthy(Get(data, "title")) ==> r.Name == Get(data, "title")
    ensures !Truthy(Get(data, "title")) ==> r.Name == Str(DEFAULT_NAME)
    ensures r.title == Get(data, "title") && r.content == Get(data, "content_richtext")
    ensures r.thumbnailUrl == Get(data, "thumbnail_url") && r.authorName == Get(data, "author_name")
    ensures r.authorId.Num? || r.authorId == NaN
    ensures Get(data, "author_id").Num? ==> r.authorId == Get(data, "author_id")
    ensures r.authorId == ParseIntValue(Get(data, "author_id"))
    ensures 'T' !in r.createdAt && r.createdAt <= now
  {
    PostRecord(Or(Get(data, "title"), Str(DEFAULT_NAME)), Get(data, "title"), Get(data, "content_richtext"),
               Get(data, "thumbnail_url"), ParseIntValue(Get(data, "author_id")), Get(data, "author_name"),
               BeforeFirst(now, 'T'))
  }

  /** The stamp of a post created at `date` + `T` + a time of day is that date. */
  lemma CreatedAtIsDate(data: JsObject, date: string, time: string)
    requires 'T' !in date
    ensures CreateRecord(data, date + "T" + time).createdAt == date
  {
    BeforeFirstOfHead(date, time, 'T');
  }

  /** `update`: every column, `author_id` included, is sent only when its value is truthy, and
      `Name` travels with `title`. */
  function UpdateRecord(id: JsValue, data: JsObject): (r: PostPatch)
    ensures r.Id == ParseIntValue(id)
    ensures r.Name == r.title && r.title == IfTruthy(Get(data, "title"))
    ensures r.content == IfTruthy(Get(data, "content_richtext"))
    ensures r.thumbnailUrl == IfTruthy(Get(data, "thumbnail_url"))
    ensures r.authorName == IfTruthy(Get(data, "author_name"))
    ensures r.createdAt == IfTruthy(Get(data, "created_at"))
    ensures r.authorId.Some? <==> Truthy(Get(data, "author_id"))
    ensures r.authorId.Some? ==> r.authorId.value == ParseIntValue(Get(data, "author_id"))
  {
    var title := IfTruthy(Get(data, "title"));
    var author := Get(data, "author_id");
    PostPatch(ParseIntValue(id), title, title, IfTruthy(Get(data, "content_richtext")),
              IfTruthy(Get(data, "thumbnail_url")),
              if Truthy(author) then Some(ParseIntValue(author)) else None,
              IfTruthy(Get(data, "author_name")), IfTruthy(Get(data, "created_at")))
  }

  /** An update with an author id of `0` does not send it, although `0` is a number. */
  lemma UpdateDropsZeroAuthor(id: JsValue, data: JsObject)
    requires Get(data, "author_id") == Num(0)
    ensures UpdateRecord(id, data).authorId.None?
  {
  }

  /** `getAll`: every post, newest first; `[]` when the fetch fails. */
  function GetAll(store: Store<Post>): (r: seq<Post>)
    ensures !store.up ==> r == []
    ensures store.up ==> multiset(r) == multiset(store.rows)
    ensures Sorted(r, CreatedAtKey, true)
  {
    Seqs.FilterAllPass(store.rows, (p: Post) => true);
    Query(store, (p: Post) => true, CreatedAtKey, true)
  }

  /** `getById`: the post with `Id == parseInt(id)`, or `null`. */
  function GetPost(store: Store<Post>, id: JsValue): (r: Option<Post>)
    ensures !store.up ==> r.None?
    ensures r.Some? ==> r.value in store.rows && ParseIntValue(id) == Num(r.value.Id)
    ensures store.up && (exists i :: 0 <= i < |store.rows| && ParseIntValue(id) == Num(store.rows[i].Id)) ==> r.Some?
  {
    GetById(store, id, (p: Post) => p.Id)
  }

  /** The `where` clause of `getByAuthor`: `author_id` equal to `parseInt(authorId)`; a `NaN`
      id matches nothing. */
  predicate ByAuthor(authorId: JsValue, p: Post) {
    StrictEq(p.authorId, ParseIntValue(authorId))
  }

  function GetByAuthor(store: Store<Post>, authorId: JsValue): (r: seq<Post>)
    ensures !store.up ==> r == []
    ensures forall i :: 0 <= i < |r| ==> r[i] in store.rows && r[i].authorId.Num? && r[i].authorId == ParseIntValue(authorId)
    ensures store.up ==> forall i :: 0 <= i < |store.rows| && ByAuthor(authorId, store.rows[i]) ==> store.rows[i] in r
    ensures store.up ==> forall x :: multiset(r)[x] == if ByAuthor(authorId, x) then multiset(store.rows)[x] else 0
    ensures Sorted(r, CreatedAtKey, true)
  {
    Query(store, (p: Post) => ByAuthor(authorId, p), CreatedAtKey, true)
  }

  /** An author id that does not parse selects no post at all. */
  lemma GetByAuthorOfUnparsable(store: Store<Post>, authorId: JsValue)
    requires ParseIntValue(authorId) == NaN
    ensures GetByAuthor(store, authorId) == []
  {
  }

  /** The `whereGroups` of `search`: the title, the content or the author name contains the
      query. */
  predicate Matches(q: string, p: Post) {
    Contains(p.title, q) || Contains(p.content, q) || Contains(p.authorName, q)
  }

  function Search(store: Store<Post>, q: string): (r: seq<Post>)
    ensures !store.up ==> r == []
    ensures forall i :: 0 <= i < |r| ==> r[i] in store.rows
    ensures forall i :: 0 <= i < |r| ==> Contains(r[i].title, q) || Contains(r[i].content, q) || Contains(r[i].authorName, q)
    ensures store.up ==> forall i :: 0 <= i < |store.rows| && Matches(q, store.rows[i]) ==> store.rows[i] in r
    ensures store.up ==> forall x :: multiset(r)[x] == if Matches(q, x) then multiset(store.rows)[x] else 0
    ensures Sorted(r, CreatedAtKey, true)
  {
    Query(store, (p: Post) => Matches(q, p), CreatedAtKey, true)
  }

  /** An empty query finds every post. */
  lemma SearchEmpty(store: Store<Post>)
    ensures store.up ==> multiset(Search(store, "")) == multiset(store.rows)
  {
    forall p: Post ensures Matches("", p) {
      ContainsEmpty(p.title);
    }
    Seqs.FilterAllPass(store.rows, (p: Post) => Matches("", p));
  }
}

=== FILE: reviews.dfy ===
/**
 * The `review` table service: the likes list, stored as one comma-separated string, with its
 * parse, toggle and membership test; who may delete a review; and the records sent for
 * create and update.
 */
module Reviews {
  import opened Options
  import opened Js
  import opened Text
  import opened Seqs

  /** A row of the `review` table; `likes` is `null` or the comma-separated user ids. */
  datatype Review = Review(Id: int, name: string, text: string, authorId: JsValue, authorName: string,
                           createdAt: string, likes: Option<string>)

  /** `like.trim()` is truthy. */
  predicate NonBlank(e: string) {
    !IsBlank(e)
  }

  /** The likes string as a list: split on `,` and keep the entries that are not blank (as
      they are, untrimmed). `null` and `""` give `[]`. */
  function ParseLikes(likes: Option<string>): (r: seq<string>)
    ensures likes.None? || likes == Some("") ==> r == []
    ensures forall i :: 0 <= i < |r| ==> NonBlank(r[i]) && ',' !in r[i]
    ensures likes.Some? ==> IsSubsequence(r, Split(likes.value, ','))
    ensures likes.Some? ==> forall i :: 0 <= i < |Split(likes.value, ',')| && NonBlank(Split(likes.value, ',')[i])
                                        ==> Split(likes.value, ',')[i] in r
    ensures likes.Some? && likes.value != ""
            ==> forall x :: multiset(r)[x] == if NonBlank(x) then multiset(Split(likes.value, ','))[x] else 0
  {
    if likes.None? || likes.value == "" then []
    else
      SplitPiecesAvoidSeparator(likes.value, ',');
      var r := Filter(Split(likes.value, ','), NonBlank);
      forall x ensures multiset(r)[x] == if NonBlank(x) then multiset(Split(likes.value, ','))[x] else 0 {
        FilterCount(Split(likes.value, ','), NonBlank, x);
      }
      r
  }

  /** The toggle: with the user present, every occurrence of them is removed and the rest
      kept in order; otherwise they are appended. */
  function ToggleLikes(current: seq<string>, userId: string): (r: seq<string>)
    ensures userId in current ==> userId !in r && IsSubsequence(r, current)
    ensures userId in current ==> forall i :: 0 <= i < |current| && current[i] != userId ==> current[i] in r
    ensures userId in current ==> forall x :: x != userId ==> multiset(r)[x] == multiset(current)[x]
    ensures userId !in current ==> r == current + [userId]
  {
    if userId in current then
      var r := Filter(current, (e: string) => e != userId);
      forall x | x != userId ensures multiset(r)[x] == multiset(current)[x] {
        FilterCount(current, (e: string) => e != userId, x);
      }
      r
    else current + [userId]
  }

  /** Parsing a join gives the list back when every entry is non-blank and comma-free. */
  lemma {:induction false} ParseJoin(l: seq<string>)
    requires forall i :: 0 <= i < |l| ==> NonBlank(l[i]) && ',' !in l[i]
    ensures ParseLikes(Some(Join(l, ','))) == l
  {
    if |l| > 0 {
      SplitJoin(l, ',');
      FilterAllPass(l, NonBlank);
      if Join(l, ',') == "" {
        assert |l| == 1 && l[0] == "";
        assert IsBlank(l[0]);
      }
    }
  }

  /** `hasUserLiked`: false without a review, without likes or without a user id; otherwise
      whether the id is one of the parsed entries. */
  function HasUserLiked(review: Option<Review>, userId: string): (r: bool)
    ensures review.None? || review.value.likes.None? || review.value.likes == Some("") || userId == "" ==> !r
    ensures r <==> userId != "" && review.Some? && userId in ParseLikes(review.value.likes)
  {
    if review.None? || review.value.likes.None? || review.value.likes.value == "" || userId == "" then false
    else userId in ParseLikes(review.value.likes)
  }

  /** The likes string `toggleLike` sends for a review it found. For a clean user id, parsing
      it back gives exactly the toggled list. */
  function ToggledLikes(review: Review, userId: string): (r: string)
    ensures NonBlank(userId) && ',' !in userId ==> ParseLikes(Some(r)) == ToggleLikes(ParseLikes(review.likes), userId)
  {
    var toggled := ToggleLikes(ParseLikes(review.likes), userId);
    if NonBlank(userId) && ',' !in userId then
      ToggleKeepsEntriesClean(ParseLikes(review.likes), userId);
      ParseJoin(toggled);
      Join(toggled, ',')
    else Join(toggled, ',')
  }

  /** A toggle flips `hasUserLiked` for a non-blank, comma-free user id, and leaves every
      other user's like as it was. */
  lemma ToggleFlipsLiked(review: Review, userId: string, other: string)
    requires NonBlank(userId) && ',' !in userId
    requires other != userId
    ensures HasUserLiked(Some(review.(likes := Some(ToggledLikes(review, userId)))), userId)
            == !HasUserLiked(Some(review), userId)
    ensures HasUserLiked(Some(review.(likes := Some(ToggledLikes(review, userId)))), other)
            == HasUserLiked(Some(review), other)
  {
    var current := ParseLikes(review.likes);
    var toggled := ToggleLikes(current, userId);
    ToggleKeepsEntriesClean(current, userId);
    ParseJoin(toggled);
    assert userId != "" by { assert !IsBlank(userId); }
    ToggleMembership(current, userId, other);
  }

  /** Toggling a clean id into or out of a clean list leaves a list of clean entries. */
  lemma ToggleKeepsEntriesClean(current: seq<string>, userId: string)
    requires forall i :: 0 <= i < |current| ==> NonBlank(current[i]) && ',' !in current[i]
    requires NonBlank(userId) && ',' !in userId
    ensures var r := ToggleLikes(current, userId);
            forall i :: 0 <= i < |r| ==> NonBlank(r[i]) && ',' !in r[i]
  {
    var r := ToggleLikes(current, userId);
    if userId in current {
      forall i | 0 <= i < |r| ensures NonBlank(r[i]) && ',' !in r[i] {
        assert r[i] in multiset(r);
        assert multiset(r)[r[i]] == multiset(current)[r[i]];
        assert r[i] in current;
      }
    } else {
      forall i | 0 <= i < |r| ensures NonBlank(r[i]) && ',' !in r[i] {
        if i < |current| {
          assert r[i] == current[i];
        }
      }
    }
  }

  /** The toggled id changes membership; every other id keeps it. */
  lemma ToggleMembership(current: seq<string>, userId: string, other: string)
    requires other != userId
    ensures userId in ToggleLikes(current, userId) <==> userId !in current
    ensures other in ToggleLikes(current, userId) <==> other in current
  {
    var r := ToggleLikes(current, userId);
    if userId in current {
      assert other in r <==> other in multiset(r);
      assert other in current <==> other in multiset(current);
    } else {
      assert r[|current|] == userId;
      if other in r {
        var k :| 0 <= k < |r| && r[k] == other;
        assert current[k] == other;
      }
      if other in current {
        var k :| 0 <= k < |current| && current[k] == other;
        assert r[k] == other;
      }
    }
  }

  /** `canUserDelete`: a review and a truthy user id, and the review's `author_id` strictly
      equal to that id. */
  function CanUserDelete(review: Option<Review>, userId: JsValue): (r: bool)
    ensures review.None? || !Truthy(userId) ==> !r
    ensures review.Some? && Truthy(userId) ==> (r <==> StrictEq(review.value.authorId, userId))
  {
    review.Some? && Truthy(userId) && StrictEq(review.value.authorId, userId)
  }

  /** The review stored from a create whose `author_id` is truthy can be deleted by exactly
      that id: by it, and by no other truthy id. */
  lemma CreatorAloneCanDelete(data: JsObject, now: string, stored: Review, userId: JsValue)
    requires CreateRecord(data, now).Some? && Truthy(Get(data, "author_id"))
    requires stored.authorId == CreateRecord(data, now).value.authorId
    ensures CanUserDelete(Some(stored), Get(data, "author_id"))
    ensures Truthy(userId) ==> (CanUserDelete(Some(stored), userId) <==> userId == Get(data, "author_id"))
  {
  }

  /** The record `create` sends, given the current ISO timestamp. */
  datatype ReviewRecord = ReviewRecord(Name: string, text: JsValue, authorId: JsValue, authorName: JsValue,
                                       createdAt: string, likes: JsValue)

  /** `text?.substring(0, 50)`: `undefined` for `undefined` or `null`, the first 50
      characters of a string, and a thrown `TypeError` (`None`) for any other value. */
  function Excerpt(text: JsValue): (r: Option<JsValue>)
    ensures text.Undefined? || text.Null? ==> r == Some(Undefined)
    ensures text.Str? ==> r == Some(Str(Take(text.s, 50)))
    ensures r.None? <==> !(text.Undefined? || text.Null? || text.Str?)
  {
    match text
    case Undefined => Some(Undefined)
    case Null => Some(Undefined)
    case Str(s) => Some(Str(Take(s, 50)))
    case _ => None
  }

  /** `create`: `Name` is the first 50 characters of the text, or `'리뷰'` when that is
      empty or there is no text; `likes` defaults to `""`. A text that is neither a string nor
      `null`/`undefined` makes the call throw, and `create` returns `null` without sending. */
  function CreateRecord(data: JsObject, now: string): (r: Option<ReviewRecord>)
    ensures r.None? <==> Excerpt(Get(data, "text")).None?
    ensures r.Some? ==> r.value.Name != "" && |r.value.Name| <= 50
    ensures r.Some? && Get(data, "text").Str? && Get(data, "text").s != ""
            ==> r.value.Name == Take(Get(data, "text").s, 50) && r.value.Name <= Get(data, "text").s
    ensures r.Some? && !(Get(data, "text").Str? && Get(data, "text").s != "") ==> r.value.Name == "리뷰"
    ensures r.Some? ==> r.value.text == Get(data, "text") && r.value.createdAt == now
    ensures r.Some? ==> r.value.authorId == Get(data, "author_id") && r.value.authorName == Get(data, "author_name")
    ensures r.Some? ==> r.value.likes == Or(Get(data, "likes"), Str(""))
  {
    match Excerpt(Get(data, "text"))
    case None => None
    case Some(excerpt) =>
      var name := if Truthy(excerpt) then excerpt.s else "리뷰";
      Some(ReviewRecord(name, Get(data, "text"), Get(data, "author_id"), Get(data, "author_name"), now,
                        Or(Get(data, "likes"), Str(""))))
  }

  /** The partial record `update` sends: `Id` and `Name` always (`Name` may be `undefined`,
      which is then not transmitted); the other columns when present. */
  datatype ReviewPatch = ReviewPatch(Id: JsValue, Name: JsValue, text: Option<JsValue>, authorId: Option<JsValue>,
                                     authorName: Option<JsValue>, likes: Option<JsValue>)

  /** `update`: `Name` is the text excerpt, or else the `Name` supplied; text, author id and
      author name are sent when truthy, likes whenever defined. A text that is neither a
      string nor `null`/`undefined` throws, and nothing is sent. */
  function UpdateRecord(id: JsValue, data: JsObject): (r: Option<ReviewPatch>)
    ensures r.None? <==> Excerpt(Get(data, "text")).None?
    ensures r.Some? ==> r.value.Id == ParseIntValue(id)
    ensures r.Some? && Get(data, "text").Str? && Get(data, "text").s != ""
            ==> r.value.Name == Str(Take(Get(data, "text").s, 50))
    ensures r.Some? && !(Get(data, "text").Str? && Get(data, "text").s != "") ==> r.value.Name == Get(data, "Name")
    ensures r.Some? ==> (r.value.text.Some? <==> Truthy(Get(data, "text")))
                        && (r.value.authorId.Some? <==> Truthy(Get(data, "author_id")))
                        && (r.value.authorName.Some? <==> Truthy(Get(data, "author_name")))
                        && (r.value.likes.Some? <==> Defined(data, "likes"))
    ensures r.Some? ==> (r.value.likes.Some? ==> r.value.likes.value == Get(data, "likes"))
                        && (r.value.authorId.Some? ==> r.value.authorId.value == Get(data, "author_id"))
                        && (r.value.text.Some? ==> r.value.text.value == Get(data, "text"))
                        && (r.value.authorName.Some? ==> r.value.authorName.value == Get(data, "author_name"))
  {
    match Excerpt(Get(data, "text"))
    case None => None
    case Some(excerpt) =>
      Some(ReviewPatch(ParseIntValue(id), Or(excerpt, Get(data, "Name")),
                       if Truthy(Get(data, "text")) then Some(Get(data, "text")) else None,
                       if Truthy(Get(data, "author_id")) then Some(Get(data, "author_id")) else None,
                       if Truthy(Get(data, "author_name")) then Some(Get(data, "author_name")) else None,
                       if Defined(data, "likes") then Some(Get(data, "likes")) else None))
  }

  /** `toggleLike`: nothing when the review is not found; otherwise the update that stores the
      toggled list, carrying only `Id`, an absent `Name` and `likes`. */
  function ToggleLike(review: Option<Review>, id: JsValue, userId: string): (r: Option<ReviewPatch>)
    ensures review.None? ==> r.None?
    ensures review.Some? ==> r.Some? && r.value.likes == Some(Str(ToggledLikes(review.value, userId)))
                             && r.value.Name == Undefined && r.value.text.None? && r.value.authorId.None?
                             && r.value.authorName.None?
    ensures review.Some? ==> r.value.Id == ParseIntValue(id)
  {
    if review.None? then None
    else UpdateRecord(id, map["likes" := Str(ToggledLikes(review.value, userId))])
  }

  /** `create` and `update` name a review with a non-empty text alike: the same excerpt of at
      most 50 characters. */
  lemma CreateAndUpdateAgreeOnName(id: JsValue, data: JsObject, now: string)
    requires Get(data, "text").Str? && Get(data, "text").s != ""
    ensures CreateRecord(data, now).Some? && UpdateRecord(id, data).Some?
    ensures UpdateRecord(id, data).value.Name == Str(CreateRecord(data, now).value.Name)
  {
  }
}

=== FILE: seqs.dfy ===
/** Order-preserving selection from a sequence (`Array.prototype.filter`). */
module Seqs {

  /** `s.filter(p)`: the elements satisfying `p`, in their original order. */
  function Filter<T>(s: seq<T>, p: T -> bool): (r: seq<T>)
    ensures |r| <= |s|
    ensures forall i :: 0 <= i < |r| ==> r[i] in s && p(r[i])
    ensures forall i :: 0 <= i < |s| && p(s[i]) ==> s[i] in r
    ensures multiset(r) <= multiset(s)
    ensures IsSubsequence(r, s)
  {
    if |s| == 0 then []
    else
      assert s == [s[0]] + s[1..];
      if p(s[0]) then [s[0]] + Filter(s[1..], p) else Filter(s[1..], p)
  }

  /** `a` can be obtained from `b` by deleting elements; that is, `a` keeps `b`'s order. */
  ghost predicate IsSubsequence<T>(a: seq<T>, b: seq<T>)
    decreases |b|
  {
    |a| == 0 || (|b| > 0 && (if a[0] == b[0] then IsSubsequence(a[1..], b[1..]) else IsSubsequence(a, b[1..])))
  }

  /** Filtering keeps every occurrence of an element that passes. */
  lemma {:induction false} FilterCount<T>(s: seq<T>, p: T -> bool, x: T)
    ensures multiset(Filter(s, p))[x] == if p(x) then multiset(s)[x] else 0
  {
    if |s| > 0 {
      FilterCount(s[1..], p, x);
      assert multiset(s) == multiset{s[0]} + multiset(s[1..]) by {
        assert s == [s[0]] + s[1..];
      }
      if p(s[0]) {
        assert Filter(s, p) == [s[0]] + Filter(s[1..], p);
      } else {
        assert Filter(s, p) == Filter(s[1..], p);
      }
    }
  }

  /** `FilterCount` for every element at once. */
  lemma FilterCounts<T>(s: seq<T>, p: T -> bool)
    ensures forall x :: multiset(Filter(s, p))[x] == if p(x) then multiset(s)[x] else 0
  {
    forall x ensures multiset(Filter(s, p))[x] == if p(x) then multiset(s)[x] else 0 {
      FilterCount(s, p, x);
    }
  }

  /** Any reordering of a filter's result holds exactly the passing elements of the input. */
  lemma PermutedFilter<T>(s: seq<T>, p: T -> bool, r: seq<T>)
    requires multiset(r) == multiset(Filter(s, p))
    ensures forall i :: 0 <= i < |r| ==> p(r[i]) && r[i] in s
    ensures forall i :: 0 <= i < |s| && p(s[i]) ==> s[i] in r
  {
    var f := Filter(s, p);
    forall i | 0 <= i < |r| ensures p(r[i]) && r[i] in s {
      assert r[i] in multiset(f);
      var j :| 0 <= j < |f| && f[j] == r[i];
    }
    forall i | 0 <= i < |s| && p(s[i]) ensures s[i] in r {
      assert s[i] in multiset(f);
    }
  }

  /** A filter whose predicate every element already satisfies changes nothing. */
  lemma {:induction false} FilterAllPass<T>(s: seq<T>, p: T -> bool)
    requires forall i :: 0 <= i < |s| ==> p(s[i])
    ensures Filter(s, p) == s
  {
    if |s| > 0 {
      FilterAllPass(s[1..], p);
      assert s == [s[0]] + s[1..];
    }
  }

  /** Filtering twice with the same predicate is filtering once. */
  lemma FilterIdempotent<T>(s: seq<T>, p: T -> bool)
    ensures Filter(Filter(s, p), p) == Filter(s, p)
  {
    var r := Filter(s, p);
    FilterAllPass(r, p);
  }
}

=== FILE: service.dfy ===
/**
 * The hosted backend, abstracted: a table of rows that is either reachable or not, and the
 * shape of its write responses. Every service in the application maps these the same way:
 * a failed list fetch yields `[]`, a failed lookup `null`, a failed create or update `null`,
 * and a delete is `true` only when some per-record result succeeded.
 */
module Service {
  import opened Options
  import opened Js
  import opened Seqs
  import opened Ordering

  /** The table behind one service, and whether requests to it succeed (`up`). A request that
      is refused (`success: false`) and one that throws are both `up == false`. */
  datatype Store<T> = Store(rows: seq<T>, up: bool)

  /** One per-record result of a create, update or delete request. */
  datatype Item<T> = Item(success: bool, data: T)

  /** A write response: `Failed` when `response.success` is false or the call threw; otherwise
      the optional per-record `results`. */
  datatype Response<T> = Failed | Succeeded(results: Option<seq<Item<T>>>)

  /** The data of the first successful per-record result, if any. */
  function FirstSuccess<T>(items: seq<Item<T>>): (r: Option<T>)
    ensures r.None? <==> forall i :: 0 <= i < |items| ==> !items[i].success
    ensures r.Some? ==> exists i :: 0 <= i < |items| && items[i].success && items[i].data == r.value
                                    && forall j :: 0 <= j < i ==> !items[j].success
  {
    if |items| == 0 then None
    else if items[0].success then Some(items[0].data)
    else
      var r := FirstSuccess(items[1..]);
      assert forall i :: 1 <= i < |items| ==> items[i] == items[1..][i - 1];
      if r.Some? then
        ghost var k :| 0 <= k < |items[1..]| && items[1..][k].success && items[1..][k].data == r.value
                       && forall j :: 0 <= j < k ==> !items[1..][j].success;
        assert items[k + 1] == items[1..][k];
        r
      else r
  }

  /** What `create` and `update` return: `successful[0].data`, or `null`. */
  function WriteResult<T>(resp: Response<T>): (r: Option<T>)
    ensures resp.Failed? ==> r.None?
    ensures r.Some? <==> resp.Succeeded? && resp.results.Some?
                         && exists i :: 0 <= i < |resp.results.value| && resp.results.value[i].success
  {
    match resp
    case Failed => None
    case Succeeded(None) => None
    case Succeeded(Some(items)) => FirstSuccess(items)
  }

  /** What `delete` returns: `true` only when at least one deletion result succeeded. */
  function DeleteResult<T>(resp: Response<T>): (r: bool)
    ensures r <==> resp.Succeeded? && resp.results.Some?
                   && exists i :: 0 <= i < |resp.results.value| && resp.results.value[i].success
  {
    WriteResult(resp).Some?
  }

  /** A list query: `fetchRecords` with a `where` filter and one `orderBy` key. The backend's
      order among rows with equal keys is not known; it is taken to be table order. */
  function Query<T(!new)>(store: Store<T>, matches: T -> bool, key: T -> Key, desc: bool): (r: seq<T>)
    ensures !store.up ==> r == []
    ensures store.up ==> multiset(r) == multiset(Filter(store.rows, matches))
    ensures store.up ==> forall x :: multiset(r)[x] == if matches(x) then multiset(store.rows)[x] else 0
    ensures forall i :: 0 <= i < |r| ==> matches(r[i]) && r[i] in store.rows
    ensures store.up ==> forall i :: 0 <= i < |store.rows| && matches(store.rows[i]) ==> store.rows[i] in r
    ensures Sorted(r, key, desc)
  {
    if !store.up then []
    else
      var selected := Filter(store.rows, matches);
      var r := SortBy(selected, key, desc);
      SortByPermutes(selected, key, desc);
      SortBySorted(selected, key, desc);
      PermutedFilter(store.rows, matches, r);
      FilterCounts(store.rows, matches);
      r
  }

  /** `getRecordById(parseInt(id))`: the row with that `Id`, or `null` when there is none or
      the request fails. */
  function GetById<T>(store: Store<T>, id: JsValue, idOf: T -> int): (r: Option<T>)
    ensures !store.up ==> r.None?
    ensures r.Some? ==> r.value in store.rows && ParseIntValue(id) == Num(idOf(r.value))
    ensures store.up && (exists i :: 0 <= i < |store.rows| && ParseIntValue(id) == Num(idOf(store.rows[i])))
            ==> r.Some?
  {
    if !store.up then None
    else
      var hits := Filter(store.rows, (x: T) => ParseIntValue(id) == Num(idOf(x)));
      if |hits| == 0 then None else Some(hits[0])
  }
}

=== FILE: text.dfy ===
/**
 * String helpers with the meaning of the JavaScript built-ins the application calls:
 * `trim`, `toLowerCase`, `includes`, `substring`, `split` and `join`.
 * Strings are sequences of characters; UTF-16 surrogate pairs are not distinguished.
 */
module Text {

  /** The characters JavaScript's `trim()` strips and the regular-expression class `\s` matches
      (WhiteSpace and LineTerminator of ECMAScript). */
  predicate IsSpace(c: char) {
    var n := c as int;
    n == 0x09 || n == 0x0A || n == 0x0B || n == 0x0C || n == 0x0D || n == 0x20 || n == 0xA0
    || n == 0x1680 || (0x2000 <= n <= 0x200A) || n == 0x2028 || n == 0x2029 || n == 0x202F
    || n == 0x205F || n == 0x3000 || n == 0xFEFF
  }

  /** `!s.trim()`: the string holds nothing but white space (or nothing at all). */
  predicate IsBlank(s: string) {
    forall i :: 0 <= i < |s| ==> IsSpace(s[i])
  }

  /** The number of white-space characters `s` starts with. */
  function LeadingSpaces(s: string): (k: nat)
    ensures k <= |s|
    ensures forall i :: 0 <= i < k ==> IsSpace(s[i])
    ensures k < |s| ==> !IsSpace(s[k])
  {
    if |s| > 0 && IsSpace(s[0]) then 1 + LeadingSpaces(s[1..]) else 0
  }

  /** Where the white space `s` ends with begins. */
  function TrailingStart(s: string): (k: nat)
    ensures k <= |s|
    ensures forall i :: k <= i < |s| ==> IsSpace(s[i])
    ensures k > 0 ==> !IsSpace(s[k - 1])
  {
    if |s| > 0 && IsSpace(s[|s| - 1]) then TrailingStart(s[..|s| - 1]) else |s|
  }

  /** Leading white space removed. */
  function TrimStart(s: string): (r: string)
    ensures |r| <= |s| && r == s[|s| - |r|..]
    ensures IsBlank(s[..|s| - |r|])
    ensures r == [] || !IsSpace(r[0])
  {
    s[LeadingSpaces(s)..]
  }

  /** Trailing white space removed. */
  function TrimEnd(s: string): (r: string)
    ensures |r| <= |s| && r == s[..|r|]
    ensures IsBlank(s[|r|..])
    ensures r == [] || !IsSpace(r[|r| - 1])
  {
    s[..TrailingStart(s)]
  }

  /** `s.trim()` */
  function Trim(s: string): string {
    TrimEnd(TrimStart(s))
  }

  /** The form validators test `!s.trim()`; that is exactly `IsBlank(s)`. */
  lemma TrimEmptyIffBlank(s: string)
    ensures Trim(s) == "" <==> IsBlank(s)
  {
    var t := TrimStart(s);
    if Trim(s) == "" {
      assert IsBlank(t) by { assert t[0..] == t; }
      assert t == [];
      assert s[..|s|] == s;
    } else {
      var r := Trim(s);
      assert !IsSpace(r[0]);
      assert r[0] == t[0];
      assert t[0] == s[|s| - |t|];
    }
  }

  /** ASCII case folding of one character; every other character is left alone. */
  function LowerChar(c: char): char {
    if 'A' <= c <= 'Z' then (c as int + 32) as char else c
  }

  /** `s.toLowerCase()`, restricted to ASCII letters. */
  function Lower(s: string): (r: string)
    ensures |r| == |s|
    ensures forall i :: 0 <= i < |s| ==> r[i] == LowerChar(s[i])
  {
    seq(|s|, i requires 0 <= i < |s| => LowerChar(s[i]))
  }

  /** `hay.includes(needle)`: `needle` occurs as a contiguous block of `hay`. */
  predicate Contains(hay: string, needle: string) {
    exists i | 0 <= i <= |hay| - |needle| :: OccursAt(hay, needle, i)
  }

  /** `needle` starts at position `i` of `hay`. */
  predicate OccursAt(hay: string, needle: string, i: int) {
    0 <= i <= |hay| - |needle| && hay[i..i + |needle|] == needle
  }

  /** Every string contains the empty string, so an empty search term matches everything. */
  lemma ContainsEmpty(hay: string)
    ensures Contains(hay, "")
  {
    assert OccursAt(hay, "", 0);
  }

  /** `s.substring(0, n)` for `n >= 0`. */
  function Take(s: string, n: nat): (r: string)
    ensures |r| == if n <= |s| then n else |s|
    ensures r <= s
  {
    if n <= |s| then s[..n] else s
  }

  /** Clamp an index into `[0, len]` as `String.prototype.substring` does. */
  function Clamp(i: int, len: nat): (r: nat)
    ensures r <= len
    ensures 0 <= i <= len ==> r == i
  {
    if i < 0 then 0 else if i > len then len else i
  }

  /** `s.substring(a, b)`: both ends are clamped into the string and swapped when reversed. */
  function Substring(s: string, a: int, b: int): (r: string)
    ensures 0 <= a <= b <= |s| ==> r == s[a..b]
    ensures 0 <= b <= a <= |s| ==> r == s[b..a]
    ensures a <= 0 && 0 <= b <= |s| ==> r == s[..b]
    ensures 0 <= a <= |s| <= b ==> r == s[a..]
    ensures a <= 0 && |s| <= b ==> r == s
  {
    var x := Clamp(a, |s|);
    var y := Clamp(b, |s|);
    if x <= y then s[x..y] else s[y..x]
  }

  /** `s.substring(a)`: the suffix from the clamped index. */
  function From(s: string, a: int): (r: string)
    ensures 0 <= a <= |s| ==> r == s[a..]
    ensures a <= 0 ==> r == s
    ensures a >= |s| ==> r == ""
  {
    s[Clamp(a, |s|)..]
  }

  /** `s.split(sep)` for a one-character separator. Like JavaScript, the empty string
      splits into one empty piece. */
  function Split(s: string, sep: char): (r: seq<string>)
    ensures |r| >= 1
    decreases |s|
  {
    if |s| == 0 then [""]
    else if s[0] == sep then [""] + Split(s[1..], sep)
    else
      var rest := Split(s[1..], sep);
      [[s[0]] + rest[0]] + rest[1..]
  }

  /** `parts.join(sep)` for a one-character separator; an empty list joins to `""`. */
  function Join(parts: seq<string>, sep: char): string {
    if |parts| == 0 then ""
    else if |parts| == 1 then parts[0]
    else parts[0] + [sep] + Join(parts[1..], sep)
  }

  /** No piece of a split contains the separator. */
  lemma {:induction false} SplitPiecesAvoidSeparator(s: string, sep: char)
    ensures forall i :: 0 <= i < |Split(s, sep)| ==> sep !in Split(s, sep)[i]
    decreases |s|
  {
    if |s| > 0 {
      SplitPiecesAvoidSeparator(s[1..], sep);
    }
  }

  /** Joining the pieces of a split gives the string back. */
  lemma {:induction false} JoinSplit(s: string, sep: char)
    ensures Join(Split(s, sep), sep) == s
    decreases |s|
  {
    if |s| > 0 {
      var rest := Split(s[1..], sep);
      JoinSplit(s[1..], sep);
      if s[0] == sep {
        assert Split(s, sep) == [""] + rest;
        assert s == [sep] + s[1..];
      } else {
        var parts := [[s[0]] + rest[0]] + rest[1..];
        assert Split(s, sep) == parts;
        if |rest| == 1 {
          assert s == [s[0]] + s[1..];
        } else {
          assert parts[1..] == rest[1..];
          assert Join(rest, sep) == rest[0] + [sep] + Join(rest[1..], sep);
          assert s == [s[0]] + s[1..];
        }
      }
    }
  }

  /** Splitting a join of separator-free pieces gives the pieces back. */
  lemma {:induction false} SplitJoin(parts: seq<string>, sep: char)
    requires |parts| >= 1
    requires forall i :: 0 <= i < |parts| ==> sep !in parts[i]
    ensures Split(Join(parts, sep), sep) == parts
    decreases |parts|, |parts[0]|
  {
    if |parts| == 1 {
      SplitOfSeparatorFree(parts[0], sep);
    } else {
      var head := parts[0];
      var tail := parts[1..];
      assert Join(parts, sep) == head + [sep] + Join(tail, sep);
      SplitJoin(tail, sep);
      SplitPrefix(head, Join(tail, sep), sep);
    }
  }

  /** A separator-free string is one piece. */
  lemma {:induction false} SplitOfSeparatorFree(s: string, sep: char)
    requires sep !in s
    ensures Split(s, sep) == [s]
    decreases |s|
  {
    if |s| > 0 {
      assert s[0] != sep;
      assert sep !in s[1..];
      SplitOfSeparatorFree(s[1..], sep);
      assert s == [s[0]] + s[1..];
    }
  }

  /** A separator-free head followed by the separator becomes the first piece. */
  lemma {:induction false} SplitPrefix(head: string, rest: string, sep: char)
    requires sep !in head
    ensures Split(head + [sep] + rest, sep) == [head] + Split(rest, sep)
    decreases |head|
  {
    var s := head + [sep] + rest;
    if |head| == 0 {
      assert s == [sep] + rest;
      assert s[1..] == rest;
    } else {
      assert s[0] == head[0] && head[0] != sep;
      assert s[1..] == head[1..] + [sep] + rest;
      assert sep !in head[1..];
      SplitPrefix(head[1..], rest, sep);
      assert [head[0]] + head[1..] == head;
    }
  }

  /** `s.split(sep)[0]`: the part of `s` before the first separator, or all of `s`. */
  function BeforeFirst(s: string, sep: char): (r: string)
    ensures sep !in r
    ensures r == s || (|r| < |s| && s[..|r|] == r && s[|r|] == sep)
  {
    SplitPiecesAvoidSeparator(s, sep);
    FirstPieceIsPrefix(s, sep);
    Split(s, sep)[0]
  }

  lemma {:induction false} FirstPieceIsPrefix(s: string, sep: char)
    ensures var r := Split(s, sep)[0];
            r == s || (|r| < |s| && s[..|r|] == r && s[|r|] == sep)
    decreases |s|
  {
    if |s| > 0 && s[0] != sep {
      FirstPieceIsPrefix(s[1..], sep);
      var rest := Split(s[1..], sep);
      assert Split(s, sep)[0] == [s[0]] + rest[0];
      assert s == [s[0]] + s[1..];
    }
  }

  /** The piece before the first separator is exactly the separator-free head. */
  lemma BeforeFirstOfHead(head: string, rest: string, sep: char)
    requires sep !in head
    ensures BeforeFirst(head + [sep] + rest, sep) == head
  {
    SplitPrefix(head, rest, sep);
  }
}

=== FILE: url.dfy ===
/**
 * Whether `new URL(s)` accepts a string, approximated by its first requirement: an absolute
 * URL begins with a scheme and a colon.
 */
module Url {

  predicate IsAlpha(c: char) {
    'a' <= c <= 'z' || 'A' <= c <= 'Z'
  }

  predicate IsSchemeChar(c: char) {
    IsAlpha(c) || '0' <= c <= '9' || c == '+' || c == '-' || c == '.'
  }

  /** The end of the run of scheme characters starting at `i`. */
  function SchemeEnd(s: string, i: nat): (e: nat)
    requires i <= |s|
    ensures i <= e <= |s|
    ensures forall j :: i <= j < e ==> IsSchemeChar(s[j])
    ensures e < |s| ==> !IsSchemeChar(s[e])
    decreases |s| - i
  {
    if i == |s| || !IsSchemeChar(s[i]) then i else SchemeEnd(s, i + 1)
  }

  /** What `new URL(s)` accepts, taken as: the string starts with a scheme (a letter, then
      letters, digits, `+`, `-` or `.`) followed by `:`. */
  predicate IsValidUrl(s: string) {
    |s| > 0 && IsAlpha(s[0]) && SchemeEnd(s, 1) < |s| && s[SchemeEnd(s, 1)] == ':'
  }

  lemma UrlExamples()
    ensures IsValidUrl("https://example.com")
    ensures !IsValidUrl("example.com")
  {
    var a := "https://example.com";
    assert a[0] == 'h' && a[1] == 't' && a[2] == 't' && a[3] == 'p' && a[4] == 's' && a[5] == ':';
    SchemeEndIs(a, 1, 5);
    var b := "example.com";
    assert b[0] == 'e' && b[7] == '.';
    assert forall j :: 1 <= j < |b| ==> IsSchemeChar(b[j]);
    SchemeEndIs(b, 1, |b|);
  }

  /** The scan stops exactly at the first character that cannot belong to a scheme. */
  lemma SchemeEndIs(s: string, i: nat, e: nat)
    requires i <= e <= |s|
    requires forall j :: i <= j < e ==> IsSchemeChar(s[j])
    requires e < |s| ==> !IsSchemeChar(s[e])
    ensures SchemeEnd(s, i) == e
  {
  }

  /** A scheme ending in a colon at `i`. */
  ghost predicate SchemeThrough(s: string, i: int) {
    0 < i < |s| && s[i] == ':' && IsAlpha(s[0]) && forall j :: 0 < j < i ==> IsSchemeChar(s[j])
  }

  /** The scan agrees with the plain definition: some prefix is a scheme and a colon. */
  lemma IsValidUrlIffScheme(s: string)
    ensures IsValidUrl(s) <==> exists i :: SchemeThrough(s, i)
  {
    if IsValidUrl(s) {
      assert SchemeThrough(s, SchemeEnd(s, 1));
    }
    if i :| SchemeThrough(s, i) {
      SchemeEndIs(s, 1, i);
    }
  }
}

=== FILE: user_role.dfy ===
/**
 * `useUserRole`: the profile it derives from the signed-in user's `usersext` row, and how a
 * refresh replaces it.
 */
module UserRole {
  import opened Options
  import opened Js
  import opened Service
  import opened Access
  import opened UsersExt

  /** A stored row as the hook reads it: each field through `|| default`, so a missing or
      falsy role is `free`, a falsy admin flag `false`, a missing or zero cohort 0. No row at
      all gives the same defaults. */
  function NormaliseRecord(row: Option<UserRow>): (p: Profile)
    ensures row.None? ==> p == DEFAULT_PROFILE
    ensures row.Some? ==> p.isAdmin == Truthy(row.value.isAdmin)
    ensures row.Some? && row.value.role.Some? && row.value.role.value != "" ==> p.role == row.value.role.value
    ensures row.Some? && (row.value.role.None? || row.value.role == Some("")) ==> p.role == "free"
    ensures row.Some? ==> p.membershipCohort == row.value.membershipCohort.GetOr(0)
    ensures row.Some? ==> p.masterCohort == row.value.masterCohort.GetOr(0)
  {
    match row
    case None => DEFAULT_PROFILE
    case Some(u) =>
      Profile(if u.role.Some? && u.role.value != "" then u.role.value else "free",
              Truthy(u.isAdmin), u.membershipCohort.GetOr(0), u.masterCohort.GetOr(0))
  }

  /** A row with every field empty reads as the default profile. */
  lemma EmptyRowIsDefault(u: UserRow)
    requires u.role.None? && !Truthy(u.isAdmin) && u.membershipCohort.None? && u.masterCohort.None?
    ensures NormaliseRecord(Some(u)) == NormaliseRecord(None) == DEFAULT_PROFILE
  {
  }

  /** What the auth state says about the signed-in user. */
  datatype AuthState = AuthState(isAuthenticated: bool, user: Option<JsObject>)

  /** The outcome of fetching the role: whether the table was consulted, and the profile. */
  datatype Fetched = Fetched(lookedUp: bool, profile: Profile)

  /** The initial fetch: without authentication or without a truthy auth id, the default
      profile and no lookup; otherwise the row found by auth id, normalised (a failed lookup
      finds nothing, so it too gives the default). */
  function FetchUserRole(store: Store<UserRow>, auth: AuthState): (r: Fetched)
    ensures !auth.isAuthenticated || !Truthy(GetIn(auth.user, "id")) ==> r == Fetched(false, DEFAULT_PROFILE)
    ensures auth.isAuthenticated && Truthy(GetIn(auth.user, "id")) ==>
              r.lookedUp && r.profile == NormaliseRecord(FindByAuthId(store, GetIn(auth.user, "id")))
    ensures !store.up ==> r.profile == DEFAULT_PROFILE
  {
    if !auth.isAuthenticated || !Truthy(GetIn(auth.user, "id")) then Fetched(false, DEFAULT_PROFILE)
    else Fetched(true, NormaliseRecord(FindByAuthId(store, GetIn(auth.user, "id"))))
  }

  /** `refreshUserRole`: like the fetch, but when there is no row (or the lookup fails) the
      previous profile is kept rather than reset. */
  function RefreshUserRole(store: Store<UserRow>, auth: AuthState, previous: Profile): (r: Profile)
    ensures !auth.isAuthenticated || !Truthy(GetIn(auth.user, "id")) ==> r == previous
    ensures !store.up ==> r == previous
    ensures auth.isAuthenticated && Truthy(GetIn(auth.user, "id")) && FindByAuthId(store, GetIn(auth.user, "id")).Some?
            ==> r == FetchUserRole(store, auth).profile
  {
    if !auth.isAuthenticated || !Truthy(GetIn(auth.user, "id")) then previous
    else
      var row := FindByAuthId(store, GetIn(auth.user, "id"));
      if row.Some? then NormaliseRecord(row) else previous
  }

  /** The profile `hasAccess` sees for a signed-in user with no row is the default one, so
      only requirement-free checks pass. */
  lemma MissingRowOnlyPassesOpenChecks(store: Store<UserRow>, auth: AuthState, role: Option<string>,
                                       cohort: Option<string>)
    requires auth.isAuthenticated && Truthy(GetIn(auth.user, "id"))
    requires FindByAuthId(store, GetIn(auth.user, "id")).None?
    requires Present(cohort) || (Present(role) && role.value != "free" && role.value != "both")
    ensures !RoleAwareHasAccess(true, FetchUserRole(store, auth).profile, role, cohort)
  {
  }
}

=== FILE: users_ext.dfy ===
/**
 * The `usersext` table service: who counts as an admin, the admin guard on every write, the
 * records it sends, the lookup by auth id, and `ensureUserRecord`, which should give a newly
 * signed-in user a record (the first one as admin).
 *
 * The signed-in user of the hosting SDK, and the user handed to `ensureUserRecord`, are plain
 * objects read field by field, so they are `JsObject`s here.
 */
module UsersExt {
  import opened Options
  import opened Js
  import opened Ordering
  import opened Service

  /** A row of the `usersext` table. `authId` is the column `id` holding the auth user id;
      `isAdmin` is kept as a JavaScript value, since one check compares it with `=== true`
      and the others only test its truthiness. */
  datatype UserRow = UserRow(Id: int, authId: JsValue, email: Option<string>, role: Option<string>,
                             isAdmin: JsValue, membershipCohort: Option<int>, masterCohort: Option<int>,
                             createdOn: string)

  /** `getAll`: every row, most recently created first; `[]` when the fetch fails. */
  function GetAll(store: Store<UserRow>): (r: seq<UserRow>)
    ensures !store.up ==> r == []
    ensures store.up ==> multiset(r) == multiset(store.rows)
    ensures Sorted(r, (u: UserRow) => Text(u.createdOn), true)
  {
    Seqs.FilterAllPass(store.rows, (u: UserRow) => true);
    Query(store, (u: UserRow) => true, (u: UserRow) => Text(u.createdOn), true)
  }

  /** The index of the first row with that auth id, if any. */
  function FirstWithAuthId(rows: seq<UserRow>, authId: JsValue): (r: Option<nat>)
    ensures r.None? <==> forall i :: 0 <= i < |rows| ==> rows[i].authId != authId
    ensures r.Some? ==> r.value < |rows| && rows[r.value].authId == authId
                        && forall j :: 0 <= j < r.value ==> rows[j].authId != authId
  {
    if |rows| == 0 then None
    else if rows[0].authId == authId then Some(0)
    else
      var r := FirstWithAuthId(rows[1..], authId);
      if r.Some? then Some(r.value + 1) else None
  }

  /** `findByAuthId`: the first row whose `id` equals the auth id, or `null` when none does
      or the fetch fails. */
  function FindByAuthId(store: Store<UserRow>, authId: JsValue): (r: Option<UserRow>)
    ensures !store.up ==> r.None?
    ensures r.Some? ==> r.value in store.rows && r.value.authId == authId
    ensures store.up && r.None? ==> forall i :: 0 <= i < |store.rows| ==> store.rows[i].authId != authId
    ensures store.up && r.Some? ==> exists i :: 0 <= i < |store.rows| && store.rows[i] == r.value
                                      && forall j :: 0 <= j < i ==> store.rows[j].authId != authId
  {
    if !store.up then None
    else
      match FirstWithAuthId(store.rows, authId)
      case None => None
      case Some(i) => Some(store.rows[i])
  }

  /** `getCurrentUser`: the row of the SDK's signed-in user, looked up by its `userId`;
      `null` when nobody is signed in or the `userId` is falsy. */
  function CurrentUser(store: Store<UserRow>, session: Option<JsObject>): (r: Option<UserRow>)
    ensures !Truthy(GetIn(session, "userId")) ==> r.None?
    ensures r.Some? ==> r.value in store.rows && r.value.authId == GetIn(session, "userId")
  {
    if session.Some? && Truthy(Get(session.value, "userId")) then FindByAuthId(store, Get(session.value, "userId"))
    else None
  }

  /** `checkAdminPermission`: the signed-in user has a row whose `is_admin` is exactly `true`. */
  predicate CheckAdminPermission(store: Store<UserRow>, session: Option<JsObject>) {
    var u := CurrentUser(store, session);
    u.Some? && u.value.isAdmin == Bool(true)
  }

  /** Admin permission needs a row: on an empty or unreachable table nobody has it. */
  lemma NoAdminWithoutRows(store: Store<UserRow>, session: Option<JsObject>)
    requires store.rows == [] || !store.up
    ensures !CheckAdminPermission(store, session)
  {
  }

  /** A row whose `is_admin` is truthy but not `true` (say `1`) gives no write permission,
      though `useUserRole` treats the same row as an admin's. */
  lemma StrictAdminFlag(store: Store<UserRow>, session: Option<JsObject>)
    requires CurrentUser(store, session).Some? && CurrentUser(store, session).value.isAdmin == Num(1)
    ensures !CheckAdminPermission(store, session)
    ensures Truthy(CurrentUser(store, session).value.isAdmin)
  {
  }

  /** The outcome of a guarded write: the request sent to the backend, if any, and what the
      call returns. */
  datatype Call<Req, Res> = Call(request: Option<Req>, result: Res)

  /** The record `create` sends: `Name` is the email or `'User'`; role, admin flag and the
      cohorts default through `||`. */
  datatype UserRecord = UserRecord(Name: JsValue, authId: JsValue, email: JsValue, role: JsValue,
                                   isAdmin: JsValue, membershipCohort: JsValue, masterCohort: JsValue)

  function CreateRecord(data: JsObject): (r: UserRecord)
    ensures Truthy(r.Name) && Truthy(r.role)
    ensures r.Name == (if Truthy(Get(data, "email")) then Get(data, "email") else Str("User"))
    ensures r.authId == Get(data, "id") && r.email == Get(data, "email")
    ensures r.role == (if Truthy(Get(data, "role")) then Get(data, "role") else Str("free"))
    ensures !Truthy(Get(data, "is_admin")) ==> r.isAdmin == Bool(false)
    ensures Truthy(Get(data, "is_admin")) ==> r.isAdmin == Get(data, "is_admin")
    ensures !Truthy(Get(data, "membership_cohort")) ==> r.membershipCohort == Num(0)
    ensures !Truthy(Get(data, "master_cohort")) ==> r.masterCohort == Num(0)
    ensures Truthy(Get(data, "membership_cohort")) ==> r.membershipCohort == Get(data, "membership_cohort")
    ensures Truthy(Get(data, "master_cohort")) ==> r.masterCohort == Get(data, "master_cohort")
  {
    UserRecord(Or(Get(data, "email"), Str("User")), Get(data, "id"), Get(data, "email"),
               Or(Get(data, "role"), Str("free")), Or(Get(data, "is_admin"), Bool(false)),
               Or(Get(data, "membership_cohort"), Num(0)), Or(Get(data, "master_cohort"), Num(0)))
  }

  /** `create`: refused, with nothing sent and `null` returned, unless the caller is an admin;
      otherwise the record is sent and the first successful result returned. */
  function Create(store: Store<UserRow>, session: Option<JsObject>, data: JsObject,
                  resp: Response<UserRow>): (r: Call<UserRecord, Option<UserRow>>)
    ensures r.request.Some? <==> CheckAdminPermission(store, session)
    ensures r.request.None? ==> r.result.None?
    ensures r.request.Some? ==> r.request.value == CreateRecord(data) && r.result == WriteResult(resp)
  {
    if !CheckAdminPermission(store, session) then Call(None, None)
    else Call(Some(CreateRecord(data)), WriteResult(resp))
  }

  /** The partial record `update` sends: `Id` always; `Name` and `email` together when the
      email is truthy; each other column whenever it is not `undefined`, as given. */
  datatype UserPatch = UserPatch(Id: JsValue, Name: Option<JsValue>, email: Option<JsValue>, role: Option<JsValue>,
                                 isAdmin: Option<JsValue>, membershipCohort: Option<JsValue>,
                                 masterCohort: Option<JsValue>)

  /** A column sent as given whenever it is not `undefined`: `false`, `0` and `""` are sent. */
  function IfDefined(data: JsObject, k: string): (r: Option<JsValue>)
    ensures r.Some? <==> Defined(data, k)
    ensures r.Some? ==> r.value == Get(data, k)
  {
    if Defined(data, k) then Some(Get(data, k)) else None
  }

  function UpdateRecord(id: JsValue, data: JsObject): (r: UserPatch)
    ensures r.Id == ParseIntValue(id)
    ensures r.Name == r.email && (r.email.Some? <==> Truthy(Get(data, "email")))
    ensures r.email.Some? ==> r.email.value == Get(data, "email")
    ensures r.role == IfDefined(data, "role") && r.isAdmin == IfDefined(data, "is_admin")
    ensures r.membershipCohort == IfDefined(data, "membership_cohort")
    ensures r.masterCohort == IfDefined(data, "master_cohort")
  {
    var email := if Truthy(Get(data, "email")) then Some(Get(data, "email")) else None;
    UserPatch(ParseIntValue(id), email, email, IfDefined(data, "role"), IfDefined(data, "is_admin"),
              IfDefined(data, "membership_cohort"), IfDefined(data, "master_cohort"))
  }

  /** An edit of one column sends the id and that column only. */
  lemma UpdateOfOneColumn(id: JsValue, k: string, v: JsValue)
    requires k in {"role", "is_admin", "membership_cohort", "master_cohort"} && v != Undefined
    ensures var r := UpdateRecord(id, map[k := v]);
            r.Name.None? && r.email.None?
            && (r.role.Some? <==> k == "role") && (r.isAdmin.Some? <==> k == "is_admin")
            && (r.membershipCohort.Some? <==> k == "membership_cohort")
            && (r.masterCohort.Some? <==> k == "master_cohort")
  {
  }

  /** `update`: refused, with nothing sent and `null` returned, unless the caller is an admin. */
  function Update(store: Store<UserRow>, session: Option<JsObject>, id: JsValue, data: JsObject,
                  resp: Response<UserRow>): (r: Call<UserPatch, Option<UserRow>>)
    ensures r.request.Some? <==> CheckAdminPermission(store, session)
    ensures r.request.None? ==> r.result.None?
    ensures r.request.Some? ==> r.request.value == UpdateRecord(id, data) && r.result == WriteResult(resp)
  {
    if !CheckAdminPermission(store, session) then Call(None, None)
    else Call(Some(UpdateRecord(id, data)), WriteResult(resp))
  }

  /** `delete`: refused, with nothing sent and `false` returned, unless the caller is an
      admin; otherwise `true` iff some deletion succeeded. The request is the id to delete. */
  function Delete(store: Store<UserRow>, session: Option<JsObject>, id: JsValue,
                  resp: Response<UserRow>): (r: Call<JsValue, bool>)
    ensures r.request.Some? <==> CheckAdminPermission(store, session)
    ensures r.request.None? ==> !r.result
    ensures r.request.Some? ==> r.request.value == ParseIntValue(id) && (r.result <==> DeleteResult(resp))
  {
    if !CheckAdminPermission(store, session) then Call(None, false)
    else Call(Some(ParseIntValue(id)), DeleteResult(resp))
  }

  /** The user id and email `ensureUserRecord` reads, under either of the SDK's names. */
  function UserIdOf(currentUser: Option<JsObject>): JsValue {
    Or(GetIn(currentUser, "id"), GetIn(currentUser, "userId"))
  }

  function EmailOf(currentUser: Option<JsObject>): JsValue {
    Or(GetIn(currentUser, "email"), GetIn(currentUser, "emailAddress"))
  }

  /** What `ensureUserRecord` did: whether it looked the user up, the create request it sent
      (if any), and what it returns. */
  datatype Ensured = Ensured(lookedUp: bool, created: Option<UserRecord>, user: Option<UserRow>)

  /** The data `ensureUserRecord` builds for a missing user: a free user in no cohort, admin
      exactly when the table looked empty. */
  function NewUserData(userId: JsValue, email: JsValue, isFirstUser: bool): (r: JsObject)
    ensures Get(r, "id") == userId && Get(r, "email") == email && Get(r, "role") == Str("free")
    ensures Get(r, "is_admin") == Bool(isFirstUser)
    ensures Get(r, "membership_cohort") == Num(0) && Get(r, "master_cohort") == Num(0)
  {
    map["id" := userId, "email" := email, "role" := Str("free"), "is_admin" := Bool(isFirstUser),
        "membership_cohort" := Num(0), "master_cohort" := Num(0)]
  }

  /** `ensureUserRecord` as written. `session` is the SDK's signed-in user, whom the admin
      guard of `create` consults; `resp` is the backend's answer to the create request. */
  function EnsureUserRecord(store: Store<UserRow>, session: Option<JsObject>, currentUser: Option<JsObject>,
                            resp: Response<UserRow>): (r: Ensured)
    ensures !Truthy(UserIdOf(currentUser)) || !Truthy(EmailOf(currentUser)) ==> r == Ensured(false, None, None)
    ensures FindByAuthId(store, UserIdOf(currentUser)).Some? && r.lookedUp
            ==> r.created.None? && r.user == FindByAuthId(store, UserIdOf(currentUser))
    ensures r.created.Some? ==> r.lookedUp && FindByAuthId(store, UserIdOf(currentUser)).None?
                                && CheckAdminPermission(store, session)
    ensures Truthy(UserIdOf(currentUser)) && Truthy(EmailOf(currentUser)) ==> r.lookedUp
    ensures Truthy(UserIdOf(currentUser)) && Truthy(EmailOf(currentUser))
            && FindByAuthId(store, UserIdOf(currentUser)).Some?
            ==> r.created.None? && r.user == FindByAuthId(store, UserIdOf(currentUser))
    ensures Truthy(UserIdOf(currentUser)) && Truthy(EmailOf(currentUser))
            && FindByAuthId(store, UserIdOf(currentUser)).None?
            ==> (r.created.Some? <==> CheckAdminPermission(store, session))
                && (r.created.Some? ==> r.created.value == CreateRecord(NewUserData(UserIdOf(currentUser), EmailOf(currentUser), |GetAll(store)| == 0))
                                        && r.user == WriteResult(resp))
                && (r.created.None? ==> r.user.None?)
  {
    var userId := UserIdOf(currentUser);
    var email := EmailOf(currentUser);
    if !Truthy(userId) || !Truthy(email) then Ensured(false, None, None)
    else
      var existing := FindByAuthId(store, userId);
      if existing.Some? then Ensured(true, None, existing)
      else
        var isFirstUser := |GetAll(store)| == 0;
        var call := Create(store, session, NewUserData(userId, email, isFirstUser), resp);
        Ensured(true, call.request, call.result)
  }

  /** As written, `ensureUserRecord` never sends a record with `is_admin: true`: when the
      table is empty (or unreachable) the admin guard of `create` finds no row for anyone and
      refuses, and otherwise the table is not empty. */
  lemma {:induction false} EnsureNeverCreatesAdmin(store: Store<UserRow>, session: Option<JsObject>,
                                                   currentUser: Option<JsObject>, resp: Response<UserRow>)
    ensures var r := EnsureUserRecord(store, session, currentUser, resp);
            r.created.Some? ==> r.created.value.isAdmin == Bool(false)
    ensures store.rows == [] ==> EnsureUserRecord(store, session, currentUser, resp).created.None?
  {
    var r := EnsureUserRecord(store, session, currentUser, resp);
    if r.created.Some? {
      assert CheckAdminPermission(store, session);
      assert store.up && store.rows != [];
      assert |multiset(store.rows)| > 0;
      assert |GetAll(store)| != 0;
    }
    if store.rows == [] {
      NoAdminWithoutRows(store, session);
    }
  }

  /** As written, a user signing in for the first time, when they are the SDK's signed-in user
      (the usual call), never gets a record: the guard looks them up in the table that lacks
      them. */
  lemma EnsureNeverCreatesSelf(store: Store<UserRow>, session: Option<JsObject>, currentUser: Option<JsObject>,
                               resp: Response<UserRow>)
    requires GetIn(session, "userId") == UserIdOf(currentUser)
    requires FindByAuthId(store, UserIdOf(currentUser)).None?
    ensures EnsureUserRecord(store, session, currentUser, resp).created.None?
    ensures EnsureUserRecord(store, session, currentUser, resp).user.None?
  {
  }

  /** `ensureUserRecord` as evidently intended: a user creates their own record without the
      admin guard, and the first user in an empty table becomes the admin. */
  function EnsureUserRecordBootstrap(store: Store<UserRow>, currentUser: Option<JsObject>,
                                     resp: Response<UserRow>): (r: Ensured)
    ensures !Truthy(UserIdOf(currentUser)) || !Truthy(EmailOf(currentUser)) ==> r == Ensured(false, None, None)
    ensures FindByAuthId(store, UserIdOf(currentUser)).Some? && r.lookedUp
            ==> r.created.None? && r.user == FindByAuthId(store, UserIdOf(currentUser))
    ensures Truthy(UserIdOf(currentUser)) && Truthy(EmailOf(currentUser)) ==> r.lookedUp
    ensures Truthy(UserIdOf(currentUser)) && Truthy(EmailOf(currentUser))
            && FindByAuthId(store, UserIdOf(currentUser)).None?
            ==> r.created == Some(CreateRecord(NewUserData(UserIdOf(currentUser), EmailOf(currentUser), |GetAll(store)| == 0)))
                && r.user == WriteResult(resp)
  {
    var userId := UserIdOf(currentUser);
    var email := EmailOf(currentUser);
    if !Truthy(userId) || !Truthy(email) then Ensured(false, None, None)
    else
      var existing := FindByAuthId(store, userId);
      if existing.Some? then Ensured(true, None, existing)
      else
        var isFirstUser := |GetAll(store)| == 0;
        Ensured(true, Some(CreateRecord(NewUserData(userId, email, isFirstUser))), WriteResult(resp))
  }

  /** With the bootstrap, a valid user with no record always gets a create request for a free
      user in no cohort, and in an empty table that record makes them admin. */
  lemma BootstrapCreatesFirstAdmin(store: Store<UserRow>, currentUser: Option<JsObject>, resp: Response<UserRow>)
    requires Truthy(UserIdOf(currentUser)) && Truthy(EmailOf(currentUser))
    requires store.up && FindByAuthId(store, UserIdOf(currentUser)).None?
    ensures var r := EnsureUserRecordBootstrap(store, currentUser, resp);
            r.created.Some? && r.created.value.authId == UserIdOf(currentUser)
            && r.created.value.email == EmailOf(currentUser) && r.created.value.role == Str("free")
            && r.created.value.membershipCohort == Num(0) && r.created.value.masterCohort == Num(0)
            && (r.created.value.isAdmin == Bool(true) <==> store.rows == [])
  {
    var userId := UserIdOf(currentUser);
    var email := EmailOf(currentUser);
    var all := GetAll(store);
    assert |all| == 0 <==> store.rows == [] by {
      assert |all| == |multiset(all)| == |multiset(store.rows)| == |store.rows|;
    }
    var isFirstUser := |all| == 0;
    var data := NewUserData(userId, email, isFirstUser);
    assert Get(data, "is_admin") == Bool(isFirstUser);
  }
}
